=== FILE: README.md ===
# InterviewCoach core, modelled in Dafny

InterviewCoach is a job-search and interview-preparation assistant. This
project models its deterministic core and proves properties of it:

- the job discovery pipeline: SerpAPI Google-Jobs querying and paging
  (`serpapi_async.py`, `job_search_pipeline.py`), the projection of raw
  results (`serpapi_job_search.py`), the relevance filters (`filters.py`) and
  the ranking contract whose schema every ranked job must meet;
- the post-processing of language-model output: fence stripping and JSON
  span extraction (`llm_job_filter.py`, `llm_job_filter_two_step.py`), the
  parsing of the agent's final answer and of the resume analysis
  (`job_search_agent.py`), and the company-profile section parser
  (`company_profile_agent.py`);
- the resume and job-description text utilities: chunking (`chunking.py`),
  the merge of per-chunk parses (`openai_resume_jd_parsing.py`), the parse
  caches (`cache.py`), the required-field validation (`validation.py`) and
  the snippet and bullet extractors (`utils.py`);
- the three interview-prep wizard stores of the front end
  (`frontend/src/store/interview-prep-store.ts`, its v2 variant and
  `frontend/src/store/interview-prep-v3-store.ts`).

One Dafny module per source file; `Wrappers` (`Option`, `Result`), `Text`
(Python's `str` operations on `seq<char>`), `Json` (decoded JSON values and
Python truthiness), `Listings` (the job record) and `Steps` (the completed-step
list the stores share) hold what several files use. Python exceptions become
`Err` values; the network, the language model, the clock, `dateparser`,
SHA-256 and regular expressions too rich to restate are parameters (oracle
functions), named in each module's header comment.

## Model

| member | source | states |
|---|---|---|
| `Cache.GetCachedResume` | cache.py:12-14 | a resume parse is found exactly when the text's digest is a key of the resume cache, and it is the value stored there |
| `Cache.SetCachedResume` | cache.py:16-18 | storing a resume parse adds the text's digest to the resume cache, keeps every other entry and leaves the job-description cache alone |
| `Cache.GetCachedJd` | cache.py:20-22 | a job-description parse is found exactly when the digest is a key of that cache, with the stored value |
| `Cache.SetCachedJd` | cache.py:24-26 | storing a job-description parse adds the digest, keeps every other entry and leaves the resume cache alone |
| `Cache.GetAfterSet` | cache.py:12-26 | a lookup right after storing a text returns what was stored, in both caches |
| `Cache.SetLeavesOthers` | cache.py:16-26 | storing one text never changes the lookup of a text with another digest |
| `Cache.SecondSetOverwrites` | cache.py:16-26 | storing the same text twice is the same as storing only the second value |
| `Cache.CachesIndependent` | cache.py:6-7 | the two caches are separate dictionaries: a store into one never changes a lookup in the other |
| `Cache.NeverSetResumeIsNone` | cache.py:12-18 | after any sequence of stores none of which used a text's digest for a resume, that text still misses the resume cache |
| `Cache.NeverSetJdIsNone` | cache.py:20-26 | the same for the job-description cache |
| `Cache.FreshCachesMiss` | cache.py:6-26 | starting from the empty caches, with a collision-free digest, a text never stored misses in both caches |
| `Validation.FlaggedMembership` | validation.py:8-16 | in a list of distinct check names, a name is reported exactly when its check fails |
| `Validation.Verdict` | validation.py:17 | the verdict is valid exactly when nothing is missing, and carries the missing list unchanged |
| `Validation.ValidateResume` | validation.py:3-17 | positions, skills, then a present-but-falsy achievements entry are reported in that order, and the resume is valid exactly when none is reported |
| `Validation.ValidateJd` | validation.py:19-27 | role title, requirements and responsibilities are reported in that order when falsy; valid exactly when none is |
| `Validation.ResumeChecksExact` | validation.py:9-16 | each resume check is reported exactly when its condition holds; an absent achievements key is never reported |
| `Validation.JdChecksExact` | validation.py:21-26 | each job-description field is reported exactly when it is missing or falsy |
| `Chunking.Windows` | chunking.py:19 | the `range(0, n, m)` slices: each holds between one and `m` items and all but the last hold exactly `m` |
| `Chunking.WindowsFlatten` | chunking.py:19-21 | the slices put back together are the original list: nothing is lost, repeated or reordered |
| `Chunking.WindowAt` | chunking.py:32 | slice `k` is `words[k*m : k*m+m]`, the comprehension's `k`-th element |
| `Chunking.WindowIndices` | chunking.py:32 | slice `k` exists exactly when `k*m < len(words)`, as many as `range` yields |
| `Chunking.WindowsOfWords` | chunking.py:19-20 | the slices of a word list are word lists |
| `Chunking.JoinAllWords` | chunking.py:20 | splitting the space-joined slices again gives back all their words in order |
| `Chunking.JoinedWindowsTrimmed` | chunking.py:20 | each space-joined slice of words is non-empty with no space at either end |
| `Chunking.JoinedWindows` | chunking.py:19-21 | a zero limit raises `ValueError` (a zero `range` step), a negative limit yields nothing, otherwise the joined slices |
| `Chunking.ChunkJdText` | chunking.py:27-32 | fails exactly when the limit is zero and the text has words; a text within the limit is returned stripped as one chunk; a negative limit with more words yields nothing; a longer text is cut into trimmed chunks of one to `m` words, all full but the last |
| `Chunking.JdChunksKeepWords` | chunking.py:27-32 | with a positive limit the job-description chunks hold exactly the words of the text, in order |
| `Chunking.JdChunkAt` | chunking.py:32 | a long job description's chunk `k` is the space join of words `k*m` to `k*m+m` |
| `Chunking.BlankJdIsOneEmptyChunk` | chunking.py:28-30 | a blank job description gives one empty chunk rather than none |
| `Chunking.ChunksOf` | chunking.py:16-24 | one section's chunks: the zero-limit failure, its stripped text when short and non-blank, nothing when blank, the joined slices when long |
| `Chunking.SectionChunks` | chunking.py:15-24 | a section fails exactly when the limit is zero and it has words; a section within the limit gives its stripped text when non-blank; every chunk is trimmed |
| `Chunking.ChunkSections` | chunking.py:14-24 | the loop over sections stops at the first failure, and every chunk it collects is trimmed |
| `Chunking.ChunkSectionsFails` | chunking.py:15-19 | the loop fails exactly when the limit is zero and some section has a word |
| `Chunking.NonEmptyChunks` | chunking.py:25 | the final filter keeps exactly the non-empty chunks, in order |
| `Chunking.ChunkResumeText` | chunking.py:8-25 | fails exactly when the limit is zero and some section has a word; every chunk is non-empty with no space at either end |
| `Chunking.FilterKeepsAll` | chunking.py:25 | the final filter never removes anything: no section yields an empty chunk |
| `Chunking.ChunksOfKeepWords` | chunking.py:16-24 | with a positive limit a section's chunks hold exactly its words |
| `Chunking.SectionKeepsWords` | chunking.py:15-24 | the same, stated for a section's text |
| `Chunking.ResumeChunksKeepWords` | chunking.py:14-25 | with a positive limit the resume chunks hold exactly the words of all sections, in order |
| `Chunking.ResumeChunks` | chunking.py:8-25 | end to end: a positive limit never fails, and the chunks hold every word of every section in order |
| `Chunking.NegativeLimitNoChunks` | chunking.py:15-25 | a negative limit makes every section's `range` empty, so no chunk is produced |
| `ResumeUtils.NumeralRoundTrip` | utils.py:28 | the decimal numeral of the snippet counter reads back as the counter |
| `ResumeUtils.NumeralInjective` | utils.py:28 | different counters give different numerals |
| `ResumeUtils.SnippetOf` | utils.py:23-27 | a line gives a snippet exactly when its stripped text is long enough and has no e-mail, phone number or URL, and the snippet is its first 120 characters |
| `ResumeUtils.Candidates` | utils.py:22-27 | every candidate snippet is at most 120 characters and at least the minimum length (capped at 120) |
| `ResumeUtils.Numbered` | utils.py:28 | the snippets are numbered "R1", "R2", ... in order |
| `ResumeUtils.CandidatesOfPrefix` | utils.py:22-29 | the snippets gathered from the first lines are a prefix of those of all lines |
| `ResumeUtils.ConsiderLine` | utils.py:23-27 | the stripped line, cut to 120 characters, extends the candidates exactly when it is kept, and a line that is not kept leaves them as they were |
| `ResumeUtils.SkipLine` | utils.py:25-26 | a line that does not qualify adds no snippet |
| `ResumeUtils.KeepStep` | utils.py:27-29 | appending the kept text under the next id gives the numbered candidates of one more line |
| `ResumeUtils.TakeLine` | utils.py:27-29 | a qualifying line adds the next numbered snippet |
| `ResumeUtils.CapReached` | utils.py:30-31 | once the cap is reached, the snippets gathered are the first ones of all candidates |
| `ResumeUtils.LoopExit` | utils.py:22-32 | whether the loop stops on the cap or after the last line, the snippets are the first `cap` numbered candidates |
| `ResumeUtils.ExtractResumeSnippets` | utils.py:14-32 | as written: the first `max(max_snippets, 1)` candidates, numbered from R1 |
| `ResumeUtils.NonPositiveLimitYieldsOne` | utils.py:28-31 | as written, a limit of zero or less still yields one snippet when some line qualifies |
| `ResumeUtils.RunOfXQualifies` | utils.py:17-19 | a run of 'x' contains no e-mail, phone number or URL and needs no stripping |
| `ResumeUtils.HasEmail` | utils.py:16 | `\S+@\S+` can only be found in a text of three or more characters with an '@' that is neither first nor last |
| `ResumeUtils.HasPhone` | utils.py:17 | the phone pattern can only be found in a text of ten or more characters |
| `ResumeUtils.HasUrl` | utils.py:18 | `https?://` can only be found in a text of seven or more characters |
| `ResumeUtils.EmailExample` | utils.py:16 | "jane@example.com" is recognised as an address |
| `ResumeUtils.PhoneExamples` | utils.py:17 | "(555) 123-4567", "555.123.4567" and "5551234567" are recognised as phone numbers |
| `ResumeUtils.UrlExample` | utils.py:18 | a link inside a line is recognised |
| `ResumeUtils.ZeroLimitStillYieldsOne` | utils.py:14-32 | one line of sixty 'x' with `max_snippets=0` gives one snippet |
| `ResumeUtils.ExtractResumeSnippetsFixed` | utils.py:14-32 | with the counter compared before appending: never more than `max(max_snippets, 0)` snippets, the first candidates in order, numbered from R1, each at most 120 characters |
| `ResumeUtils.SnippetIdsDistinct` | utils.py:28-29 | no two snippets share an id |
| `ResumeUtils.CleanBullet` | utils.py:38 | a cleaned line has no space at either end and is no longer than the line |
| `ResumeUtils.BulletOf` | utils.py:38-40 | a line is kept exactly when its cleaned form is 26 to 249 characters long, and then it is that cleaned form |
| `ResumeUtils.Bullets` | utils.py:37-40 | every kept bullet has bullet length and starts with a non-space |
| `ResumeUtils.BulletsAreKeptCleanLines` | utils.py:37-40 | the bullets are exactly the cleaned lines longer than 25 and shorter than 250 characters, none dropped and in line order |
| `ResumeUtils.ExtractResumeBullets` | utils.py:35-41 | for `k >= 0`, `min(k, n)` bullets of the `n` the text has, and for negative `k` all but the last `-k`; each has bullet length, and they are the first bullets of the text in order |
| `Text.FilterAppend` | utils.py:37-40 | filtering a concatenation filters each part in turn |
| `ResumeUtils.CleanLineIsClean` | utils.py:38 | a line with no bullet character or space at either end is left as it is |
| `ResumeUtils.CleanLineIsKept` | utils.py:38-40 | such a line of bullet length is kept unchanged |
| `Filters.NumberAt` | filters.py:13 | `\d{1,2}` matches exactly where a digit stands; its value is 0 to 99 and the match is greedy |
| `Filters.SkipSpaces` | filters.py:13 | `\s*` stops at the first non-space after the position |
| `Filters.YearsOfRangePhrase` | filters.py:13-15 | "N-M years" reads as the floor of the midpoint of N and M |
| `Filters.NoDashNoRange` | filters.py:13 | a text without a '-' never matches the range pattern |
| `Filters.YearsOfSinglePhrase` | filters.py:12-17 | "N years" and "N+ years" read as N: the range pattern cannot match, and the single-figure pattern matches with its '+' optional |
| `Filters.YearsWithoutDigits` | filters.py:12-17 | a text without a digit states no number of years |
| `Filters.Years` | filters.py:12-17 | every number of years read is between 0 and 99, as the two-digit patterns allow |
| `Filters.AnyBandAcceptsAll` | filters.py:20-22 | the band "any", in any letter case, accepts every job |
| `Filters.BandAliases` | filters.py:23-28 | "entry", "mid" and "senior" behave exactly like their `*_level` configuration keys |
| `Filters.BandAcceptance` | filters.py:28-39 | a configured band accepts exactly when one of its patterns or its year range matches and no other band's pattern matches |
| `Filters.BandMutualExclusion` | filters.py:34-39 | text matching the patterns of two different bands is rejected for both |
| `Filters.AtMostOneBandAccepts` | filters.py:31-39 | once any configured band's pattern matches, at most one band accepts the job |
| `Filters.MatchesExperienceBand` | filters.py:19-39 | the check raises `KeyError` exactly when the band is not "any" and its key is not configured; a configured band that accepts has no other band's pattern in the text |
| `Filters.NoPreferenceIsUnion` | filters.py:41-49 | "Remote only" and "On-site only" never both accept, and every other preference accepts exactly what one of them accepts |
| `Filters.EmptyCityAcceptsAll` | filters.py:43-49 | with no preference, an empty or missing city accepts every location |
| `Filters.RemoteOnlyScenario` | filters.py:44-45 | "Anywhere (Remote)" passes "Remote only" while "Chicago, IL (Hybrid)" does not |
| `Filters.MatchesLocation` | filters.py:41-49 | under every preference an accepted location contains the city or a remote marker; a location with a remote marker is accepted under every preference except "On-site only" |
| `Filters.LocationRules` | filters.py:41-49 | "Remote only" accepts exactly the locations with a remote marker, "On-site only" exactly those containing the city without a marker, and any other preference exactly those containing the city or a marker |
| `Filters.CityLocationScenario` | filters.py:44-49 | "Chicago, IL" for the city "Chicago" is rejected under "Remote only" and accepted under "On-site only" and with no preference |
| `Filters.FreshnessRules` | filters.py:51-60 | a missing date is fresh, a date with '+' is stale, an unparseable date is fresh, and otherwise fresh exactly when within the window |
| `Filters.FreshnessWindowMonotone` | filters.py:51-60 | widening the window never makes a fresh posting stale |
| `Filters.FreshnessBoundary` | filters.py:60 | with the default 30 days, a posting 31 days old is stale and one 29 days old is fresh |
| `Filters.IsFresh` | filters.py:51-60 | a posting without a date is always fresh, and a dated posting that is fresh has no '+' in its date |
| `CompanyProfileAgent.DropListMarker` | company_profile_agent.py:53 | removing the leading list marker leaves a suffix of the line that does not start with a marker character |
| `CompanyProfileAgent.NonEmptyItems` | company_profile_agent.py:58-59 | the final filters keep exactly the non-empty items, in their original order |
| `CompanyProfileAgent.Finish` | company_profile_agent.py:56-60 | the result has the stripped overview and exactly the non-empty cues and facts, each list in its original order |
| `CompanyProfileAgent.PassKeepsMarkersDropped` | company_profile_agent.py:41-55 | every cue and fact gathered by the loop has its list marker removed |
| `CompanyProfileAgent.ParseCompanyProfileSections` | company_profile_agent.py:29-60 | no cue or fact is empty or starts with a marker character, and the overview has no space at either end |
| `CompanyProfileAgent.FoldAppend` | company_profile_agent.py:41 | the loop over two runs of lines continues from the state the first run leaves |
| `CompanyProfileAgent.PreambleIgnored` | company_profile_agent.py:40-55 | lines before the first numbered header change nothing |
| `CompanyProfileAgent.PreambleDoesNotMatter` | company_profile_agent.py:40-55 | a preamble before the profile does not change the result |
| `CompanyProfileAgent.OverviewRestarts` | company_profile_agent.py:43-45 | a "1." line enters section 1 and replaces the overview with the rest of the line |
| `CompanyProfileAgent.SwitchDropsText` | company_profile_agent.py:46-49 | "2." and "3." lines only switch the section; their text is dropped |
| `CompanyProfileAgent.OverviewAccumulates` | company_profile_agent.py:50-51 | inside section 1, each non-empty line is appended to the overview after a space |
| `CompanyProfileAgent.CuesAccumulate` | company_profile_agent.py:52-53 | inside section 2, each non-empty line becomes a culture cue without its marker, and nothing else changes |
| `CompanyProfileAgent.FactsAccumulate` | company_profile_agent.py:54-55 | inside section 3, each non-empty line becomes a fact without its marker, in order, and nothing else changes |
| `CompanyProfileAgent.FactsSection` | company_profile_agent.py:46-60 | a "3." header followed by section-3 text appends that text's items to the facts in order, the final filter drops the empty ones, and the overview and cues are kept |
| `CompanyProfileAgent.SectionsPass` | company_profile_agent.py:40-55 | the loop over a "1.", a "2." and a "3." section ends in section 3 with the section-1 text as overview and the other two sections' items as cues and facts |
| `CompanyProfileAgent.ProfileSections` | company_profile_agent.py:29-60 | for a profile made of a "1.", a "2." and a "3." section: the overview is the stripped section-1 text, the cues are the non-empty section-2 items and the facts the non-empty section-3 items, each in input order |
| `CompanyProfileAgent.OverviewSection` | company_profile_agent.py:43-57 | "1. x" followed by section-1 text gives the stripped overview of x and the following lines |
| `Steps.MarkStep` | frontend/src/store/interview-prep-store.ts:105-107 | the step is then listed, the listed steps are the old ones plus this one, a listed step leaves the list as it was, and no step is listed twice |
| `Steps.MarkStepIdempotent` | frontend/src/store/interview-prep-store.ts:105-107 | marking the same step twice is marking it once |
| `Steps.MarkStepCommutesAsSet` | frontend/src/store/interview-prep-store.ts:105-107 | marking two steps in either order lists the same steps |
| `Steps.Progress` | frontend/src/store/interview-prep-store.ts:37-40 | the percentage is within one half of `100n/11` |
| `Steps.ProgressIsNearest` | frontend/src/store/interview-prep-store.ts:39 | it is the only integer that near, so it is what `Math.round` gives |
| `Steps.ProgressMonotone` | frontend/src/store/interview-prep-store.ts:37-40 | more completed steps never give a smaller percentage |
| `Steps.ProgressComplete` | frontend/src/store/interview-prep-store.ts:38-39 | no step gives 0 and all eleven give 100 |
| `Steps.ProgressNotClamped` | frontend/src/store/interview-prep-store.ts:37-40 | nothing clamps the percentage: twelve distinct steps give 109 |
| `Steps.DistinctStepsBounded` | frontend/src/store/interview-prep-store.ts:103-113 | distinct steps drawn from a range of `n` values number at most `n` |
| `Steps.ProgressOfWizardSteps` | frontend/src/store/interview-prep-store.ts:37-40 | distinct steps from 0 to 10 never give more than 100 |
| `PrepStore.MarkStepComplete` | frontend/src/store/interview-prep-store.ts:103-113 | the step is added once, the percentage is recomputed from the new list, and no other field changes |
| `PrepStore.MarkStepCompleteIdempotent` | frontend/src/store/interview-prep-store.ts:103-113 | a repeated `markStepComplete` changes nothing |
| `PrepStore.ResetStore` | frontend/src/store/interview-prep-store.ts:43-54 | a reset empties the texts, the steps and the percentage and restores the quick view |
| `PrepStore.SettersKeepProgress` | frontend/src/store/interview-prep-store.ts:61-121 | every action other than `markStepComplete` and `resetStore` keeps the steps and the percentage |
| `PrepStore.SettersAreLocal` | frontend/src/store/interview-prep-store.ts:101-115 | `setCurrentStep` and `setViewMode` set their own field and leave every other field as it was |
| `PrepStore.ApplyConsistent` | frontend/src/store/interview-prep-store.ts:61-121 | every action keeps the steps free of duplicates and the percentage in agreement with them |
| `PrepStore.RunConsistent` | frontend/src/store/interview-prep-store.ts:43-121 | every state reachable from a consistent state is consistent |
| `PrepStore.WizardProgressAtMost100` | frontend/src/store/interview-prep-store.ts:37-113 | while only steps 0 to 10 are marked, the percentage never exceeds 100 |
| `PrepStore.ResetForgets` | frontend/src/store/interview-prep-store.ts:117 | after a reset the earlier history no longer matters |
| `PrepStore.PersistRoundTrip` | frontend/src/store/interview-prep-store.ts:125-131 | the stored fields survive a reload, and the steps, the percentage and the view mode come from the fresh state |
| `PrepStore.StepsNotPersisted` | frontend/src/store/interview-prep-store.ts:125-131 | marking a step does not change what is stored, and after a reload no step is completed |
| `PrepStore.ViewModeNotPersisted` | frontend/src/store/interview-prep-store.ts:125-131 | the view mode is not stored while the current step is |
| `PrepStoreV2.MarkStepComplete` | frontend/src/components/interview-prep/interview-prep-v2-UI/store/interview-prep-store.ts:74-84 | the step is added once, the percentage is recomputed, and no other field changes |
| `PrepStoreV2.MarkStepCompleteIdempotent` | frontend/src/components/interview-prep/interview-prep-v2-UI/store/interview-prep-store.ts:74-84 | a repeated `markStepComplete` changes nothing |
| `PrepStoreV2.CallsAreLocal` | frontend/src/components/interview-prep/interview-prep-v2-UI/store/interview-prep-store.ts:64-90 | each action changes only the field it names, and a reset restores the initial state |
| `PrepStoreV2.RunConsistent` | frontend/src/components/interview-prep/interview-prep-v2-UI/store/interview-prep-store.ts:47-90 | every reachable state keeps distinct steps and a matching percentage |
| `PrepStoreV2.PersistRoundTrip` | frontend/src/components/interview-prep/interview-prep-v2-UI/store/interview-prep-store.ts:95-103 | the stored flag says whether a file was chosen; a reload restores the stored fields but neither the file nor the percentage |
| `PrepStoreV2.ReloadLosesProgress` | frontend/src/components/interview-prep/interview-prep-v2-UI/store/interview-prep-store.ts:95-103 | a reload of a state with completed steps restores the steps with a percentage of 0, which disagrees with them |
| `PrepStoreV2.NextMarkRestoresProgress` | frontend/src/components/interview-prep/interview-prep-v2-UI/store/interview-prep-store.ts:74-84 | the first `markStepComplete` after a reload puts the percentage right again |
| `PrepStoreV3.Percent` | frontend/src/store/interview-prep-v3-store.ts:9-12 | the percentage is the share of twelve steps, unrounded |
| `PrepStoreV3.PercentMonotone` | frontend/src/store/interview-prep-v3-store.ts:9-12 | the percentage grows with the step count and is 100 at twelve steps |
| `PrepStoreV3.SetResumeFile` | frontend/src/store/interview-prep-v3-store.ts:66 | the file and its selected flag change together, the flag true exactly when a file is given, and nothing else changes |
| `PrepStoreV3.MarkStepComplete` | frontend/src/store/interview-prep-v3-store.ts:70-79 | the step is added once, the percentage is recomputed, and no other field changes |
| `PrepStoreV3.MarkStepCompleteIdempotent` | frontend/src/store/interview-prep-v3-store.ts:70-79 | a repeated `markStepComplete` changes nothing |
| `PrepStoreV3.PlainSettersAreLocal` | frontend/src/store/interview-prep-v3-store.ts:67-84 | each plain setter sets its own field and leaves every other field as it was |
| `PrepStoreV3.CallsAreLocal` | frontend/src/store/interview-prep-v3-store.ts:66-85 | only `setResumeFile` and `resetStore` touch the file or its flag, a reset restores the initial state with no file and the flag cleared, and only `markStepComplete` and `resetStore` touch the steps |
| `PrepStoreV3.ApplyConsistent` | frontend/src/store/interview-prep-v3-store.ts:66-85 | every action keeps the flag in agreement with the file and the percentage with the steps |
| `PrepStoreV3.RunConsistent` | frontend/src/store/interview-prep-v3-store.ts:47-85 | every reachable state is consistent |
| `PrepStoreV3.PersistRoundTrip` | frontend/src/store/interview-prep-v3-store.ts:89-92 | a reload restores every stored field and keeps the current file and step, and saving again stores the same snapshot |
| `PrepStoreV3.ReloadKeepsProgress` | frontend/src/store/interview-prep-v3-store.ts:89-92 | steps and percentage are stored together, so they still agree after a reload |
| `PrepStoreV3.ReloadKeepsFlagNotFile` | frontend/src/store/interview-prep-v3-store.ts:16-17 | a reload of a state that held a file says a file is selected while holding none |
| `SerpapiAsync.MakeRequest` | serpapi_async.py:11-22 | the query is the title keywords; the location is "Remote" exactly for a remote-only preference (or a literal "Remote" location), otherwise the preferred location; the page token and `no_cache` are sent exactly when the token is truthy |
| `SerpapiAsync.RawJobs` | serpapi_async.py:30 | a page's jobs are `jobs_results` when non-empty, else `jobs` |
| `SerpapiAsync.NextToken` | serpapi_async.py:35 | a missing or empty next-page token becomes the exhausted marker `False`, any other token is kept |
| `SerpapiAsync.Absorb` | serpapi_async.py:31-34 | a page adds its jobs in order until `want` jobs are held, never more |
| `SerpapiAsync.AbsorbLoop` | serpapi_async.py:31-34 | the per-job `for` loop with its `break` appends exactly the page's leading jobs up to `want` held, which is `Absorb` |
| `SerpapiAsync.AbsorbIsPrefix` | serpapi_async.py:31-34 | absorbing a page keeps the held jobs equal to the first `want` jobs of everything seen so far |
| `SerpapiAsync.FetchSerpapiJobs` | serpapi_async.py:7-37 | the loop never returns more than `want` jobs, and it stops short of `want` only once the provider is exhausted |
| `SerpapiAsync.StartToken` | serpapi_async.py:8 | the loop starts from the caller's token, never from the exhausted marker |
| `SerpapiAsync.LoopIsPrefixOfPages` | serpapi_async.py:10-36 | from any point of the loop, the jobs returned are the first `want` of the jobs already held followed by the pages fetched, in order |
| `SerpapiAsync.FetchedJobsArePagePrefix` | serpapi_async.py:7-37 | the jobs returned are the first `want` jobs of the fetched pages, concatenated in fetch order |
| `SerpapiAsync.EmptyPageWithTokenContinues` | serpapi_async.py:29-35 | a page with no jobs but a next token does not stop the loop |
| `SerpapiAsync.PageWithoutTokenStops` | serpapi_async.py:33-35 | a page without a next token ends the loop with its jobs absorbed and the token `False` |
| `SerpapiAsync.HttpErrorPropagates` | serpapi_async.py:24-25 | an HTTP error propagates, discarding the jobs gathered so far |
| `SerpapiAsync.FirstRequestHasNoToken` | serpapi_async.py:20-22 | a first call without a token sends neither `next_page_token` nor `no_cache` |
| `SerpapiAsync.NothingWantedFetchesNothing` | serpapi_async.py:10 | with `want <= 0` no page is fetched and the caller's token is returned |
| `SerpapiJobSearch.JobUrl` | serpapi_job_search.py:55-64 | the URL is the first non-empty of the first apply option's link, the first highlight's link, the detected apply link and the search link; a present but empty highlights list reached by the lookup raises |
| `SerpapiJobSearch.CapDescription` | serpapi_job_search.py:69-71 | a description over 500 characters becomes its first 500 characters plus "...", a shorter one is kept |
| `SerpapiJobSearch.Project` | serpapi_job_search.py:72-78 | the projected entry carries the URL and title, and a description of at most 503 characters |
| `SerpapiJobSearch.ExtractRelevantJobInfo` | serpapi_job_search.py:52-79 | as written: fails exactly when some job's lookup reaches an empty highlights list; otherwise the output holds exactly the projections of the jobs with a URL and a title |
| `SerpapiJobSearch.ExtractKeepsOrder` | serpapi_job_search.py:52-79 | when the extraction succeeds, entry `k` is the projection of the `k`-th job that has a URL and a title, and there is one entry per such job |
| `SerpapiJobSearch.EmptyHighlightsAbortExtraction` | serpapi_job_search.py:60 | one job with an empty highlights list makes the whole extraction fail, while the same job without the key is simply skipped |
| `SerpapiJobSearch.JobUrlFixed` | serpapi_job_search.py:55-64 | with the empty highlights list treated as absent: the same URL wherever the original succeeds, and always one of the four candidate links or "" |
| `SerpapiJobSearch.ExtractRelevantJobInfoFixed` | serpapi_job_search.py:52-79 | never fails; the output holds exactly the projections of the jobs with a URL and a title, and agrees with the original whenever the original succeeds |
| `SerpapiJobSearch.ExtractFixedKeepsOrder` | serpapi_job_search.py:52-79 | with the corrected lookup, entry `k` is the projection of the `k`-th job that has a URL and a title, one entry per such job |
| `LlmJobFilter.CapDescription` | llm_job_filter.py:16 | a string description longer than the cap becomes its first `desc_max_len` characters plus "...", a shorter one is kept; a non-string without a length raises |
| `LlmJobFilter.GetOrEmpty` | llm_job_filter.py:12-14 | a missing field reads as "" and a present one as its value |
| `LlmJobFilter.PreprocessJob` | llm_job_filter.py:11-18 | each entry has exactly title, company, location and description, copied with "" for missing fields and the description capped; `url` is never included |
| `LlmJobFilter.PreprocessJobs` | llm_job_filter.py:8-19 | at most `max_jobs` entries, the preprocessed jobs from the front of the input in order; fails exactly when one of those jobs fails |
| `LlmJobFilter.PreprocessStringJobs` | llm_job_filter.py:8-19 | with string descriptions preprocessing never fails, returns at most `max_jobs` entries and no entry has a `url` |
| `LlmJobFilter.DropOpeningFence` | llm_job_filter.py:63 | an opening fence is removed only when present, leaving a suffix of the text |
| `LlmJobFilter.DropClosingFence` | llm_job_filter.py:65 | a closing fence is removed only when present, leaving a prefix of the text |
| `LlmJobFilter.UnfencedReplyIsStripped` | llm_job_filter.py:61-66 | a reply without fences is only stripped |
| `LlmJobFilter.CleanLlmJsonResponse` | llm_job_filter.py:61-66 | the cleaned reply is never longer than the stripped reply |
| `LlmJobFilter.CleanLlmJsonResponseIsSlice` | llm_job_filter.py:61-66 | the cleaned reply is one contiguous piece of the stripped reply |
| `LlmJobFilter.DropFencesIsSlice` | llm_job_filter.py:63-65 | removing an opening and a closing fence leaves one contiguous piece of the text |
| `LlmJobFilter.FencedReplyRoundTrip` | llm_job_filter.py:61-66 | wrapping a JSON body in a "```", "```json" or "```JSON" fence and cleaning gives the body back |
| `LlmJobFilter.OpeningFenceOf` | llm_job_filter.py:63 | the opening fence, its optional tag and the whitespace after it are removed together |
| `LlmJobFilter.ClosingFenceOf` | llm_job_filter.py:65 | the closing fence and the whitespace before it are removed together |
| `LlmJobFilter.WithDefaults` | llm_job_filter.py:72-75 | `url`, `score` and `explanation` are added as "", 0 and "" only when absent, and every existing value is kept |
| `LlmJobFilter.ApplyDefaults` | llm_job_filter.py:72-76 | a list of objects gets the defaults on each element; anything else fails, except an empty string or object, which is returned as it is |
| `LlmJobFilter.FilterAndExplain` | llm_job_filter.py:68-79 | every returned job has `url`, `score` and `explanation`; a reply that does not decode, or whose default-filling raises, gives `[]`; otherwise the result is the decoded value with the defaults filled in (`ApplyDefaults`: each object of a list gets the missing keys, `""` and `{}` pass through) |
| `LlmJobFilter.MalformedReplyGivesEmpty` | llm_job_filter.py:70-79 | a decoded list holding a non-object, a scalar, a non-empty string or a non-empty object makes the `setdefault` loop raise, so the result is `[]` |
| `LlmJobFilter.NumberElementGivesEmpty` | llm_job_filter.py:72-79 | the decoded reply `[1]` gives `[]` |
| `LlmJobFilter.DefaultsKeepGivenValues` | llm_job_filter.py:70-76 | for a decoded list of objects the result has one entry per job and keeps every value the model gave |
| `LlmJobFilterTwoStep.CleanJsonIsWidestSpan` | llm_job_filter_two_step.py:43-49 | when the first '[' precedes the last ']', the result is that inclusive slice, starting with '[' and ending with ']', and it is the widest such span: no '[' before it and no ']' after it |
| `LlmJobFilterTwoStep.CleanJson` | llm_job_filter_two_step.py:43-53 | the cleaned reply is never longer than the stripped reply |
| `LlmJobFilterTwoStep.CleanJsonIsSlice` | llm_job_filter_two_step.py:43-53 | the cleaned reply, bracket span or unfenced text, is one contiguous piece of the stripped reply |
| `LlmJobFilterTwoStep.ParseIndices` | llm_job_filter_two_step.py:54-63 | the decoded list is returned when every element is an int, otherwise `[]` |
| `LlmJobFilterTwoStep.SelectTopJobIndices` | llm_job_filter_two_step.py:9-63 | the call raises exactly when some job's description is neither a string nor a list, because the prompt's job list is built outside the `try`; otherwise it returns the reply's indices |
| `LlmJobFilterTwoStep.NullDescriptionRaises` | llm_job_filter_two_step.py:14-16 | a job whose description is `None` makes both the selection and the whole two-step call raise, whatever the replies |
| `LlmJobFilterTwoStep.StringDescriptionsAreSliceable` | llm_job_filter_two_step.py:14-16 | when every description is absent or a string, building the prompt never raises |
| `LlmJobFilterTwoStep.SelectJobs` | llm_job_filter_two_step.py:129 | each selected job is one of the jobs, and with all indices in range the selection is `jobs[i]` for each index in order, duplicates kept |
| `LlmJobFilterTwoStep.SelectionDropsOnlyInvalid` | llm_job_filter_two_step.py:129 | out-of-range indices are dropped and nothing else: the selection equals that of the in-range indices |
| `LlmJobFilterTwoStep.ValidIndices` | llm_job_filter_two_step.py:129 | the kept indices are in range |
| `LlmJobFilterTwoStep.Batches` | llm_job_filter_two_step.py:89-90 | a zero batch size raises, a negative one gives no batch, otherwise the batches cover every job in order, each of 1 to `batch_size` jobs and all but the last full |
| `LlmJobFilterTwoStep.Chunks` | llm_job_filter_two_step.py:89-90 | consecutive batches that concatenate to the jobs, all full but the last |
| `LlmJobFilterTwoStep.ExplainInBatches` | llm_job_filter_two_step.py:66-118 | the explanations are the list replies of the batches concatenated in batch order; a non-list reply contributes nothing; a zero batch size raises |
| `LlmJobFilterTwoStep.Replies` | llm_job_filter_two_step.py:109-117 | one reply per batch, each the decoded list or nothing |
| `LlmJobFilterTwoStep.FirstMatch` | llm_job_filter_two_step.py:137 | the match is a selected job whose `get` of title, company and location equals the explanation's (an absent key and `null` both read as `None`), and there is none exactly when no selected job agrees |
| `LlmJobFilterTwoStep.FirstMatchIsFirst` | llm_job_filter_two_step.py:137 | the match is the first such selected job |
| `LlmJobFilterTwoStep.AbsentMatchesNull` | llm_job_filter_two_step.py:137-139 | a selected job with `"location": null` matches an explanation without a location and gives it its description |
| `LlmJobFilterTwoStep.MergeBack` | llm_job_filter_two_step.py:132-139 | a non-object explanation raises; otherwise the defaults are filled, every other field is kept and a description is added exactly when a non-empty match exists |
| `LlmJobFilterTwoStep.MergeAll` | llm_job_filter_two_step.py:132-140 | succeeds exactly when every explanation is an object, giving one merged entry per explanation |
| `LlmJobFilterTwoStep.MergeTakesFirstMatchDescription` | llm_job_filter_two_step.py:137-139 | the description comes from the first selected job with equal title, company and location, and every other field of the explanation is kept |
| `LlmJobFilterTwoStep.FilterAndExplainTwoStep` | llm_job_filter_two_step.py:121-140 | a description that cannot be sliced raises `TypeError` before anything else; otherwise no indices give `[]`, a zero batch size after a selection raises, any other batch size yields the batch explanations of the selected jobs merged back with `MergeAll`, and every returned entry has `url`, `score` and `explanation` |
| `LlmJobFilterTwoStep.TwoStepIsMergeOfExplanations` | llm_job_filter_two_step.py:126-140 | with a positive batch size the call succeeds exactly when every explanation from the batches is an object, and then returns one entry per explanation, in batch order, each the explanation merged with its first matching selected job |
| `JobSearchAgent.ExtractLastObservation` | job_search_agent.py:351-392 | a missing or empty output gives the empty string; an output with neither marker gives either nothing or the whole output, stripped |
| `JobSearchAgent.NoOccurrenceFrom` | job_search_agent.py:359-360 | when the tail from a position does not contain a marker, no occurrence of it starts at or after that position, so `rfind` finds nothing later |
| `JobSearchAgent.FinalAnswerExtracted` | job_search_agent.py:359-388 | a transcript ending in "Final Answer:" followed by a marker-free answer yields that answer, stripped, whatever precedes it |
| `JobSearchAgent.ObservationLast` | job_search_agent.py:359-387 | when an "Observation:" is the last occurrence of either marker, the result is the stripped text after it |
| `JobSearchAgent.FinalAnswerLast` | job_search_agent.py:359-387 | when a "Final Answer:" is the last occurrence of either marker, the result is the stripped text after it |
| `JobSearchAgent.UnmarkedJsonPassesThrough` | job_search_agent.py:370-377 | with no marker, an output that strips to a bracketed list is returned whole, stripped |
| `JobSearchAgent.UnmarkedFencePassesThrough` | job_search_agent.py:370-379 | with no marker, an output whose stripped text opens a json fence is returned whole, stripped |
| `JobSearchAgent.UnmarkedProseIsDropped` | job_search_agent.py:370-382 | with no marker, an output that is neither a bracketed list nor a json fence gives the empty string, including one that opens with '[' and does not close |
| `JobSearchAgent.HeaderLineHasColon` | job_search_agent.py:234-241 | a line that starts with a header ending in a colon contains a colon, so `split(":", 1)[1]` exists and the `except` branch cannot be taken |
| `JobSearchAgent.CaptureStep` | job_search_agent.py:251-270 | one step of the block loop never leaves both blocks open unless both were open, and collects at most one line |
| `JobSearchAgent.ParseLines` | job_search_agent.py:225-283 | the result has exactly the four analysis keys |
| `JobSearchAgent.ParseAnalysis` | job_search_agent.py:222-283 | the result has exactly the four analysis keys, whatever the text |
| `JobSearchAgent.FirstPassSkipsProse` | job_search_agent.py:233-241 | lines that start with none of the four headers leave every entry as it was |
| `JobSearchAgent.CaptureSkipsProse` | job_search_agent.py:251-270 | outside a block, lines without a header collect nothing and open nothing |
| `JobSearchAgent.NoHeadersGiveDefaults` | job_search_agent.py:225-275 | a text without any header line yields "N/A" for all four entries |
| `JobSearchAgent.AfterHeader` | job_search_agent.py:235-241 | for a header whose only colon is its last character, the text of a header line is the stripped remainder after the header |
| `JobSearchAgent.StripAllCons` | job_search_agent.py:267-268 | stripping a list of lines strips its head and then its tail |
| `JobSearchAgent.BulletIsNoHeader` | job_search_agent.py:252-267 | a line starting with "-" is no header line and still starts with "-" once stripped, so the open block collects it |
| `JobSearchAgent.StartsWithFirst` | job_search_agent.py:234-262 | a line starting with a header begins with the header's first character, which tells the four numbered headers apart |
| `JobSearchAgent.BulletStep` | job_search_agent.py:267-268 | inside the strengths block, a bullet line is appended, stripped, to the strengths and nothing else changes |
| `JobSearchAgent.BulletPass` | job_search_agent.py:251-268 | the loop over a list that opens with a bullet, inside the strengths block, continues with that bullet collected |
| `JobSearchAgent.BulletsJoinBlock` | job_search_agent.py:251-270 | a run of bullet lines inside the strengths block appends every bullet, stripped and in order, to the strengths lines |
| `JobSearchAgent.PassCons` | job_search_agent.py:251 | the block loop takes the lines one at a time, in order |
| `JobSearchAgent.StrengthsHeaderStep` | job_search_agent.py:252-256 | the strengths header appends its own text, opens the strengths block and closes the gaps block |
| `JobSearchAgent.StrengthsHeaderOpens` | job_search_agent.py:251-256 | after the strengths header the loop continues with the strengths block open and the header's text collected |
| `JobSearchAgent.CollectedStrengthsWin` | job_search_agent.py:272-273 | collected strengths lines, joined by newlines, replace the first pass's strengths entry |
| `JobSearchAgent.StrengthsBlockCollected` | job_search_agent.py:243-273 | a strengths header line followed by bullet lines gives the header's text and every bullet, stripped, one per line |
| `JobSearchAgent.StrengthsSectionParsed` | job_search_agent.py:222-283 | "2. Key Strengths: x" followed by bullets yields x stripped and the stripped bullets, newline-joined, under "Key Strengths" |
| `JobSearchAgent.ScoreAndAlignmentParsed` | job_search_agent.py:232-241 | a score line and an alignment line set their entries to the stripped text after each header's colon |
| `JobSearchAgent.ScoreAndAlignmentEntries` | job_search_agent.py:225-283 | the score and alignment entries come from the first pass alone; the block loop does not touch them |
| `JobSearchAgent.ScoreAlignmentFirstPass` | job_search_agent.py:233-241 | the first pass over a score line and an alignment line sets exactly those two entries |
| `JobSearchAgent.ScoreLineStep` | job_search_agent.py:234-235 | a score line sets the score to the stripped text after the colon |
| `JobSearchAgent.AlignmentLineStep` | job_search_agent.py:240-241 | an alignment line reaches its own branch and sets the alignment to the stripped text after the colon |
| `JobSearchAgent.StrengthsEntryIsParsed` | job_search_agent.py:272-273 | the "Key Strengths" entry is the collected block when there is one and the first pass's value otherwise |
| `JobSearchPipeline.IntField` | job_search_pipeline.py:38 | in pydantic's lax mode an integer field reads as that integer and a string as the integer it spells; null, a list or an object is no integer |
| `JobSearchPipeline.IntOfStringRoundTrip` | job_search_pipeline.py:38 | the decimal text of any integer, with or without surrounding whitespace, is read back as that integer, so a score sent as `"7"` is the score 7 |
| `JobSearchPipeline.WordIsNoInteger` | job_search_pipeline.py:38 | a string that does not start with a digit or a sign after stripping is no integer |
| `JobSearchPipeline.StrField` | job_search_pipeline.py:35-39 | a string field is read exactly when the key is present with a string value, and it is that value |
| `JobSearchPipeline.ValidateListing` | job_search_pipeline.py:33-39 | an accepted listing has a match score between 1 and 10 read from its `match_score` field, and its `details_link` is the object's string field |
| `JobSearchPipeline.ValidateAll` | job_search_pipeline.py:56-58 | the list validates exactly when every item does, giving one listing per item in order; otherwise some item is invalid |
| `JobSearchPipeline.ValidateArguments` | job_search_pipeline.py:172-173 | every listing in validated tool arguments has a match score between 1 and 10 |
| `JobSearchPipeline.ModelDump` | job_search_pipeline.py:176-180 | a dumped listing has exactly the five schema keys, no `link` key, and carries the listing's score and link |
| `JobSearchPipeline.RankReply` | job_search_pipeline.py:145-193 | every entry taken from the reply has the five schema keys, no `link` and an integer score in 1..10; a non-empty result needs a first tool call named `return_ranked_jobs` |
| `JobSearchPipeline.RankJobs` | job_search_pipeline.py:61-193 | the call raises exactly when a key is set, there are jobs and some job's prompt entry cannot be built; otherwise every ranked entry has the five schema keys, no `link` and a score in 1..10, and a non-empty result needs a key, some jobs and a first tool call named `return_ranked_jobs` |
| `JobSearchPipeline.RankKeepsOrder` | job_search_pipeline.py:164-182 | for jobs whose prompt entries can be built, a valid first tool call gives one dumped entry per validated listing, in the model's order, with nothing dropped or re-sorted |
| `JobSearchPipeline.RankFailuresYieldEmpty` | job_search_pipeline.py:63-68 | a missing key or no jobs give `[]`; for buildable prompt entries, a raised call, no tool call, a wrong function name or arguments that fail validation also give `[]` |
| `JobSearchPipeline.NullDescriptionRaisesInRanking` | job_search_pipeline.py:93 | with a key set, a job whose description is `null` makes the ranking raise whatever the model replies |
| `JobSearchPipeline.DocumentedJobsNeverRaise` | job_search_pipeline.py:74-94 | jobs with string or absent descriptions and list-of-object link fields never make the ranking raise |
| `JobSearchPipeline.OutOfRangeScoreRejected` | job_search_pipeline.py:38 | a listing whose score is outside 1..10 is rejected, and so is every list containing it |
| `JobSearchPipeline.LinkStop` | job_search_pipeline.py:76-78 | the loop over the apply options passes over exactly the objects with a falsy link before the index where it stops |
| `JobSearchPipeline.ApplyOptionLink` | job_search_pipeline.py:75-78 | a link returned from the apply options is truthy |
| `JobSearchPipeline.RelatedLink` | job_search_pipeline.py:81-83 | a link returned from the related links is truthy |
| `JobSearchPipeline.BestLink` | job_search_pipeline.py:74-84 | a best link is "" or truthy, and it is "" only when the share link is falsy |
| `JobSearchPipeline.WellFormedLinksResolve` | job_search_pipeline.py:74-84 | absent or falsy link fields, or lists of objects, never make `best_link` raise |
| `JobSearchPipeline.FirstLinkedOptionWins` | job_search_pipeline.py:76-78 | the first apply option with a truthy link, after only link-less objects, gives the best link |
| `JobSearchPipeline.NonObjectOptionRaises` | job_search_pipeline.py:76-77 | an apply option that is not an object, after only link-less objects, raises `AttributeError` |
| `JobSearchPipeline.BestLinkComesFromJob` | job_search_pipeline.py:74-84 | a truthy best link is one of the job's own links: an apply option's, the share link or the first related link |
| `JobSearchPipeline.SliceTo` | job_search_pipeline.py:93 | `[:n]` keeps the first `min(n, len)` characters or items |
| `JobSearchPipeline.SimplifyJob` | job_search_pipeline.py:88-94 | a prompt entry is built exactly when `best_link` succeeds and the description is a string, a list or absent; a bad description raises `TypeError`; the entry carries the title, company, location, best link and the first 400 characters of the description |
| `JobSearchPipeline.SimplifyAll` | job_search_pipeline.py:86-94 | the prompt list is built exactly when every job's entry is, one entry per job in order |
| `JobSearchPipeline.SearchJobs` | job_search_pipeline.py:289-327 | the search raises exactly when the first, unguarded ranking call does; no fetched jobs give empty lists under `remaining` with the token passed through and no more pages; otherwise the shown and `remaining_jobs` lists together are the second ranking, at most eight are shown, and more pages exist exactly when the token is truthy |
| `JobSearchPipeline.NullDescriptionAbortsSearch` | job_search_pipeline.py:295-298 | with a key set, a fetched job with a `null` description makes the whole search raise |
| `JobSearchPipeline.WindowSplitsAtEight` | job_search_pipeline.py:318-320 | with more than eight ranked jobs, the first eight are shown and the rest are kept, in order |
| `JobSearchPipeline.QueryParts` | job_search_pipeline.py:359-378 | the keywords come first, then the industry clause, the company preferences and the additional preferences, each at its own position when present; "remote" is appended exactly when "Remote only" is asked for and the last of those parts does not mention it, so under "Remote only" the last part always mentions "remote" |
| `JobSearchPipeline.NonEmptyParts` | job_search_pipeline.py:385 | `filter(None, …)` is the in-order filter of the non-empty parts, none dropped and none repeated |
| `JobSearchPipeline.LocationParam` | job_search_pipeline.py:374-380 | the location is sent exactly when the preference is not "Remote only" and the location is non-empty |
| `JobSearchPipeline.RemoteOnlyQueryMentionsRemote` | job_search_pipeline.py:375-385 | under "Remote only" the enriched query mentions "remote", in any case |
| `JobSearchPipeline.PreferencesReachQuery` | job_search_pipeline.py:359-385 | the enriched query contains the keywords, the industry clause, the company preferences and the additional preferences |
| `JobSearchPipeline.EnrichedQuery` | job_search_pipeline.py:359-385 | the query is the in-order non-empty parts joined by single spaces, and non-empty keywords lead it |
| `JobSearchPipeline.IndustryClause` | job_search_pipeline.py:367-368 | the industry clause is non-empty and opens with a parenthesis |
| `JobSearchPipeline.FullQueryText` | job_search_pipeline.py:359-385 | with every preference given and no "Remote only", the query is exactly the keywords, the industry clause, the company preferences and the additional preferences, separated by single spaces |
| `JobSearchPipeline.RemoteAppendedOnce` | job_search_pipeline.py:375-385 | under "Remote only" with bare keywords, " remote" is appended when the keywords do not mention it and nothing is appended when they do |
| `JobSearchPipeline.FilledPartsKept` | job_search_pipeline.py:385 | parts that are all non-empty pass the filter unchanged |
| `JobSearchPipeline.JoinOfFour` | job_search_pipeline.py:385 | joining four parts puts the separator between each neighbouring pair |
| `JobSearchPipeline.PlainQueryIsKeywords` | job_search_pipeline.py:359-385 | without industries, preferences or "Remote only" the enriched query is the keywords alone |
| `JobSearchPipeline.FirstGroup` | job_search_pipeline.py:420 | a found filter group is one of the groups and has the wanted name; none found means no group has it |
| `JobSearchPipeline.FirstChoice` | job_search_pipeline.py:423 | a found option is one of the group's options and passes the test; none found means none passes |
| `JobSearchPipeline.FilterLink` | job_search_pipeline.py:402-448 | a failed probe leaves no filter link; otherwise the "Past month" link, overridden under "On-site only" by the "On-site" link when one exists |
| `JobSearchPipeline.PageRequest` | job_search_pipeline.py:452-474 | the filter link is used exactly on the first page of a search started without a token; a search request carries a page token exactly when the token is truthy |
| `JobSearchPipeline.QueryLoop` | job_search_pipeline.py:450-516 | an error always ends with no more pages; a clean stop with more pages means the target was reached; the jobs gathered so far are kept as a prefix |
| `JobSearchPipeline.PrefixOfExtension` | job_search_pipeline.py:494 | extending the job list keeps every earlier job as a prefix |
| `JobSearchPipeline.QuerySerpapiGoogleJobs` | job_search_pipeline.py:342-522 | without an API key nothing is fetched and there are no more pages; a non-positive target returns no jobs, the given token and more pages |
| `JobSearchPipeline.EmptyPageStopsQuery` | job_search_pipeline.py:483-492 | an empty page stops the loop with the jobs so far, no token and no more pages |
| `JobSearchPipeline.FailureKeepsPartialJobs` | job_search_pipeline.py:513-516 | a failed page request returns the jobs gathered so far, the current token, no more pages and the error |
| `JobSearchPipeline.WholePagesAreKept` | job_search_pipeline.py:487-504 | a first page that reaches the target is kept whole, not trimmed, and more pages exist exactly when it carries a token |
| `JobSearchPipeline.FilterLinkOnlyOnFreshFirstPage` | job_search_pipeline.py:453-461 | later pages, and a first page of a search resumed from a token, never use the filter link |
| `Merge.Without` | openai_resume_jd_parsing.py:78 | removing a set keeps exactly the values outside it and never lengthens the list |
| `Merge.Nub` | openai_resume_jd_parsing.py:80-83 | the first occurrences hold no duplicate and exactly the values of the list |
| `Merge.AppendNew` | openai_resume_jd_parsing.py:78 | extending with values not yet present keeps the old list as a prefix, holds exactly the old and the new values, and keeps a duplicate-free list duplicate-free |
| `Merge.WithoutWithout` | openai_resume_jd_parsing.py:78 | removing two sets in turn is removing their union |
| `Merge.WithoutAppend` | openai_resume_jd_parsing.py:78 | removal distributes over concatenation |
| `Merge.AppendNewIsNub` | openai_resume_jd_parsing.py:78 | extending with the values not yet present is appending the first occurrences of the values outside the old list |
| `Merge.AppendNewConcat` | openai_resume_jd_parsing.py:73-78 | extending with two lists in turn is extending with their concatenation, so the chunk loop is one extension |
| `Merge.AppendNewDistinct` | openai_resume_jd_parsing.py:78 | when nothing repeats, the extension is plain concatenation |
| `Merge.NubOfDistinct` | openai_resume_jd_parsing.py:80-83 | `dict.fromkeys` leaves a duplicate-free list as it is |
| `Merge.ListValue` | openai_resume_jd_parsing.py:75-77 | a chunk contributes values for a field exactly when the field is truthy and a list, and then its items |
| `Merge.MergeField` | openai_resume_jd_parsing.py:73-78 | the per-field loop keeps a duplicate-free list duplicate-free |
| `Merge.MergeFieldAppends` | openai_resume_jd_parsing.py:73-78 | the per-field loop extends the starting list with every chunk's contribution, new values only |
| `Merge.MergedField` | openai_resume_jd_parsing.py:68-78 | each merged field is the first occurrences of all the chunks' contributions, with no duplicates |
| `Merge.FromKeys` | openai_resume_jd_parsing.py:80-83 | `dict.fromkeys` raises exactly when some value is a list or an object, and otherwise keeps first occurrences in order |
| `Merge.Refresh` | openai_resume_jd_parsing.py:80-83 | re-deduplicating a field raises exactly on an unhashable value and otherwise replaces the field by its first occurrences |
| `Merge.RefreshKeeps` | openai_resume_jd_parsing.py:80-83 | re-deduplicating a duplicate-free field changes nothing |
| `Merge.ListsAreExpected` | openai_resume_jd_parsing.py:68-78 | the chunk loop gives, for each of the seven fields, the first occurrences of every contributed value |
| `Merge.SimpleField` | openai_resume_jd_parsing.py:68-83 | every merged field is a duplicate-free list, hashable exactly when the contributions are |
| `Merge.MergeResumeChunks` | openai_resume_jd_parsing.py:68-84 | the merge raises exactly when a simple field received a list or object, and otherwise gives exactly the seven fields, each the first occurrences of the chunks' contributions |
| `Merge.SameElemsHashable` | openai_resume_jd_parsing.py:80-83 | two lists with the same values are hashable together |
| `Merge.NoResumeChunks` | openai_resume_jd_parsing.py:69-72 | no chunks give seven empty lists |
| `Merge.Chars` | openai_resume_jd_parsing.py:154 | iterating a string yields its characters, one string each |
| `Merge.Iterate` | openai_resume_jd_parsing.py:154 | iterating a value succeeds exactly for lists, strings and objects, and a list yields its items |
| `Merge.ExtendField` | openai_resume_jd_parsing.py:151-154 | extending a field raises exactly when the chunk's value is truthy but not iterable; otherwise the old list is a prefix and stays duplicate-free |
| `Merge.JdStep` | openai_resume_jd_parsing.py:148-154 | one chunk raises exactly when a truthy list field is not iterable; the title is taken from the chunk only while the merged title is still empty |
| `Merge.MergeJdFrom` | openai_resume_jd_parsing.py:148-154 | the chunk loop keeps both lists duplicate-free |
| `Merge.MergeJdChunks` | openai_resume_jd_parsing.py:146-155 | no chunks give an empty title and two empty lists; a merge keeps both lists duplicate-free |
| `Merge.TitleFrom` | openai_resume_jd_parsing.py:149-150 | the merged title is the first truthy title, starting from the current one |
| `Merge.JdTitle` | openai_resume_jd_parsing.py:146-155 | the role title is the first chunk's truthy title, or "" when no chunk has one |
| `Merge.FailsFrom` | openai_resume_jd_parsing.py:148-154 | the loop from any state raises exactly when some chunk has a truthy, non-iterable list field |
| `Merge.JdFails` | openai_resume_jd_parsing.py:146-155 | the merge raises exactly when some chunk has a truthy, non-iterable list field |
| `Merge.ListsFrom` | openai_resume_jd_parsing.py:148-154 | when every truthy list field is a list, the loop cannot raise and extends each list with new values only |
| `Merge.JdLists` | openai_resume_jd_parsing.py:146-155 | when every truthy list field is a list, requirements and responsibilities are the first occurrences of all chunks' contributions |
| `Merge.StringRequirementIsSplit` | openai_resume_jd_parsing.py:152-154 | a string requirement is extended character by character: "Go" becomes "G" and "o" |
| `Text.Find` | job_search_agent.py:235 | `find`: -1 exactly when the text does not occur, otherwise an occurrence with none before it |
| `Text.RFind` | job_search_agent.py:359-360 | `rfind`: -1 exactly when the text does not occur, otherwise an occurrence with none after it |
| `Text.Strip` | job_search_agent.py:232 | `strip()`: never longer, begins and ends with a non-space, and is empty exactly when the text is all white space |
| `Text.SplitOn` | job_search_agent.py:232 | `split('\n')`: at least one part, none containing the separator, and joining the parts with the separator gives the text back |
| `Text.WordsOfStrip` | chunking.py:16-24 | `split()` of a stripped text gives the same words as of the text |
| `Text.Lower` | job_search_pipeline.py:377 | `lower()` restricted to ASCII: keeps the length, sends A-Z to a-z and leaves every other character as it is |
| `Json.SetDefault` | llm_job_filter.py:73-75 | `setdefault` adds the key only when it is missing, and keeps every existing value |
| `Chunking.JdWindowWords` | chunking.py:32 | each chunk of a long job description holds between one and `max_words` words, and every chunk but the last holds exactly `max_words` |
| `Chunking.LongTextTrimmed` | chunking.py:19-21 | the chunks of a long section are trimmed |
| `CompanyProfileAgent.FinishDropsMarkers` | company_profile_agent.py:56-60 | after the final filters no cue or fact is empty or starts with a list-marker character |
| `LlmJobFilter.PreprocessAll` | llm_job_filter.py:11-18 | preprocessing a list gives one entry per job in order, and fails exactly when some job fails |

## Left out

- Language-model calls: the chat-completion call of `rank_jobs_with_gpt4o`, the LangChain calls of both job filters, `parse_resume_with_openai` / `parse_jd_with_openai` and the agent's own LLM chains. Their replies are inputs or oracle parameters.
- Network calls: `fetch_jobs_from_serpapi` (serpapi_job_search.py:6-49), the httpx requests of `fetch_serpapi_jobs` and `query_serpapi_google_jobs`, and `fetch_company_profile`. Pages and probes are oracle parameters.
- `search_serpapi_google_jobs` (job_search_pipeline.py:196-284): it returns `[]` before the rest of its body runs. `run_pipeline` (job_search_pipeline.py:524-558) is left out with it, because it only combines that empty result with the ranking call and so always reports the fallback.
- `extract_text_from_pdf_bytes` (utils.py:9-11): PDF decoding.
- Logging and `print` output everywhere, and the console logging of the store setters.
- The environment variables, the clock ("today" in `is_fresh`), `dateparser`, the YAML band configuration and the band regexes: each is a parameter or an uninterpreted predicate. The contact-line regexes of `extract_resume_snippets`, the two years regexes and the remote-marker regex are modelled as concrete predicates.
- SHA-256 and UTF-8 encoding in `cache.py`: the digest is a parameter. Only `FreshCachesMiss` assumes it has no collisions.
- The resume section-header regex of `chunk_resume_text` (chunking.py:4-6, 13): the split is the parameter `split`.
- JSON decoding and pydantic's validation of JSON text: decoding is an oracle that returns `None` on a decode error. What pydantic then checks of a decoded value (the listing schema, `1 <= match_score <= 10`) is modelled.
- JobSearchPipeline.IntField: a numeric string is read as optional whitespace, an optional sign and ASCII digits. The rest of pydantic's lax string-to-integer grammar is not modelled: decimal zeros such as `"7.0"`, underscores, non-ASCII digits, and pydantic's own definition of whitespace. Such strings are rejected here.
- Text.Lower: `str.lower()` is modelled on ASCII letters only. Python also lowers non-ASCII capitals: `"MÜNCHEN".lower()` is `"münchen"`, while the model gives `"mÜnchen"`.
- Text.IsDigit: the `\d` class is modelled as the ASCII digits. Python's `str` patterns also match the other Unicode decimal digits, such as the full-width "５".
- Filters.MatchesLocation: the city and the location are lowered by `Text.Lower`, so non-ASCII capitals compare differently. The city "München" against the location "MÜNCHEN" is accepted by the source and rejected here.
- Filters.MatchesExperienceBand: the title and description are lowered by `Text.Lower` before the band patterns read them, so non-ASCII capitals reach those patterns unlowered.
- Filters.NumberAt: `\d{1,2}` reads ASCII digits only, so "５ years" states 5 years to the source and none here.
- Filters.Years: the same restriction, through `NumberAt`.
- Filters.YearsWithoutDigits: "digit" means an ASCII digit here. A text whose only digits are non-ASCII, such as "５ years", reads as none in the model and as 5 in the source.
- ResumeUtils.HasPhone: a phone number written in non-ASCII digits is not recognised.
- ResumeUtils.SnippetOf: through `HasPhone`, a line whose phone number uses non-ASCII digits is kept as a snippet here and dropped by the source.
- CompanyProfileAgent.DropListMarker: the `\d` of the marker class is ASCII only, so a leading run of non-ASCII digits stays on the item here.
- Present JSON `null` values in a listing: `Listing` keeps each field as an `Option` whose `None` means the key is absent, so a key that is present with the value `null` cannot be represented. In the source:
  - `"job_highlights": null` raises `TypeError` (serpapi_job_search.py:60);
  - `"detected_extensions": null` raises `AttributeError` (serpapi_job_search.py:62, filters.py:52);
  - `"description": null` is output as `None` (serpapi_job_search.py:69-74).
- Present JSON `null` values in a SerpAPI filter probe or page, for the same reason:
  - an option with `"text": null` raises inside the probe, which then proceeds without filter links (job_search_pipeline.py:436, 443-446);
  - an on-site option with `"serpapi_link": null` overrides the date link with `None` (job_search_pipeline.py:437-440);
  - `"serpapi_pagination": null` raises after the page's jobs were added (job_search_pipeline.py:502);
  - in `fetch_serpapi_jobs`, `"jobs_results": null` raises `TypeError` in the `len(...)` of the diagnostic line (serpapi_async.py:28), where `SerpapiAsync.RawJobs` falls back to `jobs`;
  - in `fetch_serpapi_jobs`, `"search_metadata": null` or `"serpapi_pagination": null` raises `AttributeError` on `.get` (serpapi_async.py:35), so the jobs gathered so far are lost, where `SerpapiAsync.NextToken` ends the paging with `False`.
- Python's `1 == True == 1.0`: the value equality used by `not in` and `dict.fromkeys` in the merges and by the `get(...) ==` comparisons of `SameJob` is the structural equality of `Json`, so numbers of different types never compare equal here.
- The order in which Python iterates a dictionary that `merge_jd_chunks` extends a list with: it is the parameter `keyOrder`.
- The React components, the trivial slice stores and the browser's local storage. `Partialize` and `Rehydrate` stand for `persist`, with zustand's default shallow merge.
- PrepStoreV3.Percent: the percentage is the exact `real` `(n / 12) * 100`. The IEEE rounding of the source's floating-point division and product is not modelled.
- SerpapiAsync.FetchSerpapiJobs: the loop has no bound of its own when pages come back empty with a token. The model's `fuel` counts page requests and ends the run with `FuelExhausted`; runs that need more requests than the fuel are not described.
- JobSearchPipeline.QueryLoop: the same `fuel` bound on the pagination loop. Its result is `None` when the fuel runs out.
- JobSearchPipeline.QuerySerpapiGoogleJobs: its own contract covers only the missing key and a non-positive target. The page-by-page behaviour is stated by the lemmas about `QueryLoop`, `PageRequest` and `FilterLink`.
- JobSearchAgent.ExtractLastObservation: for an output without markers, the contract says only "empty or the stripped output". The three lemmas `UnmarkedJsonPassesThrough`, `UnmarkedFencePassesThrough` and `UnmarkedProseIsDropped` together cover every unmarked output.
- CompanyProfileAgent.ParseCompanyProfileSections: its own contract states the shape of the result. `ProfileSections` states the contents for a profile with a "1.", a "2." and a "3." section in that order. Profiles with repeated, missing or reordered sections are described only by the per-section lemmas (`OverviewAccumulates`, `CuesAccumulate`, `FactsAccumulate`, `FactsSection`, `OverviewRestarts`, `SwitchDropsText`).
- JobSearchAgent.ParseLines: the contract states the four keys. The values are stated by lemmas for these shapes of text:
  - text with no headers;
  - a strengths header followed by bullets;
  - a score line and an alignment line.

  The gaps block is parsed by the same step as the strengths block, but no separate lemma states it.
- JobSearchAgent.ParseAnalysis: the same as `ParseLines`, after `strip()` and `split('\n')`.
- The `remaining` / `remaining_jobs` key mismatch (job_search_pipeline.py:306, 324) is modelled as written: `SearchJobs` returns the key name it uses.

## Findings

| source | as written | input that shows it | evidently intended | confidence | as-written member | corrected member |
|---|---|---|---|---|---|---|
| serpapi_job_search.py:60 | `job.get("job_highlights", [{}])[0]` indexes a present but empty list, so `IndexError` escapes and the whole extraction fails | one job with `"job_highlights": []` next to an otherwise valid job | an empty highlights list reads like an absent one, giving no link from that candidate | not executed | `SerpapiJobSearch.EmptyHighlightsAbortExtraction` | `SerpapiJobSearch.ExtractRelevantJobInfoFixed` |
| utils.py:28-31 | the counter is compared only after a snippet is appended, so `max_snippets <= 0` still returns one snippet | one line of sixty "x" with `max_snippets=0` | at most `max(max_snippets, 0)` snippets | not executed | `ResumeUtils.ZeroLimitStillYieldsOne` | `ResumeUtils.ExtractResumeSnippetsFixed` |

=== FILE: cache.dfy ===
/** `cache.py`: the in-memory caches of parsed resumes and job descriptions,
    keyed by the SHA-256 hex digest of the text.

  The digest is a parameter `digest`: SHA-256 and the UTF-8 encoding are
  not modelled. The two module-level dictionaries are the two maps of a
  `Caches` value, threaded through the calls instead of mutated.
 */
module Cache {
  import opened Wrappers
  import opened Json

  datatype Caches = Caches(resume: map<string, Dict>, jd: map<string, Dict>)

  const Empty: Caches := Caches(map[], map[])

  /** `d.get(k)`. */
  function Lookup(m: map<string, Dict>, k: string): (r: Option<Dict>)
    ensures r.Some? <==> k in m
    ensures r.Some? ==> r.value == m[k]
  {
    if k in m then Some(m[k]) else None
  }

  /** `get_cached_resume(text)`. */
  function GetCachedResume(c: Caches, digest: string -> string, text: string): (r: Option<Dict>)
    ensures r.Some? <==> digest(text) in c.resume
    ensures r.Some? ==> r.value == c.resume[digest(text)]
  {
    Lookup(c.resume, digest(text))
  }

  /** `set_cached_resume(text, parsed)`: only the resume cache changes, and
      only at the text's digest. */
  function SetCachedResume(c: Caches, digest: string -> string, text: string, parsed: Dict): (r: Caches)
    ensures r.jd == c.jd
    ensures r.resume.Keys == c.resume.Keys + {digest(text)}
    ensures forall k :: k in c.resume && k != digest(text) ==> r.resume[k] == c.resume[k]
  {
    c.(resume := c.resume[digest(text) := parsed])
  }

  /** `get_cached_jd(text)`. */
  function GetCachedJd(c: Caches, digest: string -> string, text: string): (r: Option<Dict>)
    ensures r.Some? <==> digest(text) in c.jd
    ensures r.Some? ==> r.value == c.jd[digest(text)]
  {
    Lookup(c.jd, digest(text))
  }

  /** `set_cached_jd(text, parsed)`: only the job-description cache
      changes, and only at the text's digest. */
  function SetCachedJd(c: Caches, digest: string -> string, text: string, parsed: Dict): (r: Caches)
    ensures r.resume == c.resume
    ensures r.jd.Keys == c.jd.Keys + {digest(text)}
    ensures forall k :: k in c.jd && k != digest(text) ==> r.jd[k] == c.jd[k]
  {
    c.(jd := c.jd[digest(text) := parsed])
  }

  /** A get after a set of the same text returns what was set. */
  lemma GetAfterSet(c: Caches, digest: string -> string, text: string, parsed: Dict)
    ensures GetCachedResume(SetCachedResume(c, digest, text, parsed), digest, text) == Some(parsed)
    ensures GetCachedJd(SetCachedJd(c, digest, text, parsed), digest, text) == Some(parsed)
  {
  }

  /** A set leaves the entries of every text with another digest alone. */
  lemma SetLeavesOthers(c: Caches, digest: string -> string, text: string, other: string, parsed: Dict)
    requires digest(other) != digest(text)
    ensures GetCachedResume(SetCachedResume(c, digest, text, parsed), digest, other) == GetCachedResume(c, digest, other)
    ensures GetCachedJd(SetCachedJd(c, digest, text, parsed), digest, other) == GetCachedJd(c, digest, other)
  {
  }

  /** A second set of the same text overwrites the first. */
  lemma SecondSetOverwrites(c: Caches, digest: string -> string, text: string, first: Dict, second: Dict)
    ensures SetCachedResume(SetCachedResume(c, digest, text, first), digest, text, second)
            == SetCachedResume(c, digest, text, second)
    ensures SetCachedJd(SetCachedJd(c, digest, text, first), digest, text, second)
            == SetCachedJd(c, digest, text, second)
  {
  }

  /** The two caches are independent: setting one never changes a lookup
      in the other. */
  lemma CachesIndependent(c: Caches, digest: string -> string, text: string, other: string, parsed: Dict)
    ensures GetCachedJd(SetCachedResume(c, digest, text, parsed), digest, other) == GetCachedJd(c, digest, other)
    ensures GetCachedResume(SetCachedJd(c, digest, text, parsed), digest, other) == GetCachedResume(c, digest, other)
  {
  }

  /** A cache operation: a resume or job-description set. */
  datatype Op = SetResume(text: string, parsed: Dict) | SetJd(text: string, parsed: Dict)

  /** The caches after a sequence of sets, from `c`. */
  function Replay(c: Caches, ops: seq<Op>, digest: string -> string): Caches
    decreases |ops|
  {
    if ops == [] then c
    else
      var c' := match ops[0]
                case SetResume(t, v) => SetCachedResume(c, digest, t, v)
                case SetJd(t, v) => SetCachedJd(c, digest, t, v);
      Replay(c', ops[1..], digest)
  }

  /** A text whose digest no resume set used is not in the resume cache;
      with an injective digest, that is a text never set. */
  lemma {:induction false} NeverSetResumeIsNone(c: Caches, ops: seq<Op>, digest: string -> string, text: string)
    requires GetCachedResume(c, digest, text) == None
    requires forall i :: 0 <= i < |ops| && ops[i].SetResume? ==> digest(ops[i].text) != digest(text)
    ensures GetCachedResume(Replay(c, ops, digest), digest, text) == None
    decreases |ops|
  {
    if ops != [] {
      var c' := match ops[0]
                case SetResume(t, v) => SetCachedResume(c, digest, t, v)
                case SetJd(t, v) => SetCachedJd(c, digest, t, v);
      assert GetCachedResume(c', digest, text) == None;
      NeverSetResumeIsNone(c', ops[1..], digest, text);
    }
  }

  /** The same for the job-description cache. */
  lemma {:induction false} NeverSetJdIsNone(c: Caches, ops: seq<Op>, digest: string -> string, text: string)
    requires GetCachedJd(c, digest, text) == None
    requires forall i :: 0 <= i < |ops| && ops[i].SetJd? ==> digest(ops[i].text) != digest(text)
    ensures GetCachedJd(Replay(c, ops, digest), digest, text) == None
    decreases |ops|
  {
    if ops != [] {
      var c' := match ops[0]
                case SetResume(t, v) => SetCachedResume(c, digest, t, v)
                case SetJd(t, v) => SetCachedJd(c, digest, t, v);
      assert GetCachedJd(c', digest, text) == None;
      NeverSetJdIsNone(c', ops[1..], digest, text);
    }
  }

  /** Starting from the empty caches, a resume never set (under an
      injective digest) reads as `None`. */
  lemma FreshCachesMiss(ops: seq<Op>, digest: string -> string, text: string)
    requires forall a, b :: digest(a) == digest(b) ==> a == b
    requires forall i :: 0 <= i < |ops| ==> ops[i].text != text
    ensures GetCachedResume(Replay(Empty, ops, digest), digest, text) == None
    ensures GetCachedJd(Replay(Empty, ops, digest), digest, text) == None
  {
    NeverSetResumeIsNone(Empty, ops, digest, text);
    NeverSetJdIsNone(Empty, ops, digest, text);
  }
}

=== FILE: chunking.dfy ===
/** `chunk_jd_text` and `chunk_resume_text` of `chunking.py`: the split of a
    job description or a resume into pieces of at most `max_words` words.

  Both split on whitespace (`str.split()`, here `Text.Words`) and cut long
  texts into consecutive windows `words[i:i+max_words]` for `i` in
  `range(0, len(words), max_words)`, each joined by single spaces. The
  range raises `ValueError` for a zero step and is empty for a negative
  one; both cases are modelled. The resume's section-header split is a
  regular expression; here it is the parameter `split`.
 */
module Chunking {
  import opened Wrappers
  import opened Text

  const DefaultMaxWords: int := 2000

  /** Concatenation of a sequence of sequences. */
  function Flatten<T>(xss: seq<seq<T>>): seq<T> {
    if xss == [] then [] else xss[0] + Flatten(xss[1..])
  }

  /** `[xs[i:i+m] for i in range(0, len(xs), m)]`, built from the front. */
  function Windows<T>(xs: seq<T>, m: nat): (r: seq<seq<T>>)
    requires m > 0
    ensures forall k :: 0 <= k < |r| ==> 0 < |r[k]| <= m
    ensures forall k :: 0 <= k < |r| - 1 ==> |r[k]| == m
    decreases |xs|
  {
    if xs == [] then []
    else if |xs| <= m then [xs]
    else [xs[..m]] + Windows(xs[m..], m)
  }

  /** The windows put back together are the original sequence. */
  lemma {:induction false} WindowsFlatten<T>(xs: seq<T>, m: nat)
    requires m > 0
    ensures Flatten(Windows(xs, m)) == xs
    decreases |xs|
  {
    if xs != [] && |xs| > m {
      WindowsFlatten(xs[m..], m);
      assert ([xs[..m]] + Windows(xs[m..], m))[1..] == Windows(xs[m..], m);
      assert xs[..m] + xs[m..] == xs;
    }
  }

  lemma MulStep(k: nat, m: nat)
    requires k > 0
    ensures (k - 1) * m + m == k * m
  {
  }

  /** Window `k` is the slice `xs[k*m : k*m+m]` of the comprehension. */
  lemma {:induction false} WindowAt<T>(xs: seq<T>, m: nat, k: nat)
    requires m > 0 && k < |Windows(xs, m)|
    ensures k * m < |xs| && Windows(xs, m)[k] == xs[k * m .. Min(k * m + m, |xs|)]
    decreases |xs|
  {
    if k > 0 {
      var rest := xs[m..];
      assert Windows(xs, m)[k] == Windows(rest, m)[k - 1];
      WindowAt(rest, m, k - 1);
      MulStep(k, m);
      assert rest[(k - 1) * m .. Min((k - 1) * m + m, |rest|)] == xs[k * m .. Min(k * m + m, |xs|)];
    }
  }

  lemma MulAtLeast(k: nat, m: nat)
    requires k > 0
    ensures k * m >= m
  {
    MulStep(k, m);
  }

  /** Window `k` exists exactly when `k*m < len(xs)`: there are as many
      windows as `range(0, len(xs), m)` has elements. */
  lemma {:induction false} WindowIndices<T>(xs: seq<T>, m: nat, k: nat)
    requires m > 0
    ensures k < |Windows(xs, m)| <==> k * m < |xs|
    decreases |xs|
  {
    if k > 0 && xs != [] {
      MulAtLeast(k, m);
      if |xs| > m {
        WindowIndices(xs[m..], m, k - 1);
        MulStep(k, m);
      }
    }
  }

  predicate AllWords(ws: seq<string>) {
    forall k :: 0 <= k < |ws| ==> IsWord(ws[k])
  }

  /** Windows of a word list are word lists. */
  lemma {:induction false} WindowsOfWords(ws: seq<string>, m: nat)
    requires m > 0 && AllWords(ws)
    ensures forall k :: 0 <= k < |Windows(ws, m)| ==> AllWords(Windows(ws, m)[k])
    decreases |ws|
  {
    if ws != [] && |ws| > m {
      WindowsOfWords(ws[m..], m);
      assert AllWords(ws[..m]);
      assert forall k :: 1 <= k < |Windows(ws, m)| ==> Windows(ws, m)[k] == Windows(ws[m..], m)[k - 1];
    }
  }

  /** `' '.join(w)` for each window. */
  function JoinAll(wss: seq<seq<string>>): (r: seq<string>)
    ensures |r| == |wss|
    ensures forall k :: 0 <= k < |r| ==> r[k] == Join(" ", wss[k])
  {
    seq(|wss|, k requires 0 <= k < |wss| => Join(" ", wss[k]))
  }

  /** The words of every chunk, in chunk order. */
  function ChunkWords(chunks: seq<string>): seq<string> {
    if chunks == [] then [] else Words(chunks[0]) + ChunkWords(chunks[1..])
  }

  /** Splitting the joined windows again gives back the windows' words. */
  lemma {:induction false} JoinAllWords(wss: seq<seq<string>>)
    requires forall k :: 0 <= k < |wss| ==> AllWords(wss[k])
    ensures ChunkWords(JoinAll(wss)) == Flatten(wss)
    decreases |wss|
  {
    if wss != [] {
      WordsOfJoin(wss[0]);
      assert JoinAll(wss)[1..] == JoinAll(wss[1..]);
      JoinAllWords(wss[1..]);
    }
  }

  lemma {:induction false} ChunkWordsAppend(a: seq<string>, b: seq<string>)
    ensures ChunkWords(a + b) == ChunkWords(a) + ChunkWords(b)
    decreases |a|
  {
    if a != [] {
      var ab := a + b;
      assert ab[0] == a[0] && ab[1..] == a[1..] + b;
      ChunkWordsAppend(a[1..], b);
      AppendAssoc(Words(a[0]), ChunkWords(a[1..]), ChunkWords(b));
    } else {
      assert a + b == b;
    }
  }

  /** A chunk that neither is empty nor starts or ends in whitespace. */
  predicate Trimmed(c: string) {
    c != [] && !IsSpace(c[0]) && !IsSpace(c[|c| - 1])
  }

  predicate AllTrimmed(chunks: seq<string>) {
    forall k :: 0 <= k < |chunks| ==> Trimmed(chunks[k])
  }

  /** `' '.join(ws)` of a non-empty word list starts with the first word
      and ends with the last. */
  lemma {:induction false} JoinEdges(ws: seq<string>)
    requires ws != [] && AllWords(ws)
    ensures Join(" ", ws) != [] && Join(" ", ws)[0] == ws[0][0]
    ensures Join(" ", ws)[|Join(" ", ws)| - 1] == ws[|ws| - 1][|ws[|ws| - 1]| - 1]
    decreases |ws|
  {
    if |ws| > 1 {
      assert AllWords(ws[1..]);
      JoinEdges(ws[1..]);
      assert Join(" ", ws) == ws[0] + " " + Join(" ", ws[1..]);
    }
  }

  lemma JoinedWindowsTrimmed(ws: seq<string>, m: nat)
    requires m > 0 && AllWords(ws)
    ensures AllTrimmed(JoinAll(Windows(ws, m)))
  {
    WindowsOfWords(ws, m);
    forall k | 0 <= k < |JoinAll(Windows(ws, m))|
      ensures Trimmed(JoinAll(Windows(ws, m))[k])
    {
      JoinEdges(Windows(ws, m)[k]);
    }
  }

  // ---------------------------------------------------------------------
  // chunk_jd_text

  /** The windows of a word list, joined; `range(0, n, m)` fails for a zero
      step and is empty for a negative one. */
  function JoinedWindows(words: seq<string>, maxWords: int): (r: Result<seq<string>, string>)
    ensures r.Err? <==> maxWords == 0
    ensures maxWords < 0 ==> r == Ok([])
    ensures maxWords > 0 ==> r == Ok(JoinAll(Windows(words, maxWords)))
  {
    if maxWords == 0 then Err("ValueError")
    else if maxWords < 0 then Ok([])
    else Ok(JoinAll(Windows(words, maxWords)))
  }

  /** Every chunk is trimmed and holds between one and `m` words; all but
      the last hold exactly `m`. */
  predicate Windowed(chunks: seq<string>, m: int) {
    AllTrimmed(chunks)
    && (forall k :: 0 <= k < |chunks| ==> 0 < |Words(chunks[k])| <= m)
    && (forall k :: 0 <= k < |chunks| - 1 ==> |Words(chunks[k])| == m)
  }

  /** `chunk_jd_text(jd_text, max_words)`. */
  function ChunkJdText(jdText: string, maxWords: int): (r: Result<seq<string>, string>)
    ensures r.Err? <==> maxWords == 0 && Words(jdText) != []
    ensures |Words(jdText)| <= maxWords ==> r == Ok([Strip(jdText)])
    ensures maxWords < 0 ==> r == Ok([])
    ensures maxWords > 0 && |Words(jdText)| > maxWords ==> r.Ok? && Windowed(r.value, maxWords)
  {
    var words := Words(jdText);
    if |words| <= maxWords then Ok([Strip(jdText)])
    else
      LongTextFacts(words, maxWords);
      JoinedWindows(words, maxWords)
  }

  /** What the windows of a text longer than the limit satisfy. */
  lemma LongTextFacts(words: seq<string>, maxWords: int)
    requires AllWords(words)
    ensures maxWords > 0 ==> Windowed(JoinAll(Windows(words, maxWords)), maxWords)
  {
    if maxWords > 0 {
      JoinedWindowsTrimmed(words, maxWords);
      JdWindowWords(words, maxWords);
    }
  }

  lemma LongTextTrimmed(words: seq<string>, maxWords: int)
    requires AllWords(words)
    ensures maxWords > 0 ==> AllTrimmed(JoinAll(Windows(words, maxWords)))
  {
    if maxWords > 0 {
      JoinedWindowsTrimmed(words, maxWords);
    }
  }

  lemma JdWindowWords(words: seq<string>, m: nat)
    requires m > 0 && AllWords(words)
    ensures var r := JoinAll(Windows(words, m));
            (forall k :: 0 <= k < |r| ==> 0 < |Words(r[k])| <= m)
            && (forall k :: 0 <= k < |r| - 1 ==> |Words(r[k])| == m)
  {
    WindowsOfWords(words, m);
    forall k | 0 <= k < |Windows(words, m)|
      ensures Words(JoinAll(Windows(words, m))[k]) == Windows(words, m)[k]
    {
      WordsOfJoin(Windows(words, m)[k]);
    }
  }

  /** Whatever the split, the chunks hold exactly the words of the job
      description, in order. */
  lemma JdChunksKeepWords(jdText: string, maxWords: int)
    requires maxWords > 0
    ensures ChunkJdText(jdText, maxWords).Ok?
    ensures ChunkWords(ChunkJdText(jdText, maxWords).value) == Words(jdText)
  {
    if |Words(jdText)| <= maxWords {
      ShortJdKeepsWords(jdText, maxWords);
    } else {
      LongJdKeepsWords(jdText, maxWords);
    }
  }

  lemma ShortJdKeepsWords(jdText: string, maxWords: int)
    requires |Words(jdText)| <= maxWords
    ensures ChunkJdText(jdText, maxWords) == Ok([Strip(jdText)])
    ensures ChunkWords([Strip(jdText)]) == Words(jdText)
  {
    WordsOfStrip(jdText);
    ChunkWordsSingle(Strip(jdText));
  }

  lemma ChunkWordsSingle(c: string)
    ensures ChunkWords([c]) == Words(c)
  {
    var rest: seq<string> := [c][1..];
    assert rest == [];
    assert ChunkWords([c]) == Words(c) + ChunkWords(rest);
  }

  lemma LongJdKeepsWords(jdText: string, maxWords: int)
    requires maxWords > 0 && |Words(jdText)| > maxWords
    ensures ChunkJdText(jdText, maxWords) == Ok(JoinAll(Windows(Words(jdText), maxWords)))
    ensures ChunkWords(JoinAll(Windows(Words(jdText), maxWords))) == Words(jdText)
  {
    WindowsKeepWords(Words(jdText), maxWords);
  }

  /** The joined windows of a word list split back into that list. */
  lemma WindowsKeepWords(words: seq<string>, m: nat)
    requires m > 0 && AllWords(words)
    ensures ChunkWords(JoinAll(Windows(words, m))) == words
  {
    WindowsOfWords(words, m);
    JoinAllWords(Windows(words, m));
    WindowsFlatten(words, m);
  }

  /** A long job description's chunks are exactly the comprehension
      `[' '.join(words[i:i+m]) for i in range(0, len(words), m)]`: chunk `k`
      exists iff `k*m < len(words)` and joins `words[k*m : k*m+m]`. */
  lemma JdChunkAt(jdText: string, maxWords: int, k: nat)
    requires maxWords > 0 && |Words(jdText)| > maxWords
    ensures ChunkJdText(jdText, maxWords).Ok?
    ensures k < |ChunkJdText(jdText, maxWords).value| <==> k * maxWords < |Words(jdText)|
    ensures k < |ChunkJdText(jdText, maxWords).value| ==>
              ChunkJdText(jdText, maxWords).value[k]
              == Join(" ", Words(jdText)[k * maxWords .. Min(k * maxWords + maxWords, |Words(jdText)|)])
  {
    var words := Words(jdText);
    WindowIndices(words, maxWords, k);
    if k < |Windows(words, maxWords)| {
      WindowAt(words, maxWords, k);
    }
  }

  /** A blank job description is returned as one empty chunk: only the
      resume chunker filters empty chunks out. */
  lemma BlankJdIsOneEmptyChunk(jdText: string, maxWords: int)
    requires forall i :: 0 <= i < |jdText| ==> IsSpace(jdText[i])
    requires maxWords >= 0
    ensures ChunkJdText(jdText, maxWords) == Ok([""])
  {
    AllSpaceWords(jdText);
  }

  // ---------------------------------------------------------------------
  // chunk_resume_text

  /** The chunks of a section given its words and its stripped text. */
  function ChunksOf(words: seq<string>, stripped: string, maxWords: int): (r: Result<seq<string>, string>)
    requires AllWords(words) && (words == [] <==> stripped == [])
    requires stripped != [] ==> Trimmed(stripped)
    ensures r.Err? <==> maxWords == 0 && words != []
    ensures |words| <= maxWords && words == [] ==> r == Ok([])
    ensures |words| <= maxWords && words != [] ==> r == Ok([stripped])
    ensures |words| > maxWords && maxWords > 0 ==> r == Ok(JoinAll(Windows(words, maxWords)))
    ensures maxWords < 0 ==> r == Ok([])
    ensures r.Ok? ==> AllTrimmed(r.value)
  {
    if |words| > maxWords then
      LongTextTrimmed(words, maxWords);
      JoinedWindows(words, maxWords)
    else if stripped != [] then Ok([stripped])
    else Ok([])
  }

  /** The chunks of one section: its windows when it has more than
      `max_words` words, else the stripped section when it is not blank. */
  function SectionChunks(sec: string, maxWords: int): (r: Result<seq<string>, string>)
    ensures r.Err? <==> maxWords == 0 && Words(sec) != []
    ensures |Words(sec)| <= maxWords && Words(sec) == [] ==> r == Ok([])
    ensures |Words(sec)| <= maxWords && Words(sec) != [] ==> r == Ok([Strip(sec)])
    ensures |Words(sec)| > maxWords && maxWords > 0 ==> r == Ok(JoinAll(Windows(Words(sec), maxWords)))
    ensures maxWords < 0 ==> r == Ok([])
    ensures r.Ok? ==> AllTrimmed(r.value)
  {
    WordsEmpty(sec);
    ChunksOf(Words(sec), Strip(sec), maxWords)
  }

  /** The loop over the sections, stopping at the first failure. */
  function ChunkSections(sections: seq<string>, maxWords: int): (r: Result<seq<string>, string>)
    ensures r.Ok? ==> AllTrimmed(r.value)
    decreases |sections|
  {
    if sections == [] then Ok([])
    else
      match SectionChunks(sections[0], maxWords)
      case Err(e) => Err(e)
      case Ok(first) =>
        match ChunkSections(sections[1..], maxWords)
        case Err(e) => Err(e)
        case Ok(more) =>
          TrimmedAppend(first, more);
          Ok(first + more)
  }

  lemma TrimmedAppend(a: seq<string>, b: seq<string>)
    requires AllTrimmed(a) && AllTrimmed(b)
    ensures AllTrimmed(a + b)
  {
    forall k | 0 <= k < |a + b|
      ensures Trimmed((a + b)[k])
    {
      if k >= |a| {
        assert (a + b)[k] == b[k - |a|];
      }
    }
  }

  /** Some section has at least one word. */
  predicate HasWords(sections: seq<string>) {
    exists i :: 0 <= i < |sections| && Words(sections[i]) != []
  }

  /** The loop fails exactly when the limit is zero and some section has a
      word to window. */
  lemma {:induction false} ChunkSectionsFails(sections: seq<string>, maxWords: int)
    ensures ChunkSections(sections, maxWords).Err? <==> maxWords == 0 && HasWords(sections)
    decreases |sections|
  {
    if sections != [] {
      ChunkSectionsFails(sections[1..], maxWords);
      ChunkSectionsCons(sections, maxWords);
      HasWordsCons(sections);
    }
  }

  /** The loop fails when the first section fails or the rest does. */
  lemma ChunkSectionsCons(sections: seq<string>, maxWords: int)
    requires sections != []
    ensures ChunkSections(sections, maxWords).Err?
            <==> SectionChunks(sections[0], maxWords).Err? || ChunkSections(sections[1..], maxWords).Err?
  {
  }

  lemma HasWordsCons(sections: seq<string>)
    requires sections != []
    ensures HasWords(sections) <==> Words(sections[0]) != [] || HasWords(sections[1..])
  {
    if HasWords(sections) {
      var i :| 0 <= i < |sections| && Words(sections[i]) != [];
      if i > 0 {
        assert sections[1..][i - 1] == sections[i];
      }
    }
    if HasWords(sections[1..]) {
      var i :| 0 <= i < |sections[1..]| && Words(sections[1..][i]) != [];
      assert sections[i + 1] == sections[1..][i];
    }
  }

  /** `[c for c in chunks if c]`. */
  function NonEmptyChunks(chunks: seq<string>): (r: seq<string>)
    ensures |r| <= |chunks|
    ensures forall c :: c in r <==> c in chunks && c != []
  {
    if chunks == [] then []
    else if chunks[0] == [] then NonEmptyChunks(chunks[1..])
    else [chunks[0]] + NonEmptyChunks(chunks[1..])
  }

  /** `chunk_resume_text(resume_text, max_words)`, with the header split
      given as `split`. */
  function ChunkResumeText(resumeText: string, maxWords: int, split: string -> seq<string>): (r: Result<seq<string>, string>)
    ensures r.Err? <==> maxWords == 0 && HasWords(split(resumeText))
    ensures r.Ok? ==> forall c :: c in r.value ==> Trimmed(c)
  {
    ChunkSectionsFails(split(resumeText), maxWords);
    match ChunkSections(split(resumeText), maxWords)
    case Err(e) => Err(e)
    case Ok(chunks) => Ok(NonEmptyChunks(chunks))
  }

  /** The final filter removes nothing: no section yields an empty chunk. */
  lemma {:induction false} FilterKeepsAll(chunks: seq<string>)
    requires AllTrimmed(chunks)
    ensures NonEmptyChunks(chunks) == chunks
    decreases |chunks|
  {
    if chunks != [] {
      FilterKeepsAll(chunks[1..]);
    }
  }

  /** The words of all sections, in order. */
  function SectionWords(sections: seq<string>): seq<string> {
    if sections == [] then [] else Words(sections[0]) + SectionWords(sections[1..])
  }

  lemma ChunksOfKeepWords(words: seq<string>, stripped: string, maxWords: int)
    requires AllWords(words) && (words == [] <==> stripped == [])
    requires stripped != [] ==> Trimmed(stripped)
    requires Words(stripped) == words && maxWords > 0
    ensures ChunksOf(words, stripped, maxWords).Ok?
    ensures ChunkWords(ChunksOf(words, stripped, maxWords).value) == words
  {
    if |words| > maxWords {
      WindowsKeepWords(words, maxWords);
    } else if words != [] {
      ChunkWordsSingle(stripped);
    }
  }

  lemma SectionKeepsWords(sec: string, maxWords: int)
    requires maxWords > 0
    ensures SectionChunks(sec, maxWords).Ok?
    ensures ChunkWords(SectionChunks(sec, maxWords).value) == Words(sec)
  {
    var words, stripped := Words(sec), Strip(sec);
    WordsEmpty(sec);
    WordsOfStrip(sec);
    assert SectionChunks(sec, maxWords) == ChunksOf(words, stripped, maxWords);
    ChunksOfKeepWords(words, stripped, maxWords);
  }

  /** With a positive limit the resume chunks hold exactly the words of the
      sections, in order: the chunker loses and repeats nothing. */
  lemma {:induction false} ResumeChunksKeepWords(sections: seq<string>, maxWords: int)
    requires maxWords > 0
    ensures ChunkSections(sections, maxWords).Ok?
    ensures ChunkWords(ChunkSections(sections, maxWords).value) == SectionWords(sections)
    decreases |sections|
  {
    if sections != [] {
      SectionKeepsWords(sections[0], maxWords);
      ResumeChunksKeepWords(sections[1..], maxWords);
      ChunkWordsAppend(SectionChunks(sections[0], maxWords).value,
                       ChunkSections(sections[1..], maxWords).value);
    }
  }

  /** The resume chunker end to end: a positive limit never fails, nothing
      is filtered, and the words of the sections come back in order. */
  lemma ResumeChunks(resumeText: string, maxWords: int, split: string -> seq<string>)
    requires maxWords > 0
    ensures ChunkResumeText(resumeText, maxWords, split).Ok?
    ensures ChunkResumeText(resumeText, maxWords, split).value == ChunkSections(split(resumeText), maxWords).value
    ensures ChunkWords(ChunkResumeText(resumeText, maxWords, split).value) == SectionWords(split(resumeText))
  {
    ResumeChunksKeepWords(split(resumeText), maxWords);
    FilterKeepsAll(ChunkSections(split(resumeText), maxWords).value);
  }

  /** A negative limit makes every section's `range` empty: no chunks. */
  lemma {:induction false} NegativeLimitNoChunks(sections: seq<string>, maxWords: int)
    requires maxWords < 0
    ensures ChunkSections(sections, maxWords) == Ok([])
    decreases |sections|
  {
    if sections != [] {
      NegativeLimitNoChunks(sections[1..], maxWords);
      assert SectionChunks(sections[0], maxWords) == Ok([]);
      var none: seq<string> := [];
      assert none + none == none;
    }
  }
}

=== FILE: company_profile_agent.dfy ===
/** `parse_company_profile_sections` of `company_profile_agent.py`: the split
    of a numbered company profile ("1." overview, "2." culture cues, "3."
    facts) into its three parts.
 */
module CompanyProfileAgent {
  import opened Text

  datatype CompanyProfile = CompanyProfile(overview: string, cultureCues: seq<string>, facts: seq<string>)

  /** The loop state: the current section (0 before the first header) and
      what has been gathered so far. */
  datatype ProfileState = ProfileState(section: nat, overview: string, cues: seq<string>, facts: seq<string>)

  const Initial: ProfileState := ProfileState(0, "", [], [])

  /** The character class `[\-\d. ]` of the list-marker pattern. */
  predicate IsMarkerChar(c: char) {
    c == '-' || IsDigit(c) || c == '.' || c == ' '
  }

  /** `re.sub(r"^[\-\d. ]+", "", line)`: the leading run of marker
      characters removed. */
  function DropListMarker(line: string): (r: string)
    ensures r != [] ==> !IsMarkerChar(r[0])
    ensures |r| <= |line| && r == line[|line| - |r|..]
  {
    TrimStart(line, IsMarkerChar)
  }

  predicate IsSectionHeader(line: string) {
    StartsWith(line, "1.") || StartsWith(line, "2.") || StartsWith(line, "3.")
  }

  /** One iteration of the loop, on the line after `.strip()`. */
  function ProfileStep(line: string, st: ProfileState): (r: ProfileState)
    ensures st.section <= 3 ==> r.section <= 3
  {
    if StartsWith(line, "1.") then st.(section := 1, overview := Strip(line[2..]))
    else if StartsWith(line, "2.") then st.(section := 2)
    else if StartsWith(line, "3.") then st.(section := 3)
    else if st.section == 1 && line != "" then st.(overview := st.overview + " " + line)
    else if st.section == 2 && line != "" then st.(cues := st.cues + [DropListMarker(line)])
    else if st.section == 3 && line != "" then st.(facts := st.facts + [DropListMarker(line)])
    else st
  }

  /** The loop over the lines, as a left fold of `step`. */
  function Fold(lines: seq<string>, st: ProfileState, step: (string, ProfileState) -> ProfileState): ProfileState
    decreases |lines|
  {
    if lines == [] then st else Fold(lines[1..], step(lines[0], st), step)
  }

  /** The loop over the stripped lines. */
  function ProfilePass(lines: seq<string>, st: ProfileState): ProfileState {
    Fold(lines, st, ProfileStep)
  }

  /** Every line stripped, in order. */
  function StripLines(lines: seq<string>): (r: seq<string>)
    ensures |r| == |lines|
    ensures forall i :: 0 <= i < |lines| ==> r[i] == Strip(lines[i])
  {
    seq(|lines|, i requires 0 <= i < |lines| => Strip(lines[i]))
  }

  /** `[x for x in xs if x]`. */
  function NonEmptyItems(xs: seq<string>): (r: seq<string>)
    ensures |r| <= |xs|
    ensures forall x :: x in r <==> x in xs && x != ""
    ensures r == Filter(xs, Filled)
  {
    if xs == [] then []
    else if xs[0] == "" then NonEmptyItems(xs[1..])
    else [xs[0]] + NonEmptyItems(xs[1..])
  }

  /** The result dictionary from the state after the last line. */
  function Finish(st: ProfileState): (r: CompanyProfile)
    ensures r.overview == Strip(st.overview)
    ensures forall x :: x in r.cultureCues <==> x in st.cues && x != ""
    ensures forall x :: x in r.facts <==> x in st.facts && x != ""
    ensures r.cultureCues == Filter(st.cues, Filled) && r.facts == Filter(st.facts, Filled)
  {
    CompanyProfile(Strip(st.overview), NonEmptyItems(st.cues), NonEmptyItems(st.facts))
  }

  /** Every gathered cue and fact has its list marker removed. */
  predicate MarkersDropped(st: ProfileState) {
    (forall x :: x in st.cues ==> x == [] || !IsMarkerChar(x[0]))
    && (forall x :: x in st.facts ==> x == [] || !IsMarkerChar(x[0]))
  }

  lemma {:induction false} PassKeepsMarkersDropped(lines: seq<string>, st: ProfileState)
    requires MarkersDropped(st)
    ensures MarkersDropped(ProfilePass(lines, st))
    decreases |lines|
  {
    if lines != [] {
      var st' := ProfileStep(lines[0], st);
      assert MarkersDropped(st');
      PassKeepsMarkersDropped(lines[1..], st');
    }
  }

  /** `parse_company_profile_sections(profile_text)`. */
  function ParseCompanyProfileSections(text: string): (r: CompanyProfile)
    ensures forall x :: x in r.cultureCues ==> x != "" && !IsMarkerChar(x[0])
    ensures forall x :: x in r.facts ==> x != "" && !IsMarkerChar(x[0])
    ensures r.overview != "" ==> !IsSpace(r.overview[0]) && !IsSpace(r.overview[|r.overview| - 1])
  {
    var st := ProfilePass(StripLines(SplitOn(text, '\n')), Initial);
    PassKeepsMarkersDropped(StripLines(SplitOn(text, '\n')), Initial);
    FinishDropsMarkers(st);
    Finish(st)
  }

  lemma FinishDropsMarkers(st: ProfileState)
    requires MarkersDropped(st)
    ensures forall x :: x in Finish(st).cultureCues ==> x != "" && !IsMarkerChar(x[0])
    ensures forall x :: x in Finish(st).facts ==> x != "" && !IsMarkerChar(x[0])
  {
  }

  lemma PassCons(lines: seq<string>, st: ProfileState)
    requires lines != []
    ensures ProfilePass(lines, st) == ProfilePass(lines[1..], ProfileStep(lines[0], st))
  {
  }

  /** Folding over a concatenation folds the second part from the state
      the first part leaves. */
  lemma {:induction false} FoldAppend(a: seq<string>, b: seq<string>, st: ProfileState,
                                      step: (string, ProfileState) -> ProfileState)
    ensures Fold(a + b, st, step) == Fold(b, Fold(a, st, step), step)
    decreases |a|
  {
    if a != [] {
      assert (a + b)[0] == a[0] && (a + b)[1..] == a[1..] + b;
      FoldAppend(a[1..], b, step(a[0], st), step);
    } else {
      assert a + b == b;
    }
  }

  /** Before the first header, lines change nothing. */
  lemma {:induction false} PreambleIgnored(lines: seq<string>)
    requires forall i :: 0 <= i < |lines| ==> !IsSectionHeader(lines[i])
    ensures ProfilePass(lines, Initial) == Initial
    decreases |lines|
  {
    if lines != [] {
      assert ProfileStep(lines[0], Initial) == Initial;
      PreambleIgnored(lines[1..]);
    }
  }

  /** So a preamble in front of the profile does not change the result. */
  lemma PreambleDoesNotMatter(pre: seq<string>, rest: seq<string>)
    requires forall i :: 0 <= i < |pre| ==> !IsSectionHeader(pre[i])
    ensures ProfilePass(pre + rest, Initial) == ProfilePass(rest, Initial)
  {
    FoldAppend(pre, rest, Initial, ProfileStep);
    PreambleIgnored(pre);
  }

  /** A "1." line restarts section 1 and replaces the overview, whatever
      was gathered before. */
  lemma OverviewRestarts(line: string, st: ProfileState)
    requires StartsWith(line, "1.")
    ensures ProfileStep(line, st) == st.(section := 1, overview := Strip(line[2..]))
  {
  }

  /** "2." and "3." lines only switch the section; their text is dropped. */
  lemma SwitchDropsText(line: string, st: ProfileState)
    requires !StartsWith(line, "1.")
    requires StartsWith(line, "2.") || StartsWith(line, "3.")
    ensures ProfileStep(line, st).overview == st.overview
    ensures ProfileStep(line, st).cues == st.cues && ProfileStep(line, st).facts == st.facts
    ensures ProfileStep(line, st).section == if StartsWith(line, "2.") then 2 else 3
  {
  }

  /** The section-1 text of the lines that follow the header: each
      non-empty line, preceded by a space. */
  function Continuation(lines: seq<string>): string {
    if lines == [] then ""
    else if lines[0] == "" then Continuation(lines[1..])
    else " " + lines[0] + Continuation(lines[1..])
  }

  /** Inside section 1, lines without a header extend the overview. */
  lemma {:induction false} OverviewAccumulates(lines: seq<string>, st: ProfileState)
    requires st.section == 1
    requires forall i :: 0 <= i < |lines| ==> !IsSectionHeader(lines[i])
    ensures ProfilePass(lines, st) == st.(overview := st.overview + Continuation(lines))
    decreases |lines|
  {
    if lines != [] {
      var tl := lines[1..];
      NoHeadersInTail(lines);
      var piece := if lines[0] == "" then "" else " " + lines[0];
      PassCons(lines, st);
      OverviewStep(lines[0], st);
      OverviewAccumulates(tl, st.(overview := st.overview + piece));
      ContinuationCons(lines);
      AppendAssoc(st.overview, piece, Continuation(tl));
    }
  }

  /** A line without a header is appended to the overview in section 1. */
  lemma OverviewStep(line: string, st: ProfileState)
    requires st.section == 1 && !IsSectionHeader(line)
    ensures ProfileStep(line, st)
            == st.(overview := st.overview + (if line == "" then "" else " " + line))
  {
    if line == "" {
      assert st.overview + "" == st.overview;
    }
  }

  lemma ContinuationCons(lines: seq<string>)
    requires lines != []
    ensures Continuation(lines)
            == (if lines[0] == "" then "" else " " + lines[0]) + Continuation(lines[1..])
  {
    if lines[0] == "" {
      assert "" + Continuation(lines[1..]) == Continuation(lines[1..]);
    }
  }

  /** The lines after the first have no header either. */
  lemma NoHeadersInTail(lines: seq<string>)
    requires lines != [] && forall i :: 0 <= i < |lines| ==> !IsSectionHeader(lines[i])
    ensures forall i :: 0 <= i < |lines| - 1 ==> !IsSectionHeader(lines[1..][i])
  {
    forall i | 0 <= i < |lines| - 1
      ensures !IsSectionHeader(lines[1..][i])
    {
      assert lines[1..][i] == lines[i + 1];
    }
  }

  /** The list items of section-2 or section-3 lines: each non-empty line
      with its list marker removed. */
  function Items(lines: seq<string>): seq<string> {
    if lines == [] then []
    else if lines[0] == "" then Items(lines[1..])
    else [DropListMarker(lines[0])] + Items(lines[1..])
  }

  /** Inside section 2, lines without a header become culture cues and
      nothing else changes. */
  lemma {:induction false} CuesAccumulate(lines: seq<string>, st: ProfileState)
    requires st.section == 2
    requires forall i :: 0 <= i < |lines| ==> !IsSectionHeader(lines[i])
    ensures ProfilePass(lines, st) == st.(cues := st.cues + Items(lines))
    decreases |lines|
  {
    if lines != [] {
      NoHeadersInTail(lines);
      PassCons(lines, st);
      CueStep(lines[0], st);
      if lines[0] == "" {
        CuesAccumulate(lines[1..], st);
      } else {
        var c := DropListMarker(lines[0]);
        CuesAccumulate(lines[1..], st.(cues := st.cues + [c]));
        AppendAssoc(st.cues, [c], Items(lines[1..]));
      }
    }
  }

  /** Inside section 2, a line without a header adds its cue, if any. */
  lemma CueStep(line: string, st: ProfileState)
    requires st.section == 2 && !IsSectionHeader(line)
    ensures ProfileStep(line, st)
            == if line == "" then st else st.(cues := st.cues + [DropListMarker(line)])
  {
  }

  /** Inside section 3, lines without a header become facts and nothing
      else changes. */
  lemma {:induction false} FactsAccumulate(lines: seq<string>, st: ProfileState)
    requires st.section == 3
    requires forall i :: 0 <= i < |lines| ==> !IsSectionHeader(lines[i])
    ensures ProfilePass(lines, st) == st.(facts := st.facts + Items(lines))
    decreases |lines|
  {
    if lines != [] {
      NoHeadersInTail(lines);
      PassCons(lines, st);
      FactStep(lines[0], st);
      if lines[0] == "" {
        FactsAccumulate(lines[1..], st);
      } else {
        var f := DropListMarker(lines[0]);
        FactsAccumulate(lines[1..], st.(facts := st.facts + [f]));
        AppendAssoc(st.facts, [f], Items(lines[1..]));
      }
    }
  }

  /** Inside section 3, a line without a header adds its fact, if any. */
  lemma FactStep(line: string, st: ProfileState)
    requires st.section == 3 && !IsSectionHeader(line)
    ensures ProfileStep(line, st)
            == if line == "" then st else st.(facts := st.facts + [DropListMarker(line)])
  {
  }

  /** A "3." header followed by section-3 text appends that text's items to
      the facts, in order, and the final filter then drops the empty ones;
      the overview and the cues stay as they were. */
  lemma FactsSection(header: string, lines: seq<string>, st: ProfileState)
    requires StartsWith(header, "3.")
    requires forall i :: 0 <= i < |lines| ==> !IsSectionHeader(lines[i])
    ensures var r := Finish(ProfilePass([header] + lines, st));
            r.facts == Filter(st.facts + Items(lines), Filled)
            && r.cultureCues == Filter(st.cues, Filled)
            && r.overview == Strip(st.overview)
  {
    FactsPass(header, lines, st);
    var p := st.(section := 3, facts := st.facts + Items(lines));
    assert ProfilePass([header] + lines, st) == p;
    assert Finish(p).facts == Filter(p.facts, Filled);
  }

  /** A "2." header only switches to section 2. */
  lemma CuesHeaderStep(header: string, st: ProfileState)
    requires StartsWith(header, "2.")
    ensures ProfileStep(header, st) == st.(section := 2)
  {
    assert header[0] == '2';
    assert !StartsWith(header, "1.") by { assert "1."[0] == '1'; }
  }

  /** The passes over the three sections of a profile, one at a time. */
  lemma OverviewPass(h1: string, l1: seq<string>, st: ProfileState)
    requires StartsWith(h1, "1.")
    requires forall i :: 0 <= i < |l1| ==> !IsSectionHeader(l1[i])
    ensures ProfilePass([h1] + l1, st)
            == st.(section := 1, overview := Strip(h1[2..]) + Continuation(l1))
  {
    PassCons([h1] + l1, st);
    assert ([h1] + l1)[1..] == l1;
    OverviewRestarts(h1, st);
    OverviewAccumulates(l1, st.(section := 1, overview := Strip(h1[2..])));
  }

  lemma CuesPass(h2: string, l2: seq<string>, st: ProfileState)
    requires StartsWith(h2, "2.")
    requires forall i :: 0 <= i < |l2| ==> !IsSectionHeader(l2[i])
    ensures ProfilePass([h2] + l2, st) == st.(section := 2, cues := st.cues + Items(l2))
  {
    PassCons([h2] + l2, st);
    assert ([h2] + l2)[1..] == l2;
    CuesHeaderStep(h2, st);
    CuesAccumulate(l2, st.(section := 2));
  }

  lemma FactsPass(h3: string, l3: seq<string>, st: ProfileState)
    requires StartsWith(h3, "3.")
    requires forall i :: 0 <= i < |l3| ==> !IsSectionHeader(l3[i])
    ensures ProfilePass([h3] + l3, st) == st.(section := 3, facts := st.facts + Items(l3))
  {
    PassCons([h3] + l3, st);
    assert ([h3] + l3)[1..] == l3;
    FactsHeaderStep(h3, st);
    FactsAccumulate(l3, st.(section := 3));
  }

  /** The pass over a "1." section, a "2." section and a "3." section, in
      that order, ends in section 3 with the section-1 text as overview and
      the items of the other two sections as cues and facts. */
  lemma {:induction false} SectionsPass(h1: string, l1: seq<string>, h2: string, l2: seq<string>,
                                        h3: string, l3: seq<string>)
    requires StartsWith(h1, "1.") && StartsWith(h2, "2.") && StartsWith(h3, "3.")
    requires forall i :: 0 <= i < |l1| ==> !IsSectionHeader(l1[i])
    requires forall i :: 0 <= i < |l2| ==> !IsSectionHeader(l2[i])
    requires forall i :: 0 <= i < |l3| ==> !IsSectionHeader(l3[i])
    ensures ProfilePass(([h1] + l1) + ([h2] + l2) + ([h3] + l3), Initial)
            == ProfileState(3, Strip(h1[2..]) + Continuation(l1), Items(l2), Items(l3))
  {
    var a, b, c := [h1] + l1, [h2] + l2, [h3] + l3;
    FoldAppend(a + b, c, Initial, ProfileStep);
    FoldAppend(a, b, Initial, ProfileStep);
    OverviewPass(h1, l1, Initial);
    var st1 := Initial.(section := 1, overview := Strip(h1[2..]) + Continuation(l1));
    CuesPass(h2, l2, st1);
    assert [] + Items(l2) == Items(l2);
    var st2 := st1.(section := 2, cues := Items(l2));
    FactsPass(h3, l3, st2);
    assert [] + Items(l3) == Items(l3);
  }

  /** A profile whose stripped lines are a "1." section, a "2." section and
      a "3." section, in that order: the overview is the stripped section-1
      text, the culture cues are the non-empty section-2 items and the
      facts the non-empty section-3 items, each list in input order. */
  lemma ProfileSections(text: string, h1: string, l1: seq<string>, h2: string, l2: seq<string>,
                        h3: string, l3: seq<string>)
    requires StripLines(SplitOn(text, '\n')) == ([h1] + l1) + ([h2] + l2) + ([h3] + l3)
    requires StartsWith(h1, "1.") && StartsWith(h2, "2.") && StartsWith(h3, "3.")
    requires forall i :: 0 <= i < |l1| ==> !IsSectionHeader(l1[i])
    requires forall i :: 0 <= i < |l2| ==> !IsSectionHeader(l2[i])
    requires forall i :: 0 <= i < |l3| ==> !IsSectionHeader(l3[i])
    ensures var r := ParseCompanyProfileSections(text);
            r.overview == Strip(Strip(h1[2..]) + Continuation(l1))
            && r.cultureCues == Filter(Items(l2), Filled)
            && r.facts == Filter(Items(l3), Filled)
  {
    SectionsPass(h1, l1, h2, l2, h3, l3);
  }

  /** A "3." header only switches to section 3. */
  lemma FactsHeaderStep(header: string, st: ProfileState)
    requires StartsWith(header, "3.")
    ensures ProfileStep(header, st) == st.(section := 3)
  {
    assert header[0] == '3';
    assert !StartsWith(header, "1.") by { assert "1."[0] == '1'; }
    assert !StartsWith(header, "2.") by { assert "2."[0] == '2'; }
  }

  /** "1. x" followed by section-1 text gives the overview
      `strip(strip(x) + continuation)`. */
  lemma OverviewSection(header: string, lines: seq<string>)
    requires StartsWith(header, "1.")
    requires forall i :: 0 <= i < |lines| ==> !IsSectionHeader(lines[i])
    ensures Finish(ProfilePass([header] + lines, Initial)).overview
            == Strip(Strip(header[2..]) + Continuation(lines))
  {
    var st := ProfileStep(header, Initial);
    OverviewRestarts(header, Initial);
    assert ([header] + lines)[1..] == lines;
    OverviewAccumulates(lines, st);
  }
}

=== FILE: filters.dfy ===
/** The relevance predicates of `filters.py`: experience band, location
    against the remote preference, and posting freshness.

  The YAML band configuration is a parameter (`Config`), the compiled band
  patterns are searched through an uninterpreted `hits(pattern, text)`, the
  date parser is an oracle `parse` returning a day number, and "today" is a
  parameter. The years regex and the remote-marker regex are simple enough
  to be modelled exactly.
 */
module Filters {
  import opened Wrappers
  import opened Text
  import opened Listings

  // ---------------------------------------------------------------------
  // _years: the two regular expressions, matched as `re.search` does
  // ---------------------------------------------------------------------

  /** `\d{1,2}` at index `i` (greedy): the value and the index after it.
      Taking one digit where two are available can never lead to a match of
      either years pattern, because what follows the number must be a space,
      '-', '+' or 'y', never a digit. */
  function NumberAt(s: string, i: nat): (r: Option<(int, nat)>)
    requires i <= |s|
    ensures r.Some? <==> i < |s| && IsDigit(s[i])
    ensures r.Some? ==> i < r.value.1 <= |s| && 0 <= r.value.0 <= 99
    ensures r.Some? ==> r.value.1 == |s| || !IsDigit(s[r.value.1]) || r.value.1 == i + 2
  {
    if i < |s| && IsDigit(s[i]) then
      if i + 1 < |s| && IsDigit(s[i + 1]) then
        Some((10 * DigitValue(s[i]) + DigitValue(s[i + 1]), i + 2))
      else
        Some((DigitValue(s[i]), i + 1))
    else None
  }

  /** `\s*` starting at `i`: the first index at or after `i` that is not a space. */
  function SkipSpaces(s: string, i: nat): (j: nat)
    requires i <= |s|
    ensures i <= j <= |s|
    ensures forall k :: i <= k < j ==> IsSpace(s[k])
    ensures j < |s| ==> !IsSpace(s[j])
  {
    Scan(s, i, c => !IsSpace(c))
  }

  /** A match of `(\d{1,2})\s*-\s*(\d{1,2})\s*years` starting at `i`. */
  function RangeAt(s: string, i: nat): Option<(int, int)>
    requires i <= |s|
  {
    match NumberAt(s, i)
    case None => None
    case Some((a, j)) =>
      var k := SkipSpaces(s, j);
      if k < |s| && s[k] == '-' then
        match NumberAt(s, SkipSpaces(s, k + 1))
        case None => None
        case Some((b, j2)) =>
          if OccursAt(s, "years", SkipSpaces(s, j2)) then Some((a, b)) else None
      else None
  }

  /** A match of `(\d{1,2})\s*\+?\s*years?` starting at `i`. */
  function SingleAt(s: string, i: nat): Option<int>
    requires i <= |s|
  {
    match NumberAt(s, i)
    case None => None
    case Some((n, j)) =>
      var k := SkipSpaces(s, j);
      var k' := if k < |s| && s[k] == '+' then SkipSpaces(s, k + 1) else k;
      if OccursAt(s, "year", k') then Some(n) else None
  }

  /** `re.search` for the range pattern: the leftmost match at or after `i`. */
  function FirstRange(s: string, i: nat): Option<(int, int)>
    requires i <= |s|
    decreases |s| - i
  {
    if RangeAt(s, i).Some? then RangeAt(s, i)
    else if i == |s| then None
    else FirstRange(s, i + 1)
  }

  /** `re.search` for the single-figure pattern. */
  function FirstSingle(s: string, i: nat): Option<int>
    requires i <= |s|
    decreases |s| - i
  {
    if SingleAt(s, i).Some? then SingleAt(s, i)
    else if i == |s| then None
    else FirstSingle(s, i + 1)
  }

  /** `_years(txt)`: the midpoint (floor) of the first "N-M years", else the
      figure of the first "N years" / "N+ years", else none. */
  function Years(txt: string): (r: Option<int>)
    ensures r.Some? ==> 0 <= r.value <= 99
  {
    FirstRangeBounds(txt, 0);
    FirstSingleBounds(txt, 0);
    match FirstRange(txt, 0)
    case Some((a, b)) => Some((a + b) / 2)
    case None => FirstSingle(txt, 0)
  }

  /** The decimal rendering of a figure the years patterns can read. */
  function Decimal(n: int): (d: string)
    requires 0 <= n <= 99
    ensures 1 <= |d| <= 2 && forall i :: 0 <= i < |d| ==> IsDigit(d[i])
  {
    if n < 10 then [('0' as int + n) as char]
    else [('0' as int + n / 10) as char, ('0' as int + n % 10) as char]
  }

  lemma {:induction false} FirstRangeNone(s: string, i: nat)
    requires i <= |s|
    requires forall j :: i <= j <= |s| ==> RangeAt(s, j).None?
    ensures FirstRange(s, i).None?
    decreases |s| - i
  {
    if i < |s| {
      FirstRangeNone(s, i + 1);
    }
  }

  lemma {:induction false} FirstSingleNone(s: string, i: nat)
    requires i <= |s|
    requires forall j :: i <= j <= |s| ==> SingleAt(s, j).None?
    ensures FirstSingle(s, i).None?
    decreases |s| - i
  {
    if i < |s| {
      FirstSingleNone(s, i + 1);
    }
  }

  /** `\d{1,2}` reads a rendered figure wherever it stands, provided no
      further digit follows it. */
  lemma NumberAtDecimal(pre: string, n: int, rest: string)
    requires 0 <= n <= 99 && (rest == [] || !IsDigit(rest[0]))
    ensures NumberAt(pre + Decimal(n) + rest, |pre|) == Some((n, |pre| + |Decimal(n)|))
  {
    var s := pre + Decimal(n) + rest;
    var d := Decimal(n);
    assert s[|pre|] == d[0];
    if n >= 10 {
      assert s[|pre| + 1] == d[1];
    } else if rest != [] {
      assert s[|pre| + 1] == rest[0];
    }
  }

  /** The range pattern matches at `i` when its pieces sit back to back. */
  lemma RangeAtAdjacent(s: string, i: nat, a: int, j: nat, b: int, j2: nat)
    requires i <= |s| && j < |s| && s[j] == '-'
    requires NumberAt(s, i) == Some((a, j))
    requires NumberAt(s, j + 1) == Some((b, j2))
    requires j2 < |s| && IsSpace(s[j2]) && OccursAt(s, "years", j2 + 1)
    ensures RangeAt(s, i) == Some((a, b))
  {
    assert SkipSpaces(s, j) == j;
    assert SkipSpaces(s, j + 1) == j + 1;
    assert !IsSpace(s[j2 + 1]);
    assert SkipSpaces(s, j2) == j2 + 1;
  }

  /** "N-M years" reads as the floor of the midpoint. */
  lemma YearsOfRangePhrase(a: int, b: int)
    requires 0 <= a <= 99 && 0 <= b <= 99
    ensures Years(Decimal(a) + "-" + Decimal(b) + " years") == Some((a + b) / 2)
  {
    var s := Decimal(a) + "-" + Decimal(b) + " years";
    RangePhraseAtStart(a, b);
    YearsOfRangeAtStart(s, a, b);
  }

  /** A range at the very start is the first range, so it decides. */
  lemma YearsOfRangeAtStart(s: string, a: int, b: int)
    requires RangeAt(s, 0) == Some((a, b))
    ensures Years(s) == Some((a + b) / 2)
  {
  }

  /** "N-M years" is matched by the range pattern at its first character. */
  lemma RangePhraseAtStart(a: int, b: int)
    requires 0 <= a <= 99 && 0 <= b <= 99
    ensures RangeAt(Decimal(a) + "-" + Decimal(b) + " years", 0) == Some((a, b))
  {
    var da, db := Decimal(a), Decimal(b);
    var s := da + "-" + db + " years";
    var j := |da|;
    var j2 := j + 1 + |db|;
    assert NumberAt(s, 0) == Some((a, j)) by {
      NumberAtDecimal([], a, "-" + db + " years");
      assert [] + da + ("-" + db + " years") == s;
    }
    assert NumberAt(s, j + 1) == Some((b, j2)) by {
      NumberAtDecimal(da + "-", b, " years");
    }
    assert s[j] == '-';
    assert s[j2..] == " years";
    assert s[j2] == ' ';
    assert OccursAt(s, "years", j2 + 1) by {
      assert s[j2 + 1..j2 + 6] == "years";
    }
    RangeAtAdjacent(s, 0, a, j, b, j2);
  }

  /** Without a '-' the range pattern matches nowhere. */
  lemma NoDashNoRange(s: string)
    requires forall i :: 0 <= i < |s| ==> s[i] != '-'
    ensures FirstRange(s, 0).None?
  {
    forall j | 0 <= j <= |s|
      ensures RangeAt(s, j).None?
    {
    }
    FirstRangeNone(s, 0);
  }

  /** A match of the single-figure pattern at the start is the first one. */
  lemma YearsOfSingleAtStart(s: string, n: int)
    requires FirstRange(s, 0).None? && SingleAt(s, 0) == Some(n)
    ensures Years(s) == Some(n)
  {
  }

  /** "N years" and "N+ years" read as N: with no '-' in the text the range
      pattern cannot match, and the single-figure pattern, its '+' optional,
      matches at the first character. */
  lemma YearsOfSinglePhrase(n: int, plus: bool)
    requires 0 <= n <= 99
    ensures Years(Decimal(n) + (if plus then "+" else "") + " years") == Some(n)
  {
    var d := Decimal(n);
    var m: string := if plus then "+" else "";
    var s := d + m + " years";
    forall i | 0 <= i < |s|
      ensures s[i] != '-'
    {
      if i < |d| {
        assert s[i] == d[i];
      } else if i < |d| + |m| {
        assert s[i] == '+';
      } else {
        assert s[i] == " years"[i - |d| - |m|];
      }
    }
    NoDashNoRange(s);
    SingleAtStart(n, plus);
    YearsOfSingleAtStart(s, n);
  }

  /** The single-figure pattern matches at `i` when the figure is followed
      by an optional '+', one space and "year". */
  lemma SingleAtAdjacent(s: string, i: nat, n: int, j: nat, p: nat)
    requires i <= |s| && NumberAt(s, i) == Some((n, j))
    requires p == j || (p == j + 1 && j < |s| && s[j] == '+')
    requires p < |s| && s[p] == ' ' && OccursAt(s, "year", p + 1)
    ensures SingleAt(s, i) == Some(n)
  {
    assert s[p + 1] == "year"[0];
    assert SkipSpaces(s, p) == p + 1;
    if p == j + 1 {
      assert SkipSpaces(s, j) == j;
    }
  }

  /** The single-figure pattern matches "N years" / "N+ years" at index 0. */
  lemma SingleAtStart(n: int, plus: bool)
    requires 0 <= n <= 99
    ensures SingleAt(Decimal(n) + (if plus then "+" else "") + " years", 0) == Some(n)
  {
    var d := Decimal(n);
    var m: string := if plus then "+" else "";
    var s := d + m + " years";
    var j := |d|;
    assert NumberAt(s, 0) == Some((n, j)) by {
      NumberAtDecimal([], n, m + " years");
      assert [] + d + (m + " years") == s;
    }
    var p := j + |m|;
    assert s[p..] == " years";
    assert plus ==> s[j] == '+';
    assert OccursAt(s, "year", p + 1) by {
      assert s[p + 1..p + 5] == "year";
    }
    SingleAtAdjacent(s, 0, n, j, p);
  }

  /** A text without a digit states no figure. */
  lemma YearsWithoutDigits(txt: string)
    requires forall i :: 0 <= i < |txt| ==> !IsDigit(txt[i])
    ensures Years(txt).None?
  {
    FirstRangeNone(txt, 0);
    FirstSingleNone(txt, 0);
  }

  lemma {:induction false} FirstRangeBounds(s: string, i: nat)
    requires i <= |s|
    ensures FirstRange(s, i).Some? ==>
      0 <= FirstRange(s, i).value.0 <= 99 && 0 <= FirstRange(s, i).value.1 <= 99
    decreases |s| - i
  {
    if RangeAt(s, i).None? && i < |s| {
      FirstRangeBounds(s, i + 1);
    }
  }

  lemma {:induction false} FirstSingleBounds(s: string, i: nat)
    requires i <= |s|
    ensures FirstSingle(s, i).Some? ==> 0 <= FirstSingle(s, i).value <= 99
    decreases |s| - i
  {
    if SingleAt(s, i).None? && i < |s| {
      FirstSingleBounds(s, i + 1);
    }
  }

  // ---------------------------------------------------------------------
  // matches_experience_band
  // ---------------------------------------------------------------------

  /** One band of the YAML configuration: its patterns and its
      `[min_years, max_years)` range. */
  datatype BandConfig = BandConfig(patterns: seq<string>, minYears: int, maxYears: int)

  type Config = map<string, BandConfig>

  /** The configuration key a band token selects: lowercased, and the three
      short names aliased to their `*_level` keys. */
  function BandKey(band: string): string {
    var key := Lower(band);
    if key == "entry" then "entry_level"
    else if key == "mid" then "mid_level"
    else if key == "senior" then "senior_level"
    else key
  }

  /** Some pattern of `pats` is found in `txt`. */
  predicate HitsAny(pats: seq<string>, txt: string, hits: (string, string) -> bool) {
    exists p :: p in pats && hits(p, txt)
  }

  /** Some band of `cfg` other than `key` has a pattern found in `txt`. */
  predicate OtherBandHit(cfg: Config, key: string, txt: string, hits: (string, string) -> bool) {
    exists b :: b in cfg && b != key && HitsAny(cfg[b].patterns, txt, hits)
  }

  predicate YearsInBand(txt: string, bc: BandConfig) {
    var y := Years(txt);
    y.Some? && bc.minYears <= y.value < bc.maxYears
  }

  /** The lowercased title+description text the band rules read. */
  function BandText(job: Listing): string {
    Lower(OrEmpty(job.title) + OrEmpty(job.description))
  }

  /** `matches_experience_band(job, band)`. A band the configuration does not
      know raises `KeyError`, modelled as `Err`. */
  function MatchesExperienceBand(job: Listing, band: string, cfg: Config,
                                 hits: (string, string) -> bool): (r: Result<bool, string>)
    ensures r.Err? <==> Lower(band) != "any" && BandKey(band) !in cfg
    ensures r == Ok(true) && Lower(band) != "any" ==> !OtherBandHit(cfg, BandKey(band), BandText(job), hits)
  {
    if Lower(band) == "any" then Ok(true)
    else
      var key := BandKey(band);
      if key !in cfg then Err("KeyError: " + key)
      else
        var txt := BandText(job);
        Ok((HitsAny(cfg[key].patterns, txt, hits) || YearsInBand(txt, cfg[key]))
           && !OtherBandHit(cfg, key, txt, hits))
  }

  /** "any", in any letter case, accepts every job. */
  lemma AnyBandAcceptsAll(job: Listing, band: string, cfg: Config, hits: (string, string) -> bool)
    requires Lower(band) == "any"
    ensures MatchesExperienceBand(job, band, cfg, hits) == Ok(true)
  {
  }

  /** "entry", "mid" and "senior" (any case) behave exactly like their
      `*_level` configuration keys. */
  lemma BandAliases(job: Listing, band: string, cfg: Config, hits: (string, string) -> bool)
    requires Lower(band) in {"entry", "mid", "senior"}
    ensures MatchesExperienceBand(job, band, cfg, hits)
         == MatchesExperienceBand(job, Lower(band) + "_level", cfg, hits)
  {
    var l := Lower(band) + "_level";
    if Lower(band) == "entry" {
      assert l == "entry_level";
    } else if Lower(band) == "mid" {
      assert l == "mid_level";
    } else {
      assert l == "senior_level";
    }
    assert Lower(l) == l;
    assert BandKey(l) == BandKey(band);
  }

  /** Acceptance for a configured band: a band pattern hits or the stated
      years fall in its range, and no other band's pattern hits. */
  lemma BandAcceptance(job: Listing, band: string, cfg: Config, hits: (string, string) -> bool)
    requires Lower(band) != "any" && BandKey(band) in cfg
    ensures MatchesExperienceBand(job, band, cfg, hits).Ok?
    ensures MatchesExperienceBand(job, band, cfg, hits).value <==>
      (HitsAny(cfg[BandKey(band)].patterns, BandText(job), hits)
         || YearsInBand(BandText(job), cfg[BandKey(band)]))
      && !OtherBandHit(cfg, BandKey(band), BandText(job), hits)
  {
  }

  /** Mutual exclusion: text that hits the patterns of two different bands
      is rejected for both of them. */
  lemma BandMutualExclusion(job: Listing, band1: string, band2: string, cfg: Config,
                            hits: (string, string) -> bool)
    requires Lower(band1) != "any" && Lower(band2) != "any"
    requires BandKey(band1) in cfg && BandKey(band2) in cfg && BandKey(band1) != BandKey(band2)
    requires HitsAny(cfg[BandKey(band1)].patterns, BandText(job), hits)
    requires HitsAny(cfg[BandKey(band2)].patterns, BandText(job), hits)
    ensures MatchesExperienceBand(job, band1, cfg, hits) == Ok(false)
    ensures MatchesExperienceBand(job, band2, cfg, hits) == Ok(false)
  {
    var txt := BandText(job);
    assert OtherBandHit(cfg, BandKey(band1), txt, hits) by {
      var b := BandKey(band2);
      assert b in cfg && b != BandKey(band1) && HitsAny(cfg[b].patterns, txt, hits);
    }
    assert OtherBandHit(cfg, BandKey(band2), txt, hits) by {
      var b := BandKey(band1);
      assert b in cfg && b != BandKey(band2) && HitsAny(cfg[b].patterns, txt, hits);
    }
  }

  /** Once the text hits any configured band's patterns, at most one
      configured band accepts it. */
  lemma AtMostOneBandAccepts(job: Listing, band1: string, band2: string, hitBand: string,
                             cfg: Config, hits: (string, string) -> bool)
    requires Lower(band1) != "any" && Lower(band2) != "any"
    requires BandKey(band1) != BandKey(band2)
    requires hitBand in cfg && HitsAny(cfg[hitBand].patterns, BandText(job), hits)
    ensures !(MatchesExperienceBand(job, band1, cfg, hits) == Ok(true)
              && MatchesExperienceBand(job, band2, cfg, hits) == Ok(true))
  {
    var txt := BandText(job);
    if hitBand != BandKey(band1) {
      assert hitBand in cfg && hitBand != BandKey(band1) && HitsAny(cfg[hitBand].patterns, txt, hits);
      assert OtherBandHit(cfg, BandKey(band1), txt, hits);
    } else {
      assert hitBand in cfg && hitBand != BandKey(band2) && HitsAny(cfg[hitBand].patterns, txt, hits);
      assert OtherBandHit(cfg, BandKey(band2), txt, hits);
    }
  }

  // ---------------------------------------------------------------------
  // matches_location
  // ---------------------------------------------------------------------

  /** `REMOTE_PAT.search(loc)` for a lowercased location. */
  predicate HasRemoteMarker(loc: string) {
    Contains(loc, "remote") || Contains(loc, "anywhere")
  }

  /** `matches_location(job, city, remote_pref)`. */
  function MatchesLocation(job: Listing, city: Option<string>, remotePref: string): (r: bool)
    ensures r ==> Contains(Lower(OrEmpty(job.location)), Lower(OrEmpty(city)))
                  || HasRemoteMarker(Lower(OrEmpty(job.location)))
    ensures remotePref != "On-site only" && HasRemoteMarker(Lower(OrEmpty(job.location))) ==> r
  {
    var loc := Lower(OrEmpty(job.location));
    var c := Lower(OrEmpty(city));
    if remotePref == "Remote only" then HasRemoteMarker(loc)
    else if remotePref == "On-site only" then Contains(loc, c) && !HasRemoteMarker(loc)
    else Contains(loc, c) || HasRemoteMarker(loc)
  }

  /** "Remote only" and "On-site only" never both accept a listing, and any
      other preference accepts exactly what one of the two accepts. */
  lemma NoPreferenceIsUnion(job: Listing, city: Option<string>, pref: string)
    requires pref != "Remote only" && pref != "On-site only"
    ensures !(MatchesLocation(job, city, "Remote only") && MatchesLocation(job, city, "On-site only"))
    ensures MatchesLocation(job, city, pref)
        <==> MatchesLocation(job, city, "Remote only") || MatchesLocation(job, city, "On-site only")
  {
  }

  /** The rule of each preference: "Remote only" wants a remote marker,
      "On-site only" wants the city and no marker, and anything else wants
      either. */
  lemma LocationRules(job: Listing, city: Option<string>, pref: string)
    ensures var loc := Lower(OrEmpty(job.location));
            var c := Lower(OrEmpty(city));
            (pref == "Remote only" ==> (MatchesLocation(job, city, pref) <==> HasRemoteMarker(loc)))
            && (pref == "On-site only" ==>
                  (MatchesLocation(job, city, pref) <==> Contains(loc, c) && !HasRemoteMarker(loc)))
            && (pref != "Remote only" && pref != "On-site only" ==>
                  (MatchesLocation(job, city, pref) <==> Contains(loc, c) || HasRemoteMarker(loc)))
  {
  }

  /** A plain city location: "Chicago, IL" for the city "Chicago" is
      rejected when only remote jobs are wanted, and accepted on-site and
      with no preference. */
  lemma CityLocationScenario(job: Listing, pref: string)
    requires job.location == Some("Chicago, IL")
    requires pref != "Remote only"
    ensures !MatchesLocation(job, Some("Chicago"), "Remote only")
    ensures MatchesLocation(job, Some("Chicago"), pref)
  {
    NoMarkerWithoutMW("Chicago, IL");
    var l := Lower("Chicago, IL");
    var c := Lower("Chicago");
    assert c == "chicago";
    assert l[..7] == "chicago";
    assert OccursAt(l, c, 0);
  }

  /** With no preference, an empty or missing city accepts every location. */
  lemma EmptyCityAcceptsAll(job: Listing, city: Option<string>, pref: string)
    requires pref != "Remote only" && pref != "On-site only"
    requires OrEmpty(city) == ""
    ensures MatchesLocation(job, city, pref)
  {
    ContainsEmpty(Lower(OrEmpty(job.location)));
  }

  /** The remote-only scenario: "Anywhere (Remote)" passes, while
      "Chicago, IL (Hybrid)" has no remote marker and is rejected. */
  lemma RemoteOnlyScenario(job1: Listing, job2: Listing)
    requires job1.location == Some("Anywhere (Remote)")
    requires job2.location == Some("Chicago, IL (Hybrid)")
    ensures MatchesLocation(job1, Some("Chicago, IL"), "Remote only")
    ensures !MatchesLocation(job2, Some("Chicago, IL"), "Remote only")
  {
    RemoteLocationPasses(job1);
    HybridLocationRejected(job2);
  }

  lemma RemoteLocationPasses(job: Listing)
    requires job.location == Some("Anywhere (Remote)")
    ensures MatchesLocation(job, Some("Chicago, IL"), "Remote only")
  {
    var l := Lower("Anywhere (Remote)");
    assert l[..8] == "anywhere";
    assert OccursAt(l, "anywhere", 0);
  }

  /** A location without the letters m and w, in either case, carries no
      remote marker once lowered: "remote" needs the m, "anywhere" the w. */
  lemma NoMarkerWithoutMW(s: string)
    requires forall i :: 0 <= i < |s| ==> s[i] !in "mMwW"
    ensures !HasRemoteMarker(Lower(s))
  {
    var l := Lower(s);
    assert 'm' !in l && 'w' !in l by {
      forall i | 0 <= i < |l|
        ensures l[i] != 'm' && l[i] != 'w'
      {
        assert s[i] !in "mMwW";
      }
    }
    MissingCharNotContained(l, "remote", 'm');
    MissingCharNotContained(l, "anywhere", 'w');
  }

  lemma HybridLocationRejected(job: Listing)
    requires job.location == Some("Chicago, IL (Hybrid)")
    ensures !MatchesLocation(job, Some("Chicago, IL"), "Remote only")
  {
    NoMarkerWithoutMW("Chicago, IL (Hybrid)");
  }

  // ---------------------------------------------------------------------
  // is_fresh
  // ---------------------------------------------------------------------

  /** `is_fresh(job, max_days)`: `parse` stands for `dateparser.parse`
      (a day number, or none when unparseable) and `today` for the clock. */
  function IsFresh(job: Listing, parse: string -> Option<int>, today: int, maxDays: int): (r: bool)
    ensures !NonEmpty(job.postedAt) ==> r
    ensures r && NonEmpty(job.postedAt) ==> '+' !in job.postedAt.value
  {
    var raw := job.postedAt;
    if !NonEmpty(raw) then true
    else if '+' in raw.value then false
    else
      match parse(raw.value)
      case None => true
      case Some(day) => day >= today - maxDays
  }

  /** The freshness rules in their order of precedence. */
  lemma FreshnessRules(job: Listing, parse: string -> Option<int>, today: int, maxDays: int)
    ensures !NonEmpty(job.postedAt) ==> IsFresh(job, parse, today, maxDays)
    ensures NonEmpty(job.postedAt) && '+' in job.postedAt.value ==> !IsFresh(job, parse, today, maxDays)
    ensures NonEmpty(job.postedAt) && '+' !in job.postedAt.value && parse(job.postedAt.value).None?
            ==> IsFresh(job, parse, today, maxDays)
    ensures NonEmpty(job.postedAt) && '+' !in job.postedAt.value && parse(job.postedAt.value).Some?
            ==> (IsFresh(job, parse, today, maxDays) <==> parse(job.postedAt.value).value >= today - maxDays)
  {
  }

  /** Widening the window never makes a fresh posting stale. */
  lemma FreshnessWindowMonotone(job: Listing, parse: string -> Option<int>, today: int,
                                maxDays: int, maxDays': int)
    requires maxDays <= maxDays'
    ensures IsFresh(job, parse, today, maxDays) ==> IsFresh(job, parse, today, maxDays')
  {
  }

  /** The 30-day boundary: a posting dated 31 days ago is stale, one dated
      29 days ago is fresh. */
  lemma FreshnessBoundary(job: Listing, parse: string -> Option<int>, today: int)
    requires NonEmpty(job.postedAt) && '+' !in job.postedAt.value
    ensures parse(job.postedAt.value) == Some(today - 31) ==> !IsFresh(job, parse, today, 30)
    ensures parse(job.postedAt.value) == Some(today - 29) ==> IsFresh(job, parse, today, 30)
  {
  }
}

=== FILE: job_search_agent.dfy ===
/** The two text helpers of `JobSearchAgent` in `job_search_agent.py`: the
    extraction of the last tool observation or final answer from an agent
    transcript, and the parser of the numbered fit analysis.
 */
module JobSearchAgent {
  import opened Wrappers
  import opened Text

  // ---------------------------------------------------------------------
  // _extract_last_observation
  // ---------------------------------------------------------------------

  const ObservationMarker: string := "Observation:"
  const FinalAnswerMarker: string := "Final Answer:"

  /** `_extract_last_observation(agent_output)`; `None` is Python's `None`. */
  function ExtractLastObservation(agentOutput: Option<string>): (r: string)
    ensures agentOutput.None? || agentOutput.value == "" ==> r == ""
    ensures agentOutput.Some? && !Contains(agentOutput.value, ObservationMarker)
              && !Contains(agentOutput.value, FinalAnswerMarker) ==>
              r == "" || r == Strip(agentOutput.value)
  {
    if agentOutput.None? || agentOutput.value == "" then ""
    else
      var s := agentOutput.value;
      var obs := RFind(s, ObservationMarker);
      var fin := RFind(s, FinalAnswerMarker);
      if obs > fin then Strip(s[obs + |ObservationMarker|..])
      else if fin != -1 then Strip(s[fin + |FinalAnswerMarker|..])
      else
        var t := Strip(s);
        if StartsWith(t, "[") && EndsWith(t, "]") then t
        else if StartsWith(t, "```json") then t
        else ""
  }

  /** No occurrence of `sub` starts at or after `k` when the tail from `k`
      does not contain it. */
  lemma NoOccurrenceFrom(s: string, k: nat, sub: string)
    requires k <= |s| && !Contains(s[k..], sub)
    ensures forall j :: k <= j ==> !OccursAt(s, sub, j)
  {
    forall j | k <= j && OccursAt(s, sub, j)
      ensures false
    {
      assert s[k..][j - k..j - k + |sub|] == s[j..j + |sub|];
      assert OccursAt(s[k..], sub, j - k);
    }
  }

  /** An occurrence starts with the first character of what occurs. */
  lemma OccursAtFirstChar(s: string, sub: string, j: int)
    requires sub != [] && OccursAt(s, sub, j)
    ensures s[j] == sub[0]
  {
    assert s[j..j + |sub|][0] == s[j];
  }

  /** A transcript ending in a final answer yields that answer, stripped,
      whatever came before it. */
  lemma FinalAnswerExtracted(body: string, answer: string)
    requires !Contains(answer, ObservationMarker) && !Contains(answer, FinalAnswerMarker)
    ensures ExtractLastObservation(Some(body + FinalAnswerMarker + answer)) == Strip(answer)
  {
    var s := body + FinalAnswerMarker + answer;
    var k := |body|;
    var a := k + |FinalAnswerMarker|;
    assert s[a..] == answer;
    assert s[k..a] == FinalAnswerMarker;
    assert OccursAt(s, FinalAnswerMarker, k);
    NoOccurrenceFrom(s, a, FinalAnswerMarker);
    NoOccurrenceFrom(s, a, ObservationMarker);
    forall j | k < j < a
      ensures !OccursAt(s, FinalAnswerMarker, j)
    {
      assert s[j] == FinalAnswerMarker[j - k];
      if OccursAt(s, FinalAnswerMarker, j) {
        OccursAtFirstChar(s, FinalAnswerMarker, j);
      }
    }
    forall j | k <= j < a
      ensures !OccursAt(s, ObservationMarker, j)
    {
      assert s[j] == FinalAnswerMarker[j - k];
      if OccursAt(s, ObservationMarker, j) {
        OccursAtFirstChar(s, ObservationMarker, j);
      }
    }
    assert RFind(s, FinalAnswerMarker) == k;
    assert RFind(s, ObservationMarker) < k;
  }

  /** The two markers start with different letters, so they never start at
      the same index. */
  lemma MarkersDiffer(s: string, k: int)
    ensures !(OccursAt(s, ObservationMarker, k) && OccursAt(s, FinalAnswerMarker, k))
  {
    if OccursAt(s, ObservationMarker, k) {
      OccursAtFirstChar(s, ObservationMarker, k);
    }
    if OccursAt(s, FinalAnswerMarker, k) {
      OccursAtFirstChar(s, FinalAnswerMarker, k);
    }
  }

  /** When an "Observation:" occurs last of both markers, the result is the
      stripped text after it. */
  lemma ObservationLast(s: string, k: nat)
    requires OccursAt(s, ObservationMarker, k)
    requires forall j :: k < j ==> !OccursAt(s, ObservationMarker, j) && !OccursAt(s, FinalAnswerMarker, j)
    ensures ExtractLastObservation(Some(s)) == Strip(s[k + |ObservationMarker|..])
  {
    MarkersDiffer(s, k);
    assert s != [];
    assert RFind(s, ObservationMarker) == k;
    assert RFind(s, FinalAnswerMarker) < k;
  }

  /** When a "Final Answer:" occurs last of both markers, the result is the
      stripped text after it. */
  lemma FinalAnswerLast(s: string, k: nat)
    requires OccursAt(s, FinalAnswerMarker, k)
    requires forall j :: k < j ==> !OccursAt(s, ObservationMarker, j) && !OccursAt(s, FinalAnswerMarker, j)
    ensures ExtractLastObservation(Some(s)) == Strip(s[k + |FinalAnswerMarker|..])
  {
    MarkersDiffer(s, k);
    assert s != [];
    assert RFind(s, FinalAnswerMarker) == k;
    assert RFind(s, ObservationMarker) < k;
  }

  /** Without a marker, a stripped transcript that is a JSON list is passed
      on whole. */
  lemma UnmarkedJsonPassesThrough(s: string)
    requires s != [] && !Contains(s, ObservationMarker) && !Contains(s, FinalAnswerMarker)
    requires StartsWith(Strip(s), "[") && EndsWith(Strip(s), "]")
    ensures ExtractLastObservation(Some(s)) == Strip(s)
  {
  }

  /** Without a marker, an output that opens a ```json fence is returned
      whole, stripped, for a later step to unfence. */
  lemma UnmarkedFencePassesThrough(s: string)
    requires s != [] && !Contains(s, ObservationMarker) && !Contains(s, FinalAnswerMarker)
    requires StartsWith(Strip(s), "```json")
    ensures ExtractLastObservation(Some(s)) == Strip(s)
  {
  }

  /** Without a marker, only text that looks like JSON is passed on: prose,
      and also a list that opens with '[' but never closes, gives nothing. */
  lemma UnmarkedProseIsDropped(s: string)
    requires s != [] && !Contains(s, ObservationMarker) && !Contains(s, FinalAnswerMarker)
    requires !(StartsWith(Strip(s), "[") && EndsWith(Strip(s), "]")) && !StartsWith(Strip(s), "```json")
    ensures ExtractLastObservation(Some(s)) == ""
  {
  }

  // ---------------------------------------------------------------------
  // _parse_analysis
  // ---------------------------------------------------------------------

  const ScoreHeader: string := "1. Overall Fit Score:"
  const StrengthsHeader: string := "2. Key Strengths:"
  const GapsHeader: string := "3. Potential Gaps:"
  const AlignmentHeader: string := "4. Alignment with Preferences:"

  const ScoreKey: string := "Overall Fit Score"
  const StrengthsKey: string := "Key Strengths"
  const GapsKey: string := "Potential Gaps"
  const AlignmentKey: string := "Alignment with Preferences"
  const Missing: string := "N/A"

  /** A header ends in its only colon. */
  predicate IsHeader(h: string) {
    h != [] && h[|h| - 1] == ':' && forall i :: 0 <= i < |h| - 1 ==> h[i] != ':'
  }

  /** `line.split(":", 1)[1].strip()`. */
  function AfterColon(line: string): string
    requires Contains(line, ":")
  {
    Strip(line[Find(line, ":") + 1..])
  }

  lemma HeaderLineHasColon(line: string, h: string)
    requires h != [] && h[|h| - 1] == ':' && StartsWith(line, h)
    ensures Contains(line, ":")
  {
    assert line[|h| - 1..|h|] == h[|h| - 1..];
    assert OccursAt(line, ":", |h| - 1);
  }

  /** The text after the colon of a line that starts with header `h`. */
  function HeaderText(line: string, h: string): string
    requires h != [] && h[|h| - 1] == ':' && StartsWith(line, h)
  {
    HeaderLineHasColon(line, h);
    AfterColon(line)
  }

  datatype Analysis = Analysis(score: string, strengths: string, gaps: string, alignment: string)

  /** The first loop: each header line sets its entry; the last one wins. */
  function FirstPass(lines: seq<string>, acc: Analysis): Analysis
    decreases |lines|
  {
    if lines == [] then acc
    else
      var line := lines[0];
      var acc' :=
        if StartsWith(line, ScoreHeader) then acc.(score := HeaderText(line, ScoreHeader))
        else if StartsWith(line, StrengthsHeader) then acc.(strengths := HeaderText(line, StrengthsHeader))
        else if StartsWith(line, GapsHeader) then acc.(gaps := HeaderText(line, GapsHeader))
        else if StartsWith(line, AlignmentHeader) then acc.(alignment := HeaderText(line, AlignmentHeader))
        else acc;
      FirstPass(lines[1..], acc')
  }

  /** The state of the second loop. */
  datatype Capture = Capture(inStrengths: bool, inGaps: bool, strengths: seq<string>, gaps: seq<string>)

  /** One iteration of the second loop: the strengths and gaps headers open
      their block, the alignment header closes both, and a line starting
      with "-" is collected, stripped, into the open block. */
  function CaptureStep(line: string, st: Capture): (r: Capture)
    ensures !(r.inStrengths && r.inGaps) || (st.inStrengths && st.inGaps)
    ensures |r.strengths| + |r.gaps| <= |st.strengths| + |st.gaps| + 1
  {
    if StartsWith(line, StrengthsHeader) then
      Capture(true, false, st.strengths + [HeaderText(line, StrengthsHeader)], st.gaps)
    else if StartsWith(line, GapsHeader) then
      Capture(false, true, st.strengths, st.gaps + [HeaderText(line, GapsHeader)])
    else if StartsWith(line, AlignmentHeader) then
      st.(inStrengths := false, inGaps := false)
    else if st.inStrengths && StartsWith(Strip(line), "-") then
      st.(strengths := st.strengths + [Strip(line)])
    else if st.inGaps && StartsWith(Strip(line), "-") then
      st.(gaps := st.gaps + [Strip(line)])
    else st
  }

  function CapturePass(lines: seq<string>, st: Capture): Capture
    decreases |lines|
  {
    if lines == [] then st else CapturePass(lines[1..], CaptureStep(lines[0], st))
  }

  const Defaults: Analysis := Analysis(Missing, Missing, Missing, Missing)
  const NoCapture: Capture := Capture(false, false, [], [])

  /** The four entries, from the lines of the stripped text. */
  function ParseLines(lines: seq<string>): (r: map<string, string>)
    ensures r.Keys == {ScoreKey, StrengthsKey, GapsKey, AlignmentKey}
  {
    var first := FirstPass(lines, Defaults);
    var cap := CapturePass(lines, NoCapture);
    map[ScoreKey := first.score,
        StrengthsKey := StrengthsEntry(lines),
        GapsKey := if cap.gaps != [] then Join("\n", cap.gaps) else first.gaps,
        AlignmentKey := first.alignment]
  }

  /** The strengths entry: the collected block when there is one. */
  function StrengthsEntry(lines: seq<string>): string {
    var cap := CapturePass(lines, NoCapture);
    if cap.strengths != [] then Join("\n", cap.strengths) else FirstPass(lines, Defaults).strengths
  }

  /** `_parse_analysis(analysis_text)`. */
  function ParseAnalysis(text: string): (r: map<string, string>)
    ensures r.Keys == {ScoreKey, StrengthsKey, GapsKey, AlignmentKey}
  {
    ParseLines(SplitOn(Strip(text), '\n'))
  }

  predicate IsHeaderLine(line: string) {
    StartsWith(line, ScoreHeader) || StartsWith(line, StrengthsHeader)
    || StartsWith(line, GapsHeader) || StartsWith(line, AlignmentHeader)
  }

  /** Lines that are not headers leave the first pass alone. */
  lemma {:induction false} FirstPassSkipsProse(lines: seq<string>, acc: Analysis)
    requires forall i :: 0 <= i < |lines| ==> !IsHeaderLine(lines[i])
    ensures FirstPass(lines, acc) == acc
    decreases |lines|
  {
    if lines != [] {
      FirstPassSkipsProse(lines[1..], acc);
    }
  }

  /** The second pass collects nothing from lines without a header when
      it starts outside a block. */
  lemma {:induction false} CaptureSkipsProse(lines: seq<string>)
    requires forall i :: 0 <= i < |lines| ==> !IsHeaderLine(lines[i])
    ensures CapturePass(lines, NoCapture) == NoCapture
    decreases |lines|
  {
    if lines != [] {
      CaptureSkipsProse(lines[1..]);
    }
  }

  /** Lines without any header yield "N/A" for all four entries. */
  lemma NoHeadersGiveDefaults(lines: seq<string>)
    requires forall i :: 0 <= i < |lines| ==> !IsHeaderLine(lines[i])
    ensures ParseLines(lines) == map[ScoreKey := Missing, StrengthsKey := Missing,
                                     GapsKey := Missing, AlignmentKey := Missing]
  {
    FirstPassSkipsProse(lines, Defaults);
    CaptureSkipsProse(lines);
  }

  /** A header's own text is what follows its colon. */
  lemma AfterHeader(h: string, x: string)
    requires IsHeader(h)
    ensures StartsWith(h + x, h) && HeaderText(h + x, h) == Strip(x)
  {
    var s := h + x;
    var k := |h| - 1;
    assert s[..|h|] == h;
    assert s[k..k + 1] == ":";
    assert OccursAt(s, ":", k);
    forall j | 0 <= j < k
      ensures !OccursAt(s, ":", j)
    {
      assert s[j] == h[j];
    }
    assert Find(s, ":") == k;
    assert s[k + 1..] == x;
  }

  /** A bullet: a line that starts with '-'. */
  predicate IsBullet(line: string) {
    line != [] && line[0] == '-'
  }

  /** The stripped lines, in order. */
  function StripAll(lines: seq<string>): (r: seq<string>)
    ensures |r| == |lines|
  {
    if lines == [] then [] else [Strip(lines[0])] + StripAll(lines[1..])
  }

  lemma StripAllCons(lines: seq<string>)
    requires lines != []
    ensures StripAll(lines) == [Strip(lines[0])] + StripAll(lines[1..])
  {
  }

  lemma AppendThen(a: seq<string>, x: string, b: seq<string>)
    ensures (a + [x]) + b == a + ([x] + b)
  {
  }

  lemma BulletIsNoHeader(line: string)
    requires IsBullet(line)
    ensures StartsWith(Strip(line), "-") && !IsHeaderLine(line)
  {
    BulletStrips(line);
    StartsWithFirst(line, ScoreHeader);
    StartsWithFirst(line, StrengthsHeader);
    StartsWithFirst(line, GapsHeader);
    StartsWithFirst(line, AlignmentHeader);
  }

  lemma StartsWithFirst(line: string, h: string)
    requires h != [] && line != []
    ensures StartsWith(line, h) ==> line[0] == h[0]
  {
    if StartsWith(line, h) {
      assert line[..|h|][0] == line[0];
    }
  }

  lemma BulletStrips(line: string)
    requires IsBullet(line)
    ensures StartsWith(Strip(line), "-")
  {
    assert !IsSpace(line[0]);
    assert TrimStart(line, IsSpace) == line;
    assert Strip(line)[..1] == "-";
  }

  /** A bullet inside a strengths block is collected. */
  lemma BulletStep(line: string, st: Capture)
    requires IsBullet(line) && st.inStrengths
    ensures CaptureStep(line, st) == st.(strengths := st.strengths + [Strip(line)])
  {
    BulletIsNoHeader(line);
  }

  lemma BulletPass(bullets: seq<string>, st: Capture)
    requires bullets != [] && IsBullet(bullets[0]) && st.inStrengths
    ensures CapturePass(bullets, st)
            == CapturePass(bullets[1..], st.(strengths := st.strengths + [Strip(bullets[0])]))
  {
    BulletStep(bullets[0], st);
  }

  /** Inside a strengths block, every bullet line is appended, stripped. */
  lemma {:induction false} BulletsJoinBlock(bullets: seq<string>, st: Capture)
    requires st.inStrengths && !st.inGaps
    requires forall i :: 0 <= i < |bullets| ==> IsBullet(bullets[i])
    ensures CapturePass(bullets, st).strengths == st.strengths + StripAll(bullets)
    decreases |bullets|
  {
    if bullets != [] {
      var st' := st.(strengths := st.strengths + [Strip(bullets[0])]);
      var tail := CapturePass(bullets[1..], st');
      assert CapturePass(bullets, st) == tail by { BulletPass(bullets, st); }
      assert tail.strengths == st'.strengths + StripAll(bullets[1..]) by {
        BulletsJoinBlock(bullets[1..], st');
      }
      StripAllCons(bullets);
      AppendThen(st.strengths, Strip(bullets[0]), StripAll(bullets[1..]));
    }
  }

  lemma PassCons(lines: seq<string>, st: Capture)
    requires lines != []
    ensures CapturePass(lines, st) == CapturePass(lines[1..], CaptureStep(lines[0], st))
  {
  }

  lemma StrengthsHeaderStep(line: string, st: Capture)
    requires StartsWith(line, StrengthsHeader)
    ensures CaptureStep(line, st)
            == Capture(true, false, st.strengths + [HeaderText(line, StrengthsHeader)], st.gaps)
  {
  }

  /** The strengths header opens the block with its own text. */
  lemma StrengthsHeaderOpens(line: string, rest: seq<string>, st: Capture)
    requires StartsWith(line, StrengthsHeader)
    ensures CapturePass([line] + rest, st)
            == CapturePass(rest, Capture(true, false, st.strengths + [HeaderText(line, StrengthsHeader)], st.gaps))
  {
    var lines := [line] + rest;
    assert lines[0] == line && lines[1..] == rest;
    PassCons(lines, st);
    StrengthsHeaderStep(line, st);
  }

  /** Collected strengths lines take precedence over the first pass. */
  lemma CollectedStrengthsWin(lines: seq<string>)
    requires CapturePass(lines, NoCapture).strengths != []
    ensures StrengthsEntry(lines) == Join("\n", CapturePass(lines, NoCapture).strengths)
  {
  }

  /** A strengths header followed by bullet lines gives the header's text
      and the stripped bullets, one per line. */
  lemma StrengthsBlockCollected(line: string, bullets: seq<string>)
    requires StartsWith(line, StrengthsHeader)
    requires forall i :: 0 <= i < |bullets| ==> IsBullet(bullets[i])
    ensures StrengthsEntry([line] + bullets)
            == Join("\n", [HeaderText(line, StrengthsHeader)] + StripAll(bullets))
  {
    StrengthsBlockCaptured(line, bullets);
    CollectedStrengthsWin([line] + bullets);
  }

  /** The capture pass collects the header's text and then every bullet. */
  lemma StrengthsBlockCaptured(line: string, bullets: seq<string>)
    requires StartsWith(line, StrengthsHeader)
    requires forall i :: 0 <= i < |bullets| ==> IsBullet(bullets[i])
    ensures CapturePass([line] + bullets, NoCapture).strengths
            == [HeaderText(line, StrengthsHeader)] + StripAll(bullets)
  {
    var st := Capture(true, false, [HeaderText(line, StrengthsHeader)], []);
    FreshStrengthsHeader(line, bullets);
    BulletsJoinBlock(bullets, st);
  }

  /** Before any capture, a strengths header starts the block with its own
      text. */
  lemma FreshStrengthsHeader(line: string, rest: seq<string>)
    requires StartsWith(line, StrengthsHeader)
    ensures CapturePass([line] + rest, NoCapture)
            == CapturePass(rest, Capture(true, false, [HeaderText(line, StrengthsHeader)], []))
  {
    var h := HeaderText(line, StrengthsHeader);
    StrengthsHeaderOpens(line, rest, NoCapture);
    assert NoCapture.strengths + [h] == [h];
  }

  /** "2. Key Strengths: x" followed by bullets yields x and the bullets,
      stripped, one per line, under "Key Strengths". */
  lemma StrengthsSectionParsed(x: string, bullets: seq<string>)
    requires forall i :: 0 <= i < |bullets| ==> IsBullet(bullets[i])
    ensures ParseLines([StrengthsHeader + x] + bullets)[StrengthsKey]
            == Join("\n", [Strip(x)] + StripAll(bullets))
  {
    var line := StrengthsHeader + x;
    assert StartsWith(line, StrengthsHeader) && HeaderText(line, StrengthsHeader) == Strip(x) by {
      StrengthsHeaderIsHeader();
      AfterHeader(StrengthsHeader, x);
    }
    StrengthsBlockCollected(line, bullets);
    StrengthsEntryIsParsed([line] + bullets);
  }

  /** A score line and an alignment line set their entries to the stripped
      text after each header's colon. */
  lemma ScoreAndAlignmentParsed(x: string, y: string)
    ensures ParseLines([ScoreHeader + x, AlignmentHeader + y])[ScoreKey] == Strip(x)
    ensures ParseLines([ScoreHeader + x, AlignmentHeader + y])[AlignmentKey] == Strip(y)
  {
    var lines := [ScoreHeader + x, AlignmentHeader + y];
    var first := FirstPass(lines, Defaults);
    ScoreAlignmentFirstPass(x, y);
    ScoreAndAlignmentEntries(lines);
  }

  lemma ScoreAndAlignmentEntries(lines: seq<string>)
    ensures ParseLines(lines)[ScoreKey] == FirstPass(lines, Defaults).score
    ensures ParseLines(lines)[AlignmentKey] == FirstPass(lines, Defaults).alignment
  {
  }

  lemma ScoreAlignmentFirstPass(x: string, y: string)
    ensures FirstPass([ScoreHeader + x, AlignmentHeader + y], Defaults)
            == Defaults.(score := Strip(x), alignment := Strip(y))
  {
    var b := AlignmentHeader + y;
    ScoreLineStep(x, [b], Defaults);
    assert [ScoreHeader + x, b] == [ScoreHeader + x] + [b];
    AlignmentLineStep(y, [], Defaults.(score := Strip(x)));
    assert [b] == [b] + [];
  }

  /** A score line sets the score. */
  lemma ScoreLineStep(x: string, rest: seq<string>, acc: Analysis)
    ensures FirstPass([ScoreHeader + x] + rest, acc) == FirstPass(rest, acc.(score := Strip(x)))
  {
    var line := ScoreHeader + x;
    ScoreHeaderIsHeader();
    AfterHeader(ScoreHeader, x);
    assert ([line] + rest)[0] == line && ([line] + rest)[1..] == rest;
  }

  /** An alignment line sets the alignment: no other header shares its
      first character. */
  lemma AlignmentLineStep(y: string, rest: seq<string>, acc: Analysis)
    ensures FirstPass([AlignmentHeader + y] + rest, acc) == FirstPass(rest, acc.(alignment := Strip(y)))
  {
    var line := AlignmentHeader + y;
    AlignmentHeaderIsHeader();
    AfterHeader(AlignmentHeader, y);
    assert line[0] == '4';
    StartsWithFirst(line, ScoreHeader);
    StartsWithFirst(line, StrengthsHeader);
    StartsWithFirst(line, GapsHeader);
    assert ([line] + rest)[0] == line && ([line] + rest)[1..] == rest;
  }

  lemma ScoreHeaderIsHeader()
    ensures IsHeader(ScoreHeader)
  {
  }

  lemma AlignmentHeaderIsHeader()
    ensures IsHeader(AlignmentHeader)
  {
  }

  lemma StrengthsHeaderIsHeader()
    ensures IsHeader(StrengthsHeader)
  {
  }

  lemma StrengthsEntryIsParsed(lines: seq<string>)
    ensures ParseLines(lines)[StrengthsKey] == StrengthsEntry(lines)
  {
  }
}

=== FILE: job_search_pipeline.dfy ===
/** `job_search_pipeline.py`: the ranking contract, link resolution, the
    windowing of ranked results, and the filtered, paginated Google Jobs
    query.

  The chat-completion call is an input (`Reply`), JSON decoding is an oracle
  `decode` returning `None` on a decode error, the HTTP client is an oracle
  from a request to a decoded page or an error, and the
  `SERPAPI_API_KEY` / `OPENAI_API_KEY` environment variables are parameters.
 */
module JobSearchPipeline {
  import opened Wrappers
  import opened Text
  import opened Json
  import opened Listings
  import SerpapiAsync
  import ResumeUtils
  import LlmJobFilter

  // ---------------------------------------------------------------------
  // RankedJobListing and the ranking post-processing
  // ---------------------------------------------------------------------

  /** A validated `RankedJobListing`. */
  datatype RankedJob = RankedJob(
    jobTitle: string,
    company: string,
    detailsLink: string,
    matchScore: int,
    reason: string)

  const RankedKeys: set<string> := {"job_title", "company", "details_link", "match_score", "reason"}

  /** The integer pydantic reads for an `int` field from a JSON value in its
      lax mode: integers, booleans, floats without a fractional part and
      strings holding a decimal integer. */
  function IntField(j: Json): (r: Option<int>)
    ensures j.JInt? ==> r == Some(j.i)
    ensures j.JStr? ==> r == IntOfString(j.s)
    ensures j.JNull? || j.JArr? || j.JObj? ==> r.None?
  {
    match j
    case JInt(i) => Some(i)
    case JBool(b) => Some(if b then 1 else 0)
    case JFloat(f) => if f == f.Floor as real then Some(f.Floor) else None
    case JStr(s) => IntOfString(s)
    case _ => None
  }

  predicate AllDigits(s: string) {
    s != [] && forall i :: 0 <= i < |s| ==> IsDigit(s[i])
  }

  /** A numeric string read as an integer: surrounding whitespace, then an
      optional sign and one or more decimal digits. */
  function IntOfString(s: string): (r: Option<int>)
    ensures r.Some? ==> Strip(s) != [] && !IsSpace(Strip(s)[0])
  {
    SignedValue(Strip(s))
  }

  /** An optional sign followed by one or more decimal digits. */
  function SignedValue(t: string): Option<int> {
    if t != [] && (t[0] == '+' || t[0] == '-') && AllDigits(t[1..]) then
      var v: int := ResumeUtils.NumeralValue(t[1..]);
      Some(if t[0] == '-' then -v else v)
    else if AllDigits(t) then Some(ResumeUtils.NumeralValue(t))
    else None
  }

  /** `str(n)` for any integer. */
  function IntText(n: int): (t: string)
    ensures t != [] && !IsSpace(t[0]) && !IsSpace(t[|t| - 1])
  {
    var m: nat := if n < 0 then -n else n;
    var digits := ResumeUtils.Numeral(m);
    assert !IsSpace(digits[0]) && !IsSpace(digits[|digits| - 1]);
    if n < 0 then "-" + digits else digits
  }

  /** The sign and digits of `str(n)` read back as `n`. */
  lemma SignedValueOfText(n: int)
    ensures SignedValue(IntText(n)) == Some(n)
  {
    var m: nat := if n < 0 then -n else n;
    var digits := ResumeUtils.Numeral(m);
    ResumeUtils.NumeralRoundTrip(m);
    if n < 0 {
      var t := "-" + digits;
      assert t[1..] == digits;
    } else {
      assert !(digits[0] == '+' || digits[0] == '-');
    }
  }

  /** The string `str(n)` reads back as `n`, with or without spaces around
      it, so a score sent as `"7"` validates like the number 7. */
  lemma IntOfStringRoundTrip(n: int, pad: string)
    requires forall i :: 0 <= i < |pad| ==> IsSpace(pad[i])
    ensures IntOfString(IntText(n)) == Some(n)
    ensures IntOfString(pad + IntText(n) + pad) == Some(n)
    ensures IntField(JStr(IntText(n))) == Some(n)
  {
    var t := IntText(n);
    SignedValueOfText(n);
    StripUnpadded(t);
    StripPadded(pad, t);
  }

  /** A string that is neither a sign and digits nor digits is no integer. */
  lemma WordIsNoInteger(s: string)
    requires Strip(s) != [] && !IsDigit(Strip(s)[0]) && Strip(s)[0] != '+' && Strip(s)[0] != '-'
    ensures IntOfString(s).None?
  {
  }

  /** A required `str` field: only a JSON string is accepted. */
  function StrField(d: Dict, k: string): (r: Option<string>)
    ensures r.Some? <==> k in d && d[k].JStr?
    ensures r.Some? ==> d[k] == JStr(r.value)
  {
    if k in d && d[k].JStr? then Some(d[k].s) else None
  }

  /** `RankedJobListing` validation of one element of `job_listings`:
      every field required, `match_score` in 1..10, other keys ignored. */
  function ValidateListing(j: Json): (r: Option<RankedJob>)
    ensures r.Some? ==> 1 <= r.value.matchScore <= 10
    ensures r.Some? ==> j.JObj? && "match_score" in j.fields
                        && IntField(j.fields["match_score"]) == Some(r.value.matchScore)
    ensures r.Some? ==> StrField(j.fields, "details_link") == Some(r.value.detailsLink)
  {
    if !j.JObj? then None
    else
      var d := j.fields;
      var title := StrField(d, "job_title");
      var company := StrField(d, "company");
      var link := StrField(d, "details_link");
      var reason := StrField(d, "reason");
      var score := if "match_score" in d then IntField(d["match_score"]) else None;
      if title.None? || company.None? || link.None? || reason.None? || score.None? then None
      else if !(1 <= score.value <= 10) then None
      else Some(RankedJob(title.value, company.value, link.value, score.value, reason.value))
  }

  /** Validation of every element of a list, all or nothing. */
  function ValidateAll(items: seq<Json>): (r: Option<seq<RankedJob>>)
    ensures r.Some? ==> |r.value| == |items|
    ensures r.Some? ==> forall i :: 0 <= i < |items| ==> ValidateListing(items[i]) == Some(r.value[i])
    ensures r.None? ==> exists i :: 0 <= i < |items| && ValidateListing(items[i]).None?
  {
    if items == [] then Some([])
    else
      match ValidateListing(items[0])
      case None => None
      case Some(first) =>
        match ValidateAll(items[1..])
        case None => None
        case Some(rest) => Some([first] + rest)
  }

  /** `ReturnRankedJobs.model_validate_json(arguments)`. */
  function ValidateArguments(arguments: string, decode: string -> Option<Json>): (r: Option<seq<RankedJob>>)
    ensures r.Some? ==> forall i :: 0 <= i < |r.value| ==> 1 <= r.value[i].matchScore <= 10
  {
    match decode(arguments)
    case Some(JObj(d)) =>
      if "job_listings" in d && d["job_listings"].JArr? then ValidateAll(d["job_listings"].items)
      else None
    case _ => None
  }

  /** `job.model_dump()`: exactly the five declared fields. */
  function ModelDump(job: RankedJob): (d: Dict)
    ensures d.Keys == RankedKeys
    ensures "link" !in d
    ensures d["match_score"] == JInt(job.matchScore)
    ensures d["details_link"] == JStr(job.detailsLink)
  {
    map["job_title" := JStr(job.jobTitle), "company" := JStr(job.company),
        "details_link" := JStr(job.detailsLink), "match_score" := JInt(job.matchScore),
        "reason" := JStr(job.reason)]
  }

  /** A tool call the model made: its function name and raw arguments. */
  datatype ToolCall = ToolCall(name: string, arguments: string)

  /** The chat-completion outcome: an exception, or the message's tool calls. */
  datatype Reply = Raised(message: string) | Message(toolCalls: seq<ToolCall>)

  /** The `try` block of `rank_jobs_with_gpt4o`: the model's reply to the
      ranking request. Every failure inside it yields `[]`. */
  function RankReply(reply: Reply, decode: string -> Option<Json>): (r: seq<Dict>)
    ensures forall i :: 0 <= i < |r| ==> r[i].Keys == RankedKeys && "link" !in r[i]
    ensures forall i :: 0 <= i < |r| ==> r[i]["match_score"].JInt? && 1 <= r[i]["match_score"].i <= 10
    ensures r != [] ==> reply.Message? && reply.toolCalls != [] && reply.toolCalls[0].name == "return_ranked_jobs"
  {
    if reply.Raised? then []
    else if reply.toolCalls == [] then []
    else if reply.toolCalls[0].name != "return_ranked_jobs" then []
    else
      match ValidateArguments(reply.toolCalls[0].arguments, decode)
      case None => []
      case Some(listings) => seq(|listings|, i requires 0 <= i < |listings| => ModelDump(listings[i]))
  }

  /** `rank_jobs_with_gpt4o(jobs, ...)`. Without a key or jobs it returns
      `[]`. The prompt entries are built before the `try`, so a job whose
      entry cannot be built raises out of the call; otherwise the reply is
      post-processed. */
  function RankJobs(apiKey: Option<string>, jobs: seq<Dict>, reply: Reply,
                    decode: string -> Option<Json>): (r: Result<seq<Dict>, string>)
    ensures r.Err? <==> apiKey.Some? && apiKey.value != "" && jobs != []
                        && exists i :: 0 <= i < |jobs| && SimplifyJob(jobs[i]).Err?
    ensures r.Ok? ==> forall i :: 0 <= i < |r.value| ==> r.value[i].Keys == RankedKeys && "link" !in r.value[i]
    ensures r.Ok? ==> forall i :: 0 <= i < |r.value| ==>
              r.value[i]["match_score"].JInt? && 1 <= r.value[i]["match_score"].i <= 10
    ensures r.Ok? && r.value != [] ==>
              apiKey.Some? && apiKey.value != "" && jobs != [] && reply.Message?
              && reply.toolCalls != [] && reply.toolCalls[0].name == "return_ranked_jobs"
  {
    if apiKey.None? || apiKey.value == "" then Ok([])
    else if jobs == [] then Ok([])
    else
      match SimplifyAll(jobs)
      case Err(e) => Err(e)
      case Ok(_) => Ok(RankReply(reply, decode))
  }

  /** A successful ranking is the validated listings, in the model's order
      and with nothing but the `link` key (never present) removed. */
  lemma RankKeepsOrder(apiKey: string, jobs: seq<Dict>, call: ToolCall, more: seq<ToolCall>,
                       decode: string -> Option<Json>, listings: seq<RankedJob>)
    requires apiKey != "" && jobs != [] && call.name == "return_ranked_jobs"
    requires forall i :: 0 <= i < |jobs| ==> SimplifyJob(jobs[i]).Ok?
    requires ValidateArguments(call.arguments, decode) == Some(listings)
    ensures var r := RankJobs(Some(apiKey), jobs, Message([call] + more), decode);
            r.Ok? && |r.value| == |listings| && forall i :: 0 <= i < |r.value| ==> r.value[i] == ModelDump(listings[i])
  {
    var reply := Message([call] + more);
    assert reply.toolCalls[0] == call;
    assert RankReply(reply, decode) == seq(|listings|, i requires 0 <= i < |listings| => ModelDump(listings[i]));
    assert SimplifyAll(jobs).Ok?;
  }

  /** Every failure inside the `try` yields the empty list, and so do a
      missing key and an empty job list: an exception, no tool call, a
      different function, a decode or schema failure. */
  lemma RankFailuresYieldEmpty(apiKey: Option<string>, jobs: seq<Dict>, reply: Reply,
                               decode: string -> Option<Json>)
    requires apiKey.None? || apiKey.value == "" || jobs == []
             || ((forall i :: 0 <= i < |jobs| ==> SimplifyJob(jobs[i]).Ok?)
                 && (reply.Raised? || reply.toolCalls == [] || reply.toolCalls[0].name != "return_ranked_jobs"
                     || ValidateArguments(reply.toolCalls[0].arguments, decode).None?))
    ensures RankJobs(apiKey, jobs, reply, decode) == Ok([])
  {
  }

  /** A job whose description is `null` makes the ranking raise, whatever
      the model would have replied. */
  lemma NullDescriptionRaisesInRanking(apiKey: string, jobs: seq<Dict>, k: nat, reply: Reply,
                                       decode: string -> Option<Json>)
    requires apiKey != "" && k < |jobs| && "description" in jobs[k] && jobs[k]["description"] == JNull
    ensures RankJobs(Some(apiKey), jobs, reply, decode).Err?
  {
    assert SimplifyJob(jobs[k]).Err?;
  }

  /** Jobs shaped as SerpApi documents them (string or absent
      descriptions, lists of objects for the link lists) never make the
      ranking raise. */
  lemma DocumentedJobsNeverRaise(apiKey: Option<string>, jobs: seq<Dict>, reply: Reply,
                                 decode: string -> Option<Json>)
    requires forall i :: 0 <= i < |jobs| ==> LinksWellFormed(jobs[i])
    requires forall i :: 0 <= i < |jobs| ==> "description" in jobs[i] ==> jobs[i]["description"].JStr?
    ensures RankJobs(apiKey, jobs, reply, decode).Ok?
  {
    forall i | 0 <= i < |jobs|
      ensures SimplifyJob(jobs[i]).Ok?
    {
      WellFormedLinksResolve(jobs[i]);
    }
  }

  /** A listing whose score is outside 1..10 fails validation, and with it
      the whole reply. */
  lemma OutOfRangeScoreRejected(d: Dict, score: int)
    requires "match_score" in d && d["match_score"] == JInt(score)
    requires score < 1 || score > 10
    ensures ValidateListing(JObj(d)).None?
    ensures forall items: seq<Json> :: JObj(d) in items ==> ValidateAll(items).None?
  {
    forall items: seq<Json> | JObj(d) in items
      ensures ValidateAll(items).None?
    {
      var k :| 0 <= k < |items| && items[k] == JObj(d);
    }
  }

  // ---------------------------------------------------------------------
  // best_link and the prompt entries
  // ---------------------------------------------------------------------

  /** An apply option the `for opt in ao` loop passes over: an object whose
      `link` is falsy. */
  predicate PassedOver(opt: Json) {
    opt.JObj? && !TruthyAt(opt.fields, "link")
  }

  /** Where the loop over the apply options stops: the first option it does
      not pass over, or the end of the list. */
  function LinkStop(opts: seq<Json>): (n: nat)
    ensures n <= |opts|
    ensures forall k :: 0 <= k < n ==> PassedOver(opts[k])
    ensures n < |opts| ==> !PassedOver(opts[n])
  {
    if opts == [] then 0
    else if PassedOver(opts[0]) then
      var n := 1 + LinkStop(opts[1..]);
      assert forall k :: 1 <= k < n ==> opts[k] == opts[1..][k - 1];
      n
    else 0
  }

  /** `for opt in ao: if opt.get("link"): return opt["link"]` with
      `ao = job.get("apply_options") or []`. A list is walked up to
      `LinkStop`, where an object yields its link and anything else has no
      `get`. Iterating a truthy string or object yields strings (characters,
      keys), which have no `get` either; numbers and `True` are not
      iterable. */
  function ApplyOptionLink(job: Dict): (r: Result<Option<Json>, string>)
    ensures r.Ok? && r.value.Some? ==> Truthy(r.value.value)
  {
    if !TruthyAt(job, "apply_options") then Ok(None)
    else
      match job["apply_options"]
      case JArr(opts) =>
        var n := LinkStop(opts);
        if n == |opts| then Ok(None)
        else if opts[n].JObj? then Ok(Some(opts[n].fields["link"]))
        else Err("AttributeError")
      case JStr(_) => Err("AttributeError")
      case JObj(_) => Err("AttributeError")
      case _ => Err("TypeError")
  }

  /** `rl and rl[0].get("link")` with `rl = job.get("related_links") or []`.
      For a truthy string `rl[0]` is a one-character string without `get`;
      a decoded object has no key `0`; a number or `True` cannot be
      indexed. */
  function RelatedLink(job: Dict): (r: Result<Option<Json>, string>)
    ensures r.Ok? && r.value.Some? ==> Truthy(r.value.value)
  {
    if !TruthyAt(job, "related_links") then Ok(None)
    else
      match job["related_links"]
      case JArr(rl) =>
        if !rl[0].JObj? then Err("AttributeError")
        else if TruthyAt(rl[0].fields, "link") then Ok(Some(rl[0].fields["link"]))
        else Ok(None)
      case JStr(_) => Err("AttributeError")
      case JObj(_) => Err("KeyError")
      case _ => Err("TypeError")
  }

  /** The link fields as SerpApi documents them: `apply_options` and
      `related_links` absent, falsy, or lists of objects. */
  predicate LinksWellFormed(job: Dict) {
    (TruthyAt(job, "apply_options") ==>
       job["apply_options"].JArr? && forall o :: o in job["apply_options"].items ==> o.JObj?)
    && (TruthyAt(job, "related_links") ==>
          job["related_links"].JArr? && forall o :: o in job["related_links"].items ==> o.JObj?)
  }

  /** `best_link(job)`: the first truthy apply-option link, else a truthy
      share link, else a truthy first related link, else "". */
  function BestLink(job: Dict): (r: Result<Json, string>)
    ensures r.Ok? ==> r.value == JStr("") || Truthy(r.value)
    ensures r.Ok? && r.value == JStr("") ==> !TruthyAt(job, "share_link")
  {
    match ApplyOptionLink(job)
    case Err(e) => Err(e)
    case Ok(Some(l)) => Ok(l)
    case Ok(None) =>
      if TruthyAt(job, "share_link") then Ok(job["share_link"])
      else
        match RelatedLink(job)
        case Err(e) => Err(e)
        case Ok(Some(l)) => Ok(l)
        case Ok(None) => Ok(JStr(""))
  }

  /** Documented link fields never make `best_link` raise. */
  lemma WellFormedLinksResolve(job: Dict)
    requires LinksWellFormed(job)
    ensures BestLink(job).Ok?
  {
    if TruthyAt(job, "apply_options") {
      var opts := job["apply_options"].items;
      var n := LinkStop(opts);
      if n < |opts| {
        assert opts[n] in opts;
      }
    }
    if TruthyAt(job, "related_links") {
      var rl := job["related_links"].items;
      assert rl[0] in rl;
    }
  }

  /** The loop returns the link of the first option with a truthy link
      when every option before it is an object without one. */
  lemma FirstLinkedOptionWins(job: Dict, opts: seq<Json>, i: nat)
    requires "apply_options" in job && job["apply_options"] == JArr(opts)
    requires i < |opts| && forall k :: 0 <= k < i ==> PassedOver(opts[k])
    requires opts[i].JObj? && TruthyAt(opts[i].fields, "link")
    ensures BestLink(job) == Ok(opts[i].fields["link"])
  {
    var n := LinkStop(opts);
    if n < i {
      assert false;
    }
  }

  /** An option that is not an object, reached before any linked option,
      raises `AttributeError` on `opt.get`. */
  lemma NonObjectOptionRaises(job: Dict, opts: seq<Json>, i: nat)
    requires "apply_options" in job && job["apply_options"] == JArr(opts)
    requires i < |opts| && forall k :: 0 <= k < i ==> PassedOver(opts[k])
    requires !opts[i].JObj?
    ensures BestLink(job) == Err("AttributeError")
  {
    var n := LinkStop(opts);
    if n < i {
      assert false;
    }
  }

  /** A truthy best link is one of the job's own links: an apply option's,
      the share link or the first related link. */
  lemma BestLinkComesFromJob(job: Dict)
    requires BestLink(job).Ok? && Truthy(BestLink(job).value)
    ensures var l := BestLink(job).value;
            ("apply_options" in job && job["apply_options"].JArr?
             && exists o :: o in job["apply_options"].items && o.JObj? && "link" in o.fields && o.fields["link"] == l)
            || ("share_link" in job && job["share_link"] == l)
            || ("related_links" in job && job["related_links"].JArr? && job["related_links"].items != []
                && job["related_links"].items[0].JObj? && "link" in job["related_links"].items[0].fields
                && job["related_links"].items[0].fields["link"] == l)
  {
    var ao := ApplyOptionLink(job);
    if ao.Ok? && ao.value.Some? {
      var opts := job["apply_options"].items;
      var n := LinkStop(opts);
      assert opts[n] in opts;
    }
  }

  /** The prompt fields of one job. */
  const PromptKeys: set<string> := {"job_title", "company", "location", "details_link", "snippet"}

  /** `v[:n]` on a string or a list. */
  function SliceTo(v: Json, n: nat): (r: Json)
    requires Sliceable(v)
    ensures v.JStr? ==> r.JStr? && |r.s| == Min(n, |v.s|) && StartsWith(v.s, r.s)
    ensures v.JArr? ==> r.JArr? && |r.items| == Min(n, |v.items|) && r.items == v.items[..|r.items|]
  {
    if v.JStr? then JStr(Prefix(v.s, n)) else JArr(Prefix(v.items, n))
  }

  /** The prompt entry for one job. The display is evaluated in order, so
      `best_link` runs before `job.get("description", "")[:400]`, which
      raises `TypeError` on `null`, numbers, booleans and objects. */
  function SimplifyJob(job: Dict): (r: Result<Dict, string>)
    ensures r.Ok? <==> BestLink(job).Ok? && Sliceable(LlmJobFilter.GetOrEmpty(job, "description"))
    ensures r.Err? && BestLink(job).Ok? ==> r.error == "TypeError"
    ensures r.Ok? ==> r.value.Keys == PromptKeys && r.value["details_link"] == BestLink(job).value
    ensures r.Ok? ==> r.value["snippet"] == SliceTo(LlmJobFilter.GetOrEmpty(job, "description"), 400)
    ensures r.Ok? ==> r.value["job_title"] == GetOrNull(job, "title")
                      && r.value["company"] == GetOrNull(job, "company_name")
                      && r.value["location"] == GetOrNull(job, "location")
  {
    match BestLink(job)
    case Err(e) => Err(e)
    case Ok(link) =>
      var d := LlmJobFilter.GetOrEmpty(job, "description");
      if !Sliceable(d) then Err("TypeError")
      else
        Ok(map["job_title" := GetOrNull(job, "title"), "company" := GetOrNull(job, "company_name"),
               "location" := GetOrNull(job, "location"), "details_link" := link,
               "snippet" := SliceTo(d, 400)])
  }

  /** `simplified_jobs`, built job by job; the first job whose entry
      cannot be built raises. */
  function SimplifyAll(jobs: seq<Dict>): (r: Result<seq<Dict>, string>)
    ensures r.Ok? <==> forall i :: 0 <= i < |jobs| ==> SimplifyJob(jobs[i]).Ok?
    ensures r.Ok? ==> |r.value| == |jobs| && forall i :: 0 <= i < |jobs| ==> SimplifyJob(jobs[i]) == Ok(r.value[i])
  {
    if jobs == [] then Ok([])
    else
      match SimplifyJob(jobs[0])
      case Err(e) => Err(e)
      case Ok(first) =>
        match SimplifyAll(jobs[1..])
        case Err(e) =>
          assert !(forall i :: 0 <= i < |jobs| ==> SimplifyJob(jobs[i]).Ok?) by {
            var i :| 0 <= i < |jobs[1..]| && SimplifyJob(jobs[1..][i]).Err?;
            assert jobs[1..][i] == jobs[i + 1];
          }
          Err(e)
        case Ok(rest) =>
          OkPointwiseCons(jobs, SimplifyJob, first, rest);
          Ok([first] + rest)
  }

  // ---------------------------------------------------------------------
  // search_jobs_serpapi_gpt: windowing of the ranked jobs
  // ---------------------------------------------------------------------

  const ShownCount: nat := 8

  /** The response dictionary. The empty-fetch branch names its second list
      `remaining`, the other branch `remaining_jobs`; `remainingKey` records
      which. */
  datatype SearchResponse = SearchResponse(
    jobs: seq<Dict>,
    remainingKey: string,
    remaining: seq<Dict>,
    nextPageToken: SerpapiAsync.Token,
    hasMore: bool)

  /** `search_jobs_serpapi_gpt` after `fetch_serpapi_jobs` returned `fetched`
      and `token`. Ranking runs twice on the same jobs: the first call (its
      reply `first`) is outside any `try`, so its exception escapes, and its
      result is then overwritten; the second call (reply `second`) is
      inside a `try` whose handler leaves `ranked_jobs = []`. */
  function SearchJobs(apiKey: Option<string>, fetched: seq<Dict>, token: SerpapiAsync.Token,
                      first: Reply, second: Reply, decode: string -> Option<Json>)
    : (r: Result<SearchResponse, string>)
    ensures r.Err? <==> RankJobs(apiKey, fetched, first, decode).Err?
    ensures fetched == [] ==> r == Ok(SearchResponse([], "remaining", [], token, false))
    ensures r.Ok? && fetched != [] ==>
              var ranked := RankJobs(apiKey, fetched, second, decode);
              ranked.Ok? && r.value.remainingKey == "remaining_jobs"
              && r.value.jobs + r.value.remaining == ranked.value
              && |r.value.jobs| == Min(ShownCount, |ranked.value|)
    ensures r.Ok? && fetched != [] ==> (r.value.hasMore <==> SerpapiAsync.TokenTruthy(token))
    ensures r.Ok? ==> r.value.nextPageToken == token
  {
    match RankJobs(apiKey, fetched, first, decode)
    case Err(e) => Err(e)
    case Ok(_) =>
      if fetched == [] then Ok(SearchResponse([], "remaining", [], token, false))
      else
        var ranked := match RankJobs(apiKey, fetched, second, decode)
                      case Ok(v) => v
                      case Err(_) => [];
        Ok(SearchResponse(Prefix(ranked, ShownCount), "remaining_jobs", Suffix(ranked, ShownCount),
                          token, SerpapiAsync.TokenTruthy(token)))
  }

  /** More than eight ranked jobs: eight are shown and the rest are kept,
      in ranking order. */
  lemma WindowSplitsAtEight(apiKey: Option<string>, fetched: seq<Dict>, token: SerpapiAsync.Token,
                            first: Reply, second: Reply, decode: string -> Option<Json>)
    requires fetched != []
    requires RankJobs(apiKey, fetched, second, decode).Ok?
    requires |RankJobs(apiKey, fetched, second, decode).value| > ShownCount
    ensures var r := SearchJobs(apiKey, fetched, token, first, second, decode);
            var ranked := RankJobs(apiKey, fetched, second, decode).value;
            r.Ok? && r.value.jobs == ranked[..8] && r.value.remaining == ranked[8..]
  {
  }

  /** A fetched job with a `null` description aborts the whole search when
      a key is configured: the first ranking call raises. */
  lemma NullDescriptionAbortsSearch(apiKey: string, fetched: seq<Dict>, k: nat, token: SerpapiAsync.Token,
                                    first: Reply, second: Reply, decode: string -> Option<Json>)
    requires apiKey != "" && k < |fetched| && "description" in fetched[k] && fetched[k]["description"] == JNull
    ensures SearchJobs(Some(apiKey), fetched, token, first, second, decode).Err?
  {
    NullDescriptionRaisesInRanking(apiKey, fetched, k, first, decode);
  }

  // ---------------------------------------------------------------------
  // query_serpapi_google_jobs: the enriched query
  // ---------------------------------------------------------------------

  /** The `filters` keys the query reads; an absent key reads as empty. */
  datatype QueryFilters = QueryFilters(
    industry: seq<string>,
    companyPreferences: string,
    additionalPreferences: string,
    remotePreference: string)

  /** The index of the company preferences among the parts: after the
      keywords and the industry clause, when there is one. */
  function CompanyIndex(f: QueryFilters): nat {
    1 + (if f.industry != [] then 1 else 0)
  }

  /** `f"({' OR '.join(industry_list)})"`. */
  function IndustryClause(f: QueryFilters): (r: string)
    ensures r != "" && r[0] == '('
  {
    "(" + Join(" OR ", f.industry) + ")"
  }

  /** The number of parts before the "Remote only" rule. */
  function BaseCount(f: QueryFilters): nat {
    CompanyIndex(f) + (if f.companyPreferences != "" then 1 else 0)
      + (if f.additionalPreferences != "" then 1 else 0)
  }

  /** `query_parts` after the optional appends, before empty parts are
      dropped: the keywords, the industry clause, the company preferences
      and the additional preferences, each when present and in this order,
      then "remote" when "Remote only" is asked for and the last of those
      does not mention it. */
  function QueryParts(q: string, f: QueryFilters): (parts: seq<string>)
    ensures BaseCount(f) <= |parts| <= BaseCount(f) + 1
    ensures parts[0] == q
    ensures f.industry != [] ==> parts[1] == IndustryClause(f)
    ensures f.companyPreferences != "" ==> parts[CompanyIndex(f)] == f.companyPreferences
    ensures f.additionalPreferences != "" ==> parts[BaseCount(f) - 1] == f.additionalPreferences
    ensures |parts| == BaseCount(f) + 1
            <==> f.remotePreference == "Remote only" && !Contains(Lower(parts[BaseCount(f) - 1]), "remote")
    ensures |parts| == BaseCount(f) + 1 ==> parts[BaseCount(f)] == "remote"
    ensures f.remotePreference == "Remote only" ==> Contains(Lower(parts[|parts| - 1]), "remote")
  {
    var base := [q]
      + (if f.industry != [] then [IndustryClause(f)] else [])
      + (if f.companyPreferences != "" then [f.companyPreferences] else [])
      + (if f.additionalPreferences != "" then [f.additionalPreferences] else []);
    if f.remotePreference == "Remote only" && !Contains(Lower(base[|base| - 1]), "remote") then
      assert Lower("remote") == "remote";
      assert OccursAt(Lower("remote"), "remote", 0);
      base + ["remote"]
    else base
  }

  /** `filter(None, parts)`: the non-empty parts, in order. */
  function NonEmptyParts(parts: seq<string>): (r: seq<string>)
    ensures r == Filter(parts, Filled)
    ensures forall i :: 0 <= i < |r| ==> r[i] != ""
    ensures forall p :: p in parts && p != "" ==> p in r
    ensures forall p :: p in r ==> p in parts
  {
    if parts == [] then []
    else if parts[0] == "" then NonEmptyParts(parts[1..])
    else [parts[0]] + NonEmptyParts(parts[1..])
  }

  /** The `q` parameter: the non-empty parts joined by single spaces. */
  function EnrichedQuery(q: string, f: QueryFilters): (r: string)
    ensures r == Join(" ", Filter(QueryParts(q, f), Filled))
    ensures q != "" ==> StartsWith(r, q)
  {
    var ne := NonEmptyParts(QueryParts(q, f));
    if q != "" then
      assert ne[0] == q;
      JoinStartsWithFirst(" ", ne);
      Join(" ", ne)
    else Join(" ", ne)
  }

  /** With every preference given and no "Remote only", the query is the
      keywords, the industry clause, the company preferences and the
      additional preferences, in this order, separated by single spaces. */
  lemma FullQueryText(q: string, f: QueryFilters)
    requires q != "" && f.industry != [] && f.companyPreferences != "" && f.additionalPreferences != ""
    requires f.remotePreference != "Remote only"
    ensures EnrichedQuery(q, f)
            == q + " " + IndustryClause(f) + " " + f.companyPreferences + " " + f.additionalPreferences
  {
    var parts := QueryParts(q, f);
    assert parts == [q, IndustryClause(f), f.companyPreferences, f.additionalPreferences];
    FilledPartsKept(parts);
    JoinOfFour(" ", q, IndustryClause(f), f.companyPreferences, f.additionalPreferences);
  }

  /** Parts that are all non-empty pass `filter(None, ...)` unchanged. */
  lemma {:induction false} FilledPartsKept(parts: seq<string>)
    requires forall i :: 0 <= i < |parts| ==> parts[i] != ""
    ensures NonEmptyParts(parts) == parts
    decreases |parts|
  {
    if parts != [] {
      FilledPartsKept(parts[1..]);
    }
  }

  lemma JoinOfFour(sep: string, a: string, b: string, c: string, d: string)
    ensures Join(sep, [a, b, c, d]) == a + sep + b + sep + c + sep + d
  {
    assert Join(sep, [d]) == d;
    assert [c, d][1..] == [d];
    assert Join(sep, [c, d]) == c + sep + d;
    assert [b, c, d][1..] == [c, d];
    assert Join(sep, [b, c, d]) == b + sep + (c + sep + d);
    assert [a, b, c, d][1..] == [b, c, d];
    assert Join(sep, [a, b, c, d]) == a + sep + (b + sep + (c + sep + d));
  }

  /** "Remote only" with keywords that do not mention remote and no other
      preference appends " remote"; keywords that already mention it are
      left alone. */
  lemma RemoteAppendedOnce(q: string, f: QueryFilters)
    requires q != "" && f.industry == [] && f.companyPreferences == "" && f.additionalPreferences == ""
    requires f.remotePreference == "Remote only"
    ensures !Contains(Lower(q), "remote") ==> EnrichedQuery(q, f) == q + " remote"
    ensures Contains(Lower(q), "remote") ==> EnrichedQuery(q, f) == q
  {
    var parts := QueryParts(q, f);
    if !Contains(Lower(q), "remote") {
      assert parts == [q, "remote"];
      FilledPartsKept(parts);
      assert parts[1..] == ["remote"];
      assert Join(" ", parts) == q + " " + "remote";
      assert q + " " + "remote" == q + " remote";
    } else {
      assert parts == [q];
      FilledPartsKept(parts);
    }
  }

  /** The `location` parameter: dropped for "Remote only" and when empty. */
  function LocationParam(location: string, f: QueryFilters): (r: Option<string>)
    ensures r.Some? <==> f.remotePreference != "Remote only" && location != ""
    ensures r.Some? ==> r.value == location
  {
    if f.remotePreference == "Remote only" || location == "" then None else Some(location)
  }

  /** A "Remote only" query always mentions remote, in some letter case. */
  lemma RemoteOnlyQueryMentionsRemote(q: string, f: QueryFilters)
    requires f.remotePreference == "Remote only"
    ensures Contains(Lower(EnrichedQuery(q, f)), "remote")
  {
    var parts := QueryParts(q, f);
    var last := parts[|parts| - 1];
    assert last in parts;
    var ne := NonEmptyParts(parts);
    assert last in ne;
    var k :| 0 <= k < |ne| && ne[k] == last;
    JoinContainsParts(" ", ne, k);
    LowerKeepsContains(Join(" ", ne), last);
    ContainsTrans(Lower(Join(" ", ne)), Lower(last), "remote");
  }

  /** Every non-empty preference reaches the query text. */
  lemma PreferencesReachQuery(q: string, f: QueryFilters)
    ensures var query := EnrichedQuery(q, f);
            Contains(query, q)
            && (f.industry != [] ==> Contains(query, IndustryClause(f)))
            && Contains(query, f.companyPreferences)
            && Contains(query, f.additionalPreferences)
  {
    var parts := QueryParts(q, f);
    var ne := NonEmptyParts(parts);
    var query := Join(" ", ne);
    forall p | p in parts
      ensures Contains(query, p)
    {
      if p == "" {
        ContainsEmpty(query);
      } else {
        assert p in ne;
        var k :| 0 <= k < |ne| && ne[k] == p;
        JoinContainsParts(" ", ne, k);
      }
    }
    assert q in parts;
    if f.industry != [] {
      assert parts[1] in parts;
    }
    if f.companyPreferences != "" {
      assert f.companyPreferences in parts;
    } else {
      ContainsEmpty(query);
    }
    if f.additionalPreferences != "" {
      assert f.additionalPreferences in parts;
    } else {
      ContainsEmpty(query);
    }
  }

  /** With no preferences beyond the keywords, the query is the keywords. */
  lemma PlainQueryIsKeywords(q: string, f: QueryFilters)
    requires f.industry == [] && f.companyPreferences == "" && f.additionalPreferences == ""
    requires f.remotePreference != "Remote only"
    ensures EnrichedQuery(q, f) == q
  {
    assert QueryParts(q, f) == [q];
    if q == "" {
      assert NonEmptyParts([q]) == [];
    } else {
      assert NonEmptyParts([q]) == [q];
    }
  }

  // ---------------------------------------------------------------------
  // query_serpapi_google_jobs: the filter links
  // ---------------------------------------------------------------------

  /** An element of a filter group's `options`: a dictionary (absent `text`
      and `value` read as "") or some other JSON value. */
  datatype FilterChoice =
    | Choice(name: Option<string>, text: string, value: string, serpapiLink: Option<string>)
    | OtherChoice

  /** An element of `google_jobs_filters`. */
  datatype FilterGroup =
    | Group(name: Option<string>, options: seq<FilterChoice>)
    | OtherGroup

  /** `next((fg for fg in groups if isinstance(fg, dict) and ok(fg.get("name"))), None)`. */
  function FirstGroup(groups: seq<FilterGroup>, ok: Option<string> -> bool): (r: Option<FilterGroup>)
    ensures r.Some? ==> r.value in groups && r.value.Group? && ok(r.value.name)
    ensures r.None? ==> forall g :: g in groups && g.Group? ==> !ok(g.name)
  {
    if groups == [] then None
    else if groups[0].Group? && ok(groups[0].name) then Some(groups[0])
    else FirstGroup(groups[1..], ok)
  }

  /** The same search over a group's options. */
  function FirstChoice(options: seq<FilterChoice>, ok: FilterChoice -> bool): (r: Option<FilterChoice>)
    ensures r.Some? ==> r.value in options && r.value.Choice? && ok(r.value)
    ensures r.None? ==> forall c :: c in options && c.Choice? ==> !ok(c)
  {
    if options == [] then None
    else if options[0].Choice? && ok(options[0]) then Some(options[0])
    else FirstChoice(options[1..], ok)
  }

  predicate IsDatePosted(name: Option<string>) {
    name == Some("Date posted")
  }

  predicate IsPastMonth(c: FilterChoice) {
    c.Choice? && c.name == Some("Past month")
  }

  predicate IsTypeGroup(name: Option<string>) {
    name == Some("Type") || name == Some("Remote") || name == Some("Work Arrangement")
  }

  predicate IsOnSite(c: FilterChoice) {
    c.Choice? && (Lower(c.text) == "on-site" || Lower(c.value) == "jt_on_site")
  }

  /** The link of the option `ok` picks in the first group `gok` picks, when
      that option has a `serpapi_link`. */
  function PickLink(groups: seq<FilterGroup>, gok: Option<string> -> bool, cok: FilterChoice -> bool): Option<string> {
    match FirstGroup(groups, gok)
    case None => None
    case Some(g) =>
      match FirstChoice(g.options, cok)
      case Some(Choice(_, _, _, Some(link))) => Some(link)
      case _ => None
  }

  /** `filter_link` after stage 1: the "Past month" link, overridden by the
      "On-site" link when the preference is "On-site only" and one exists;
      a failed probe leaves no link. */
  function FilterLink(probe: Result<seq<FilterGroup>, string>, remotePref: string): (r: Option<string>)
    ensures probe.Err? ==> r.None?
    ensures probe.Ok? && remotePref != "On-site only" ==> r == PickLink(probe.value, IsDatePosted, IsPastMonth)
    ensures probe.Ok? && remotePref == "On-site only" ==>
              r == (if PickLink(probe.value, IsTypeGroup, IsOnSite).Some? then PickLink(probe.value, IsTypeGroup, IsOnSite)
                    else PickLink(probe.value, IsDatePosted, IsPastMonth))
  {
    match probe
    case Err(_) => None
    case Ok(groups) =>
      var date := PickLink(groups, IsDatePosted, IsPastMonth);
      if remotePref == "On-site only" && PickLink(groups, IsTypeGroup, IsOnSite).Some? then
        PickLink(groups, IsTypeGroup, IsOnSite)
      else date
  }

  // ---------------------------------------------------------------------
  // query_serpapi_google_jobs: the pagination loop
  // ---------------------------------------------------------------------

  /** A request of stage 1 or stage 2. */
  datatype QueryRequest =
    | Probe(q: string, location: Option<string>)
    | ViaFilterLink(url: string)
    | Search(q: string, location: Option<string>, pageToken: Option<string>)

  /** A decoded page: `jobs_results` (absent, `None` or empty all read as
      empty), whether `search_metadata` is truthy, and its pagination token. */
  datatype QueryPage<J> = QueryPage(jobsResults: seq<J>, hasMetadata: bool, nextPageToken: Option<string>)

  /** The returned dictionary. */
  datatype QueryResult<J> = QueryResult(jobs: seq<J>, nextPageToken: Option<string>, hasMore: bool, error: Option<string>)

  /** What stays fixed across the loop. */
  datatype QueryContext = QueryContext(query: string, location: Option<string>,
                                       filterLink: Option<string>, startToken: Option<string>)

  /** The request of one iteration. */
  function PageRequest(ctx: QueryContext, firstPage: bool, token: Option<string>): (r: QueryRequest)
    ensures r.ViaFilterLink? <==> firstPage && NonEmpty(ctx.filterLink) && !NonEmpty(ctx.startToken)
    ensures r.Search? ==> (r.pageToken.Some? <==> NonEmpty(token))
  {
    if firstPage && NonEmpty(ctx.filterLink) && !NonEmpty(ctx.startToken) then ViaFilterLink(ctx.filterLink.value)
    else Search(ctx.query, ctx.location, if NonEmpty(token) then token else None)
  }

  /** The token a non-empty page leaves behind. */
  function PageToken<J>(page: QueryPage<J>): Option<string> {
    if page.hasMetadata then page.nextPageToken else None
  }

  /** The `while has_more and len(jobs) < target_count` loop, one page per
      unit of fuel; `None` when the fuel runs out. */
  function QueryLoop<J>(ctx: QueryContext, target: int, jobs: seq<J>, token: Option<string>, hasMore: bool,
                        firstPage: bool, fetch: QueryRequest -> Result<QueryPage<J>, string>, fuel: nat)
    : (r: Option<QueryResult<J>>)
    ensures r.Some? && r.value.error.Some? ==> !r.value.hasMore
    ensures r.Some? && r.value.error.None? && r.value.hasMore ==> |r.value.jobs| >= target
    ensures r.Some? ==> |r.value.jobs| >= |jobs| && r.value.jobs[..|jobs|] == jobs
    decreases fuel
  {
    if !(hasMore && |jobs| < target) then Some(QueryResult(jobs, token, hasMore, None))
    else if fuel == 0 then None
    else
      match fetch(PageRequest(ctx, firstPage, token))
      case Err(e) => Some(QueryResult(jobs, token, false, Some(e)))
      case Ok(page) =>
        if page.jobsResults == [] then
          QueryLoop(ctx, target, jobs, None, false, false, fetch, fuel - 1)
        else
          var next := PageToken(page);
          var r := QueryLoop(ctx, target, jobs + page.jobsResults, next, NonEmpty(next), false, fetch, fuel - 1);
          PrefixOfExtension(jobs, page.jobsResults, r);
          r
  }

  lemma PrefixOfExtension<J>(a: seq<J>, b: seq<J>, r: Option<QueryResult<J>>)
    requires r.Some? ==> |r.value.jobs| >= |a + b| && r.value.jobs[..|a + b|] == a + b
    ensures r.Some? ==> |r.value.jobs| >= |a| && r.value.jobs[..|a|] == a
  {
    if r.Some? {
      assert (a + b)[..|a|] == a;
      assert r.value.jobs[..|a|] == r.value.jobs[..|a + b|][..|a|];
    }
  }

  /** `query_serpapi_google_jobs(q, location, filters, next_page_token,
      target_count)`. `probe` answers the stage-1 request. */
  function QuerySerpapiGoogleJobs<J>(apiKey: Option<string>, q: string, location: string, f: QueryFilters,
                                     nextPageToken: Option<string>, target: int,
                                     probe: QueryRequest -> Result<seq<FilterGroup>, string>,
                                     fetch: QueryRequest -> Result<QueryPage<J>, string>, fuel: nat)
    : (r: Option<QueryResult<J>>)
    ensures !NonEmpty(apiKey) ==> r == Some(QueryResult([], None, false, None))
    ensures NonEmpty(apiKey) && target <= 0 ==> r == Some(QueryResult([], nextPageToken, true, None))
  {
    if !NonEmpty(apiKey) then Some(QueryResult([], None, false, None))
    else
      var query := EnrichedQuery(q, f);
      var loc := LocationParam(location, f);
      var link := if NonEmpty(nextPageToken) then None else FilterLink(probe(Probe(query, loc)), f.remotePreference);
      QueryLoop(QueryContext(query, loc, link, nextPageToken), target, [], nextPageToken, true, true, fetch, fuel)
  }

  /** An empty page ends the loop: nothing more, no token, no error. */
  lemma EmptyPageStopsQuery<J>(ctx: QueryContext, target: int, jobs: seq<J>, token: Option<string>,
                               firstPage: bool, fetch: QueryRequest -> Result<QueryPage<J>, string>,
                               fuel: nat, page: QueryPage<J>)
    requires |jobs| < target && page.jobsResults == []
    requires fetch(PageRequest(ctx, firstPage, token)) == Ok(page)
    ensures QueryLoop(ctx, target, jobs, token, true, firstPage, fetch, fuel + 1)
            == Some(QueryResult(jobs, None, false, None))
  {
  }

  /** A failing request returns the jobs gathered so far with the error and
      `has_more` false. */
  lemma FailureKeepsPartialJobs<J>(ctx: QueryContext, target: int, jobs: seq<J>, token: Option<string>,
                                   firstPage: bool, fetch: QueryRequest -> Result<QueryPage<J>, string>,
                                   fuel: nat, e: string)
    requires |jobs| < target
    requires fetch(PageRequest(ctx, firstPage, token)) == Err(e)
    ensures QueryLoop(ctx, target, jobs, token, true, firstPage, fetch, fuel + 1)
            == Some(QueryResult(jobs, token, false, Some(e)))
  {
  }

  /** A non-empty page is kept whole, even past the target: the loop only
      checks the count before each request. */
  lemma WholePagesAreKept<J>(ctx: QueryContext, target: int, token: Option<string>,
                             fetch: QueryRequest -> Result<QueryPage<J>, string>, fuel: nat, page: QueryPage<J>)
    requires 0 < target <= |page.jobsResults|
    requires fetch(PageRequest(ctx, true, token)) == Ok(page)
    ensures QueryLoop(ctx, target, [], token, true, true, fetch, fuel + 1)
            == Some(QueryResult(page.jobsResults, PageToken(page), NonEmpty(PageToken(page)), None))
  {
    assert [] + page.jobsResults == page.jobsResults;
  }

  /** The first page goes through the filter link only for a fresh search
      that found one. */
  lemma FilterLinkOnlyOnFreshFirstPage(ctx: QueryContext, token: Option<string>)
    ensures PageRequest(ctx, false, token).Search?
    ensures NonEmpty(ctx.startToken) ==> PageRequest(ctx, true, token).Search?
  {
  }
}

=== FILE: json.dfy ===
/** Decoded JSON values as Python's `json.loads` returns them, and the
    truthiness Python gives them.

  The decoder itself is not modelled: where the source calls `json.loads`
  (or pydantic's JSON validation), the model takes a decoding function as a
  parameter that returns `None` on a decode error.
 */
module Json {
  import opened Wrappers

  datatype Json =
    | JNull
    | JBool(b: bool)
    | JInt(i: int)
    | JFloat(f: real)
    | JStr(s: string)
    | JArr(items: seq<Json>)
    | JObj(fields: map<string, Json>)

  /** A Python `dict` decoded from a JSON object. */
  type Dict = map<string, Json>

  /** Python truthiness: `None`, `False`, `0`, `0.0`, `""`, `[]` and `{}` are falsy. */
  predicate Truthy(j: Json) {
    match j
    case JNull => false
    case JBool(b) => b
    case JInt(i) => i != 0
    case JFloat(f) => f != 0.0
    case JStr(s) => s != ""
    case JArr(items) => items != []
    case JObj(fields) => fields != map[]
  }

  /** `d.get(k)` followed by a truthiness test: an absent key is falsy. */
  predicate TruthyAt(d: Dict, k: string) {
    k in d && Truthy(d[k])
  }

  function Get(d: Dict, k: string): Option<Json> {
    if k in d then Some(d[k]) else None
  }

  /** `d.get(k)` as a value: an absent key reads as `None`, just like a key
      present with the value `null`. */
  function GetOrNull(d: Dict, k: string): (r: Json)
    ensures k !in d ==> r == JNull
    ensures k in d ==> r == d[k]
  {
    if k in d then d[k] else JNull
  }

  /** `d.setdefault(k, v)` for its effect on `d`. */
  function SetDefault(d: Dict, k: string, v: Json): (r: Dict)
    ensures r.Keys == d.Keys + {k}
    ensures k in d ==> r[k] == d[k]
    ensures k !in d ==> r[k] == v
    ensures forall k' :: k' in d ==> r[k'] == d[k']
  {
    if k in d then d else d[k := v]
  }

  /** `v[:n]` succeeds on a string or a list; on `None`, a number, a
      boolean or a dict it raises. */
  predicate Sliceable(j: Json) {
    j.JStr? || j.JArr?
  }

  /** `isinstance(v, int)`: Python's `bool` is a subclass of `int`. */
  predicate IsPyInt(j: Json) {
    j.JInt? || j.JBool?
  }

  /** The integer value Python uses for an `int` (`True` is 1, `False` is 0). */
  function PyIntValue(j: Json): int
    requires IsPyInt(j)
  {
    match j
    case JInt(i) => i
    case JBool(b) => if b then 1 else 0
  }
}

=== FILE: listing.dfy ===
/** A raw job listing as the Google Jobs search provider returns it.

  Only the keys the modelled code reads are kept. `None` stands for a key the
  provider left out; every string the provider does send is kept verbatim
  (listings are never rewritten downstream).
 */
module Listings {
  import opened Wrappers

  /** An entry of `apply_options`, `related_links` or `job_highlights`:
      only its `link` key is read. */
  datatype LinkEntry = LinkEntry(link: Option<string>)

  datatype Listing = Listing(
    title: Option<string>,
    companyName: Option<string>,
    location: Option<string>,
    description: Option<string>,
    /** `detected_extensions.posted_at` */
    postedAt: Option<string>,
    /** `detected_extensions.apply_link` */
    detectedApplyLink: Option<string>,
    applyOptions: Option<seq<LinkEntry>>,
    shareLink: Option<string>,
    relatedLinks: Option<seq<LinkEntry>>,
    jobHighlights: Option<seq<LinkEntry>>,
    searchLink: Option<string>
  )

  /** Python's `x or ""` on an optional string. */
  function OrEmpty(s: Option<string>): string {
    s.GetOr("")
  }

  /** Python's `if x:` on an optional string. */
  predicate NonEmpty(s: Option<string>) {
    s.Some? && s.value != ""
  }
}

=== FILE: llm_job_filter.dfy ===
/** `llm_job_filter.py`: the trimming of jobs before they are shown to the
    model, the removal of Markdown fences from its reply, and the defaults
    given to every job it returns.

  The LangChain call is an input (the reply text) and `json.loads` is an
  oracle `decode` returning `None` on a decode error.
 */
module LlmJobFilter {
  import opened Wrappers
  import opened Text
  import opened Json

  const PreprocessedKeys: set<string> := {"title", "company", "location", "description"}

  /** Python's `len(v)` where it is defined: strings, lists and dicts. */
  function PyLen(j: Json): Option<nat> {
    match j
    case JStr(s) => Some(|s|)
    case JArr(items) => Some(|items|)
    case JObj(fields) => Some(|fields|)
    case _ => None
  }

  /** The `description` entry: cut to `maxLen` characters plus "..." when it
      is longer. Only a string survives the cut; `len` of a number or `None`
      and `+ '...'` on a long list or dict raise `TypeError`. */
  function CapDescription(d: Json, maxLen: int): (r: Result<Json, string>)
    ensures d.JStr? && |d.s| <= maxLen ==> r == Ok(d)
    ensures d.JStr? && |d.s| > maxLen ==> r == Ok(JStr(Prefix(d.s, maxLen) + "..."))
    ensures d.JStr? ==> r.Ok?
    ensures r.Ok? && PyLen(d).Some? && PyLen(d).value <= maxLen ==> r.value == d
  {
    match PyLen(d)
    case None => Err("TypeError")
    case Some(n) =>
      if n <= maxLen then Ok(d)
      else if d.JStr? then Ok(JStr(Prefix(d.s, maxLen) + "..."))
      else Err("TypeError")
  }

  /** `job.get(k, '')`. */
  function GetOrEmpty(job: Dict, k: string): (v: Json)
    ensures k in job ==> v == job[k]
    ensures k !in job ==> v == JStr("")
  {
    if k in job then job[k] else JStr("")
  }

  /** One entry of `preprocess_jobs_for_llm`. */
  function PreprocessJob(job: Dict, descMaxLen: int): (r: Result<Dict, string>)
    ensures r.Ok? ==> r.value.Keys == PreprocessedKeys
    ensures r.Ok? ==> r.value["title"] == GetOrEmpty(job, "title")
                      && r.value["company"] == GetOrEmpty(job, "company")
                      && r.value["location"] == GetOrEmpty(job, "location")
    ensures r.Ok? ==> CapDescription(GetOrEmpty(job, "description"), descMaxLen) == Ok(r.value["description"])
    ensures r.Err? <==> CapDescription(GetOrEmpty(job, "description"), descMaxLen).Err?
  {
    match CapDescription(GetOrEmpty(job, "description"), descMaxLen)
    case Err(e) => Err(e)
    case Ok(desc) =>
      Ok(map["title" := GetOrEmpty(job, "title"), "company" := GetOrEmpty(job, "company"),
             "location" := GetOrEmpty(job, "location"), "description" := desc])
  }

  /** `preprocess_jobs_for_llm(jobs, max_jobs, desc_max_len)`. */
  function PreprocessJobs(jobs: seq<Dict>, maxJobs: int, descMaxLen: int): (r: Result<seq<Dict>, string>)
    ensures r.Ok? ==> |r.value| == |Prefix(jobs, maxJobs)|
    ensures r.Ok? ==> forall i :: 0 <= i < |r.value| ==> PreprocessJob(jobs[i], descMaxLen) == Ok(r.value[i])
    ensures r.Err? <==> exists i :: 0 <= i < |Prefix(jobs, maxJobs)| && PreprocessJob(jobs[i], descMaxLen).Err?
  {
    PreprocessAll(Prefix(jobs, maxJobs), descMaxLen)
  }

  function PreprocessAll(jobs: seq<Dict>, descMaxLen: int): (r: Result<seq<Dict>, string>)
    ensures r.Ok? ==> |r.value| == |jobs|
    ensures r.Ok? ==> forall i :: 0 <= i < |jobs| ==> PreprocessJob(jobs[i], descMaxLen) == Ok(r.value[i])
    ensures r.Err? <==> exists i :: 0 <= i < |jobs| && PreprocessJob(jobs[i], descMaxLen).Err?
  {
    if jobs == [] then Ok([])
    else
      match PreprocessJob(jobs[0], descMaxLen)
      case Err(e) => Err(e)
      case Ok(first) =>
        var rest := PreprocessAll(jobs[1..], descMaxLen);
        PreprocessShift(jobs, descMaxLen, rest.Err?);
        match rest
        case Err(e) => Err(e)
        case Ok(tail) =>
          OkPointwiseCons(jobs, job => PreprocessJob(job, descMaxLen), first, tail);
          Ok([first] + tail)
  }

  lemma PreprocessShift(jobs: seq<Dict>, descMaxLen: int, restFails: bool)
    requires jobs != [] && PreprocessJob(jobs[0], descMaxLen).Ok?
    requires restFails <==> exists i :: 0 <= i < |jobs[1..]| && PreprocessJob(jobs[1..][i], descMaxLen).Err?
    ensures restFails <==> exists i :: 0 <= i < |jobs| && PreprocessJob(jobs[i], descMaxLen).Err?
  {
    if restFails {
      var i :| 0 <= i < |jobs[1..]| && PreprocessJob(jobs[1..][i], descMaxLen).Err?;
      assert PreprocessJob(jobs[i + 1], descMaxLen).Err?;
    }
    if exists i :: 0 <= i < |jobs| && PreprocessJob(jobs[i], descMaxLen).Err? {
      var i :| 0 <= i < |jobs| && PreprocessJob(jobs[i], descMaxLen).Err?;
      assert i != 0;
      assert PreprocessJob(jobs[1..][i - 1], descMaxLen).Err?;
    }
  }

  /** Jobs whose fields are all strings are always preprocessed, never more
      than `max_jobs` of them, and no `url` is passed on. */
  lemma PreprocessStringJobs(jobs: seq<Dict>, maxJobs: int, descMaxLen: int)
    requires forall i :: 0 <= i < |jobs| ==> "description" !in jobs[i] || jobs[i]["description"].JStr?
    ensures var r := PreprocessJobs(jobs, maxJobs, descMaxLen);
            r.Ok? && (0 <= maxJobs ==> |r.value| <= maxJobs)
            && forall i :: 0 <= i < |r.value| ==> "url" !in r.value[i]
  {
    var pre := Prefix(jobs, maxJobs);
    forall i | 0 <= i < |pre|
      ensures PreprocessJob(pre[i], descMaxLen).Ok?
    {
      assert pre[i] == jobs[i];
    }
  }

  // ---------------------------------------------------------------------
  // clean_llm_json_response
  // ---------------------------------------------------------------------

  const Fence: string := "```"

  /** `re.sub(r"^```(?:json)?[\s\r\n]*", "", t, flags=re.I)`: an opening
      fence, an optional "json" in any letter case, and the whitespace
      after them. */
  function DropOpeningFence(t: string): (r: string)
    ensures !StartsWith(t, Fence) ==> r == t
    ensures |r| <= |t| && r == t[|t| - |r|..]
  {
    if StartsWith(t, Fence) then TrimStart(SkipJsonTag(t[3..]), IsSpace) else t
  }

  /** The optional `(?:json)` group, in any letter case. */
  function SkipJsonTag(v: string): string {
    if |v| >= 4 && Lower(v[..4]) == "json" then v[4..] else v
  }

  /** `re.sub(r"[\s\r\n]*```$", "", u)`: a closing fence and the whitespace
      before it. */
  function DropClosingFence(u: string): (r: string)
    ensures !EndsWith(u, Fence) ==> r == u
    ensures |r| <= |u| && r == u[..|r|]
  {
    if EndsWith(u, Fence) then TrimEnd(u[..|u| - 3], IsSpace) else u
  }

  /** Both fence removals, as both cleaners apply them after stripping. */
  function DropFences(t: string): string {
    DropClosingFence(DropOpeningFence(t))
  }

  /** Removing the fences leaves one contiguous piece of the text. */
  lemma DropFencesIsSlice(t: string)
    ensures Contains(t, DropFences(t))
  {
    var u := DropOpeningFence(t);
    var v := DropClosingFence(u);
    var a := |t| - |u|;
    assert u == t[a..] && v == u[..|v|];
    assert t[a..][..|v|] == t[a..a + |v|];
    assert OccursAt(t, v, a);
  }

  /** `clean_llm_json_response(resp)`. */
  function CleanLlmJsonResponse(resp: string): (r: string)
    ensures |r| <= |Strip(resp)|
  {
    DropFences(Strip(resp))
  }

  /** The cleaned reply is one contiguous piece of the stripped reply. */
  lemma CleanLlmJsonResponseIsSlice(resp: string)
    ensures Contains(Strip(resp), CleanLlmJsonResponse(resp))
  {
    DropFencesIsSlice(Strip(resp));
  }

  /** A reply without fences is only stripped. */
  lemma UnfencedReplyIsStripped(resp: string)
    requires !StartsWith(Strip(resp), Fence) && !EndsWith(Strip(resp), Fence)
    ensures CleanLlmJsonResponse(resp) == Strip(resp)
  {
  }

  /** A fenced reply gives back exactly the JSON inside the fence. */
  lemma FencedReplyRoundTrip(tag: string, body: string)
    requires tag == "json" || tag == "JSON" || tag == ""
    requires body != [] && !IsSpace(body[0]) && !IsSpace(body[|body| - 1])
    ensures CleanLlmJsonResponse(Fence + tag + "\n" + body + "\n" + Fence) == body
  {
    var u := body + "\n" + Fence;
    var s := Fence + tag + "\n" + u;
    assert Fence + tag + "\n" + body + "\n" + Fence == s;
    assert !IsSpace(s[0]) && s[|s| - 1] == '`';
    StripOfNonSpaceEnds(s);
    OpeningFenceOf(tag, u);
    ClosingFenceOf(body);
  }

  lemma OpeningFenceOf(tag: string, rest: string)
    requires tag == "json" || tag == "JSON" || tag == ""
    requires rest != [] && !IsSpace(rest[0])
    ensures DropOpeningFence(Fence + tag + "\n" + rest) == rest
  {
    var v := tag + "\n" + rest;
    assert Fence + tag + "\n" + rest == Fence + v;
    FenceThen(v);
    SkipJsonTagOf(tag, rest);
    TrimStartOfSpaceThen("\n", rest);
  }

  /** The tag is skipped and the line break after it kept. */
  lemma SkipJsonTagOf(tag: string, rest: string)
    requires tag == "json" || tag == "JSON" || tag == ""
    ensures SkipJsonTag(tag + "\n" + rest) == "\n" + rest
  {
    if tag != "" {
      SkipTaggedLine(tag, rest);
    } else {
      SkipBareLine(rest);
    }
  }

  lemma SkipTaggedLine(tag: string, rest: string)
    requires tag == "json" || tag == "JSON"
    ensures SkipJsonTag(tag + "\n" + rest) == "\n" + rest
  {
    var v := tag + "\n" + rest;
    LowerJsonTag(tag);
    assert v[..4] == tag;
    assert v[4..] == "\n" + rest;
  }

  /** Without a tag the line break itself rules out "json". */
  lemma SkipBareLine(rest: string)
    ensures SkipJsonTag("\n" + rest) == "\n" + rest
  {
    var v := "\n" + rest;
    if |v| >= 4 {
      assert Lower(v[..4])[0] == '\n';
    }
  }

  lemma FenceThen(v: string)
    ensures StartsWith(Fence + v, Fence) && (Fence + v)[3..] == v
  {
    assert (Fence + v)[..3] == Fence;
  }

  lemma LowerJsonTag(tag: string)
    requires tag == "json" || tag == "JSON"
    ensures Lower(tag) == "json"
  {
    assert Lower(tag)[0] == 'j' && Lower(tag)[1] == 's' && Lower(tag)[2] == 'o' && Lower(tag)[3] == 'n';
  }

  lemma ClosingFenceOf(body: string)
    requires body != [] && !IsSpace(body[|body| - 1])
    ensures DropClosingFence(body + "\n" + Fence) == body
  {
    var u := body + "\n" + Fence;
    assert u[|u| - 3..] == Fence;
    assert u[..|u| - 3] == body + "\n";
    TrimEndOfThenSpace(body, "\n");
  }

  lemma StripOfNonSpaceEnds(s: string)
    requires s != [] && !IsSpace(s[0]) && !IsSpace(s[|s| - 1])
    ensures Strip(s) == s
  {
  }

  lemma {:induction false} TrimStartOfSpaceThen(sp: string, rest: string)
    requires forall i :: 0 <= i < |sp| ==> IsSpace(sp[i])
    requires rest != [] && !IsSpace(rest[0])
    ensures TrimStart(sp + rest, IsSpace) == rest
    decreases |sp|
  {
    if sp != [] {
      assert (sp + rest)[0] == sp[0] && (sp + rest)[1..] == sp[1..] + rest;
      TrimStartOfSpaceThen(sp[1..], rest);
    } else {
      assert sp + rest == rest;
    }
  }

  lemma {:induction false} TrimEndOfThenSpace(body: string, sp: string)
    requires forall i :: 0 <= i < |sp| ==> IsSpace(sp[i])
    requires body != [] && !IsSpace(body[|body| - 1])
    ensures TrimEnd(body + sp, IsSpace) == body
    decreases |sp|
  {
    if sp != [] {
      assert (body + sp)[|body + sp| - 1] == sp[|sp| - 1];
      assert (body + sp)[..|body + sp| - 1] == body + sp[..|sp| - 1];
      TrimEndOfThenSpace(body, sp[..|sp| - 1]);
    } else {
      assert body + sp == body;
    }
  }

  // ---------------------------------------------------------------------
  // filter_and_explain_top_jobs: defaults for the parsed jobs
  // ---------------------------------------------------------------------

  /** The three `setdefault` calls. */
  function WithDefaults(job: Dict): (r: Dict)
    ensures r.Keys == job.Keys + {"url", "score", "explanation"}
    ensures forall k :: k in job ==> r[k] == job[k]
    ensures "url" !in job ==> r["url"] == JStr("")
    ensures "score" !in job ==> r["score"] == JInt(0)
    ensures "explanation" !in job ==> r["explanation"] == JStr("")
  {
    SetDefault(SetDefault(SetDefault(job, "url", JStr("")), "score", JInt(0)), "explanation", JStr(""))
  }

  predicate AllDicts(items: seq<Json>) {
    forall i :: 0 <= i < |items| ==> items[i].JObj?
  }

  /** `for job in parsed: job.setdefault(...)`: iterating a list calls
      `setdefault` on each element, iterating a non-empty string or dict
      yields strings (which have no `setdefault`), and iterating `None`, a
      number or a boolean raises; each failure is `None`. */
  function ApplyDefaults(parsed: Json): (r: Option<Json>)
    ensures parsed.JArr? && AllDicts(parsed.items) ==> r.Some? && r.value.JArr?
    ensures r.Some? && r.value.JArr? ==>
              parsed.JArr? && AllDicts(parsed.items) && |r.value.items| == |parsed.items|
              && forall i :: 0 <= i < |parsed.items| ==> r.value.items[i] == JObj(WithDefaults(parsed.items[i].fields))
    ensures r.Some? && !r.value.JArr? ==> r.value == parsed && (parsed == JStr("") || parsed == JObj(map[]))
  {
    match parsed
    case JArr(items) =>
      if AllDicts(items) then
        Some(JArr(seq(|items|, i requires 0 <= i < |items| => JObj(WithDefaults(items[i].fields)))))
      else None
    case JStr(s) => if s == "" then Some(parsed) else None
    case JObj(fields) => if fields == map[] then Some(parsed) else None
    case _ => None
  }

  /** The value `filter_and_explain_top_jobs` returns for the reply `response`:
      any failure to decode or to fill in the defaults yields `[]`. */
  function FilterAndExplain(response: string, decode: string -> Option<Json>): (r: Json)
    ensures r.JArr? ==> forall i :: 0 <= i < |r.items| ==>
              r.items[i].JObj? && "url" in r.items[i].fields && "score" in r.items[i].fields
              && "explanation" in r.items[i].fields
    ensures decode(CleanLlmJsonResponse(response)).None? ==> r == JArr([])
    ensures (decode(CleanLlmJsonResponse(response)).Some? &&
             ApplyDefaults(decode(CleanLlmJsonResponse(response)).value).None?) ==> r == JArr([])
    ensures (decode(CleanLlmJsonResponse(response)).Some? &&
             ApplyDefaults(decode(CleanLlmJsonResponse(response)).value).Some?) ==>
              r == ApplyDefaults(decode(CleanLlmJsonResponse(response)).value).value
  {
    match decode(CleanLlmJsonResponse(response))
    case None => JArr([])
    case Some(parsed) =>
      match ApplyDefaults(parsed)
      case None => JArr([])
      case Some(v) => v
  }

  /** Values the model did give are kept; only missing keys are filled. */
  lemma DefaultsKeepGivenValues(response: string, decode: string -> Option<Json>, items: seq<Json>)
    requires decode(CleanLlmJsonResponse(response)) == Some(JArr(items)) && AllDicts(items)
    ensures var r := FilterAndExplain(response, decode);
            r.JArr? && |r.items| == |items|
            && forall i :: 0 <= i < |items| ==>
                 r.items[i].JObj? && forall k :: k in items[i].fields ==>
                   k in r.items[i].fields && r.items[i].fields[k] == items[i].fields[k]
  {
    var r := FilterAndExplain(response, decode);
    assert r == ApplyDefaults(JArr(items)).value;
    forall i | 0 <= i < |items|
      ensures r.items[i] == JObj(WithDefaults(items[i].fields))
    {
    }
  }

  /** A decoded reply that is a list holding a non-object, a scalar, a
      non-empty string or a non-empty object makes a `setdefault` call (or
      the iteration) raise, and the `except` turns that into `[]`. */
  lemma MalformedReplyGivesEmpty(response: string, decode: string -> Option<Json>, parsed: Json)
    requires decode(CleanLlmJsonResponse(response)) == Some(parsed)
    requires || (parsed.JArr? && exists i :: 0 <= i < |parsed.items| && !parsed.items[i].JObj?)
             || parsed.JNull? || parsed.JBool? || parsed.JInt? || parsed.JFloat?
             || (parsed.JStr? && parsed.s != "")
             || (parsed.JObj? && parsed.fields != map[])
    ensures FilterAndExplain(response, decode) == JArr([])
  {
  }

  /** The reply `[1]`: the list's element is a number, so the whole result is `[]`. */
  lemma NumberElementGivesEmpty(response: string, decode: string -> Option<Json>)
    requires decode(CleanLlmJsonResponse(response)) == Some(JArr([JInt(1)]))
    ensures FilterAndExplain(response, decode) == JArr([])
  {
    var parsed := JArr([JInt(1)]);
    assert !parsed.items[0].JObj?;
    MalformedReplyGivesEmpty(response, decode, parsed);
  }
}

=== FILE: llm_job_filter_two_step.dfy ===
/** `llm_job_filter_two_step.py`: the model first picks job indices, then
    scores the picked jobs in batches, and the scored jobs get their
    descriptions back.

  Each LangChain call is an oracle from its input to the reply text, and
  `json.loads` is an oracle `decode` returning `None` on a decode error.
 */
module LlmJobFilterTwoStep {
  import opened Wrappers
  import opened Text
  import opened Json
  import LlmJobFilter

  // ---------------------------------------------------------------------
  // clean_json
  // ---------------------------------------------------------------------

  /** `clean_json(resp)`: the text from the first '[' to the last ']' when
      they are in that order, otherwise the fence removal of
      `clean_llm_json_response`. */
  function CleanJson(resp: string): (r: string)
    ensures |r| <= |Strip(resp)|
  {
    var t := Strip(resp);
    var start := Find(t, "[");
    var end := RFind(t, "]");
    if start != -1 && end != -1 && end > start then BracketSpan(t, start, end)
    else LlmJobFilter.DropFences(t)
  }

  /** The cleaned reply is one contiguous piece of the stripped reply. */
  lemma CleanJsonIsSlice(resp: string)
    ensures Contains(Strip(resp), CleanJson(resp))
  {
    var t := Strip(resp);
    var start := Find(t, "[");
    var end := RFind(t, "]");
    if start != -1 && end != -1 && end > start {
      BracketSpanIsSlice(t, start, end);
    } else {
      LlmJobFilter.DropFencesIsSlice(t);
    }
  }

  lemma BracketSpanIsSlice(t: string, start: int, end: int)
    requires 0 <= start < end && OccursAt(t, "[", start) && OccursAt(t, "]", end)
    ensures Contains(t, BracketSpan(t, start, end))
  {
    assert OccursAt(t, BracketSpan(t, start, end), start);
  }

  /** The slice from a '[' to a later ']', both included. */
  function BracketSpan(t: string, start: int, end: int): (r: string)
    requires 0 <= start < end && OccursAt(t, "[", start) && OccursAt(t, "]", end)
    ensures end < |t| && r == t[start..end + 1]
    ensures r[0] == '[' && r[|r| - 1] == ']'
  {
    assert t[start] == t[start..start + 1][0] == '[';
    assert t[end] == t[end..end + 1][0] == ']';
    t[start..end + 1]
  }

  /** The bracketed slice holds no '[' before it and no ']' after it: it is
      the widest bracketed span of the reply. */
  lemma CleanJsonIsWidestSpan(resp: string)
    requires var t := Strip(resp);
             Find(t, "[") != -1 && RFind(t, "]") > Find(t, "[")
    ensures var t := Strip(resp);
            var start := Find(t, "[");
            var end := RFind(t, "]");
            CleanJson(resp) == t[start..end + 1]
            && CleanJson(resp)[0] == '[' && CleanJson(resp)[|CleanJson(resp)| - 1] == ']'
            && (forall k :: 0 <= k < start ==> t[k] != '[')
            && (forall k :: end < k < |t| ==> t[k] != ']')
  {
    var t := Strip(resp);
    var start := Find(t, "[");
    var end := RFind(t, "]");
    NoOpenBefore(t, start);
    NoCloseAfter(t, end);
    assert CleanJson(resp) == BracketSpan(t, start, end);
  }

  /** A one-character string occurs exactly where that character is. */
  lemma OccursAtChar(t: string, c: char, k: int)
    requires 0 <= k < |t|
    ensures OccursAt(t, [c], k) <==> t[k] == c
  {
    assert t[k..k + 1] == [t[k]];
  }

  lemma NoOpenBefore(t: string, start: int)
    requires start == Find(t, "[")
    ensures forall k :: 0 <= k < start ==> t[k] != '['
  {
    forall k | 0 <= k < start
      ensures t[k] != '['
    {
      OccursAtChar(t, '[', k);
    }
  }

  lemma NoCloseAfter(t: string, end: int)
    requires end == RFind(t, "]")
    ensures forall k :: end < k < |t| ==> t[k] != ']'
  {
    forall k | end < k < |t|
      ensures t[k] != ']'
    {
      OccursAtChar(t, ']', k);
    }
  }

  // ---------------------------------------------------------------------
  // select_top_job_indices
  // ---------------------------------------------------------------------

  predicate AllPyInts(items: seq<Json>) {
    forall i :: 0 <= i < |items| ==> IsPyInt(items[i])
  }

  /** The indices read from the reply `response`: the decoded list when
      every element is an `int` (a `bool` is one), otherwise `[]`. */
  function ParseIndices(response: string, decode: string -> Option<Json>): (r: seq<int>)
    ensures var d := decode(CleanJson(response));
            d.Some? && d.value.JArr? && AllPyInts(d.value.items) ==>
              |r| == |d.value.items| && forall i :: 0 <= i < |r| ==> r[i] == PyIntValue(d.value.items[i])
    ensures var d := decode(CleanJson(response));
            !(d.Some? && d.value.JArr? && AllPyInts(d.value.items)) ==> r == []
  {
    match decode(CleanJson(response))
    case Some(JArr(items)) =>
      if AllPyInts(items) then seq(|items|, i requires 0 <= i < |items| => PyIntValue(items[i]))
      else []
    case _ => []
  }

  /** Every job's description can be cut for the prompt. */
  predicate DescriptionsSliceable(jobs: seq<Dict>) {
    forall i :: 0 <= i < |jobs| ==> Sliceable(LlmJobFilter.GetOrEmpty(jobs[i], "description"))
  }

  /** `select_top_job_indices(jobs, ...)` for the reply `response`. The job
      list for the prompt is built before the `try`, so a description that
      cannot be sliced raises out of the call before the model is asked;
      otherwise the reply's indices are returned. */
  function SelectTopJobIndices(jobs: seq<Dict>, response: string, decode: string -> Option<Json>)
    : (r: Result<seq<int>, string>)
    ensures r.Err? <==> exists i :: 0 <= i < |jobs| && !Sliceable(LlmJobFilter.GetOrEmpty(jobs[i], "description"))
    ensures r.Ok? ==> r.value == ParseIndices(response, decode)
  {
    if DescriptionsSliceable(jobs) then Ok(ParseIndices(response, decode)) else Err("TypeError")
  }

  // ---------------------------------------------------------------------
  // Selection
  // ---------------------------------------------------------------------

  /** `[jobs[i] for i in indices if 0 <= i < len(jobs)]`. */
  function SelectJobs<J>(jobs: seq<J>, indices: seq<int>): (r: seq<J>)
    ensures |r| <= |indices|
    ensures forall x :: x in r ==> x in jobs
    ensures (forall k :: 0 <= k < |indices| ==> 0 <= indices[k] < |jobs|) ==>
              |r| == |indices| && forall k :: 0 <= k < |r| ==> r[k] == jobs[indices[k]]
  {
    if indices == [] then []
    else
      var rest := SelectJobs(jobs, indices[1..]);
      if 0 <= indices[0] < |jobs| then [jobs[indices[0]]] + rest else rest
  }

  /** Out-of-range indices are dropped; the others keep their order and
      their repetitions. */
  lemma {:induction false} SelectionDropsOnlyInvalid<J>(jobs: seq<J>, indices: seq<int>)
    ensures |SelectJobs(jobs, indices)| == |ValidIndices(indices, |jobs|)|
    ensures SelectJobs(jobs, indices) == SelectJobs(jobs, ValidIndices(indices, |jobs|))
  {
    if indices != [] {
      SelectionDropsOnlyInvalid(jobs, indices[1..]);
      if 0 <= indices[0] < |jobs| {
        assert ValidIndices(indices, |jobs|)[1..] == ValidIndices(indices[1..], |jobs|);
      }
    }
  }

  /** The indices that pass the range test, in order. */
  function ValidIndices(indices: seq<int>, n: nat): (r: seq<int>)
    ensures forall k :: 0 <= k < |r| ==> 0 <= r[k] < n
    ensures |r| <= |indices|
  {
    if indices == [] then []
    else if 0 <= indices[0] < n then [indices[0]] + ValidIndices(indices[1..], n)
    else ValidIndices(indices[1..], n)
  }

  // ---------------------------------------------------------------------
  // explain_jobs_in_batches
  // ---------------------------------------------------------------------

  function Concat<J>(parts: seq<seq<J>>): seq<J> {
    if parts == [] then [] else parts[0] + Concat(parts[1..])
  }

  /** `jobs[i:i+batch_size] for i in range(0, len(jobs), batch_size)`:
      `range` rejects a zero step with `ValueError`, and a negative step
      gives no batch at all. */
  function Batches<J>(jobs: seq<J>, batchSize: int): (r: Result<seq<seq<J>>, string>)
    ensures batchSize == 0 <==> r.Err?
    ensures batchSize < 0 ==> r == Ok([])
    ensures batchSize > 0 ==> r.Ok? && Concat(r.value) == jobs
    ensures batchSize > 0 ==> forall k :: 0 <= k < |r.value| ==> 0 < |r.value[k]| <= batchSize
    ensures batchSize > 0 ==> forall k :: 0 <= k < |r.value| - 1 ==> |r.value[k]| == batchSize
  {
    if batchSize == 0 then Err("ValueError")
    else if batchSize < 0 then Ok([])
    else Ok(Chunks(jobs, batchSize))
  }

  function Chunks<J>(jobs: seq<J>, size: nat): (r: seq<seq<J>>)
    requires size > 0
    ensures Concat(r) == jobs
    ensures forall k :: 0 <= k < |r| ==> 0 < |r[k]| <= size
    ensures forall k :: 0 <= k < |r| - 1 ==> |r[k]| == size
    decreases |jobs|
  {
    if jobs == [] then []
    else if |jobs| <= size then [jobs]
    else
      var rest := Chunks(jobs[size..], size);
      assert Concat([jobs[..size]] + rest) == jobs[..size] + Concat(rest);
      assert jobs[..size] + jobs[size..] == jobs;
      [jobs[..size]] + rest
  }

  /** The jobs one batch reply contributes: the decoded list, or nothing. */
  function BatchItems(reply: string, decode: string -> Option<Json>): seq<Json> {
    match decode(CleanJson(reply))
    case Some(JArr(items)) => items
    case _ => []
  }

  /** `explain_jobs_in_batches`: the replies' lists in batch order. */
  function ExplainInBatches<J>(jobs: seq<J>, batchSize: int, llm: seq<J> -> string,
                               decode: string -> Option<Json>): (r: Result<seq<Json>, string>)
    ensures batchSize == 0 <==> r.Err?
    ensures batchSize < 0 || (batchSize > 0 && jobs == []) ==> r == Ok([])
    ensures batchSize > 0 ==> r == Ok(Concat(Replies(Chunks(jobs, batchSize), llm, decode)))
  {
    match Batches(jobs, batchSize)
    case Err(e) => Err(e)
    case Ok(batches) => Ok(Concat(Replies(batches, llm, decode)))
  }

  /** Each batch's contribution, in batch order. */
  function Replies<J>(batches: seq<seq<J>>, llm: seq<J> -> string, decode: string -> Option<Json>): (r: seq<seq<Json>>)
    ensures |r| == |batches|
    ensures forall k :: 0 <= k < |r| ==> r[k] == BatchItems(llm(batches[k]), decode)
  {
    if batches == [] then [] else [BatchItems(llm(batches[0]), decode)] + Replies(batches[1..], llm, decode)
  }

  // ---------------------------------------------------------------------
  // filter_and_explain_top_jobs_two_step
  // ---------------------------------------------------------------------

  /** `j.get(k) == job.get(k)` for the three identifying keys; an absent key
      and a `null` value both read as `None`. */
  predicate SameJob(j: Dict, job: Dict) {
    GetOrNull(j, "title") == GetOrNull(job, "title") && GetOrNull(j, "company") == GetOrNull(job, "company")
    && GetOrNull(j, "location") == GetOrNull(job, "location")
  }

  /** `next((j for j in selected if SameJob(j, job)), None)`. */
  function FirstMatch(selected: seq<Dict>, job: Dict): (r: Option<Dict>)
    ensures r.Some? ==> r.value in selected && SameJob(r.value, job)
    ensures r.None? <==> forall j :: j in selected ==> !SameJob(j, job)
  {
    if selected == [] then None
    else if SameJob(selected[0], job) then Some(selected[0])
    else FirstMatch(selected[1..], job)
  }

  /** One explanation after the defaults and the description merge. A
      non-dict explanation has no `setdefault`, which raises. */
  function MergeBack(selected: seq<Dict>, expl: Json): (r: Result<Dict, string>)
    ensures expl.JObj? <==> r.Ok?
    ensures r.Ok? ==> forall k :: k in LlmJobFilter.WithDefaults(expl.fields) && k != "description" ==>
              k in r.value && r.value[k] == LlmJobFilter.WithDefaults(expl.fields)[k]
    ensures r.Ok? ==> r.value.Keys == LlmJobFilter.WithDefaults(expl.fields).Keys
                                      + (if FirstMatch(selected, expl.fields).Some? &&
                                            FirstMatch(selected, expl.fields).value != map[] then {"description"} else {})
  {
    if !expl.JObj? then Err("AttributeError")
    else
      var job := LlmJobFilter.WithDefaults(expl.fields);
      match FirstMatch(selected, expl.fields)
      case Some(m) =>
        if m != map[] then Ok(job["description" := LlmJobFilter.GetOrEmpty(m, "description")]) else Ok(job)
      case None => Ok(job)
  }

  function MergeAll(selected: seq<Dict>, expls: seq<Json>): (r: Result<seq<Dict>, string>)
    ensures r.Ok? <==> forall i :: 0 <= i < |expls| ==> expls[i].JObj?
    ensures r.Ok? ==> |r.value| == |expls| && forall i :: 0 <= i < |expls| ==> MergeBack(selected, expls[i]) == Ok(r.value[i])
  {
    if expls == [] then Ok([])
    else
      match MergeBack(selected, expls[0])
      case Err(e) => Err(e)
      case Ok(first) =>
        match MergeAll(selected, expls[1..])
        case Err(e) =>
          assert !expls[1..][FirstNonDict(expls[1..])].JObj?;
          Err(e)
        case Ok(rest) =>
          OkPointwiseCons(expls, x => MergeBack(selected, x), first, rest);
          Ok([first] + rest)
  }

  /** The index of a non-dict element, when there is one. */
  function FirstNonDict(xs: seq<Json>): (k: nat)
    requires exists i :: 0 <= i < |xs| && !xs[i].JObj?
    ensures k < |xs| && !xs[k].JObj?
  {
    if !xs[0].JObj? then 0 else 1 + FirstNonDict(xs[1..])
  }

  /** `filter_and_explain_top_jobs_two_step(jobs, ..., batch_size)` given the
      index reply and the batch oracle. */
  function FilterAndExplainTwoStep(jobs: seq<Dict>, indexReply: string, batchSize: int,
                                   llm: seq<Dict> -> string, decode: string -> Option<Json>)
    : (r: Result<seq<Dict>, string>)
    ensures !DescriptionsSliceable(jobs) ==> r == Err("TypeError")
    ensures DescriptionsSliceable(jobs) && ParseIndices(indexReply, decode) == [] ==> r == Ok([])
    ensures DescriptionsSliceable(jobs) && ParseIndices(indexReply, decode) != [] && batchSize == 0 ==> r.Err?
    ensures DescriptionsSliceable(jobs) && ParseIndices(indexReply, decode) != [] && batchSize != 0 ==>
              var selected := SelectJobs(jobs, ParseIndices(indexReply, decode));
              ExplainInBatches(selected, batchSize, llm, decode).Ok?
              && r == MergeAll(selected, ExplainInBatches(selected, batchSize, llm, decode).value)
    ensures r.Ok? ==> forall i :: 0 <= i < |r.value| ==>
              "url" in r.value[i] && "score" in r.value[i] && "explanation" in r.value[i]
  {
    match SelectTopJobIndices(jobs, indexReply, decode)
    case Err(e) => Err(e)
    case Ok(indices) =>
      if indices == [] then Ok([])
      else
        var selected := SelectJobs(jobs, indices);
        match ExplainInBatches(selected, batchSize, llm, decode)
        case Err(e) => Err(e)
        case Ok(expls) => MergeAll(selected, expls)
  }

  /** With a positive batch size the result is the batches' explanations,
      in batch order, each merged with its selected job; a single non-dict
      explanation makes the whole call raise. */
  lemma TwoStepIsMergeOfExplanations(jobs: seq<Dict>, indexReply: string, batchSize: int,
                                     llm: seq<Dict> -> string, decode: string -> Option<Json>)
    requires DescriptionsSliceable(jobs) && ParseIndices(indexReply, decode) != [] && batchSize > 0
    ensures var selected := SelectJobs(jobs, ParseIndices(indexReply, decode));
            var expls := Concat(Replies(Chunks(selected, batchSize), llm, decode));
            var r := FilterAndExplainTwoStep(jobs, indexReply, batchSize, llm, decode);
            (r.Ok? <==> forall i :: 0 <= i < |expls| ==> expls[i].JObj?)
            && (r.Ok? ==> |r.value| == |expls|
                          && forall i :: 0 <= i < |expls| ==> MergeBack(selected, expls[i]) == Ok(r.value[i]))
  {
  }

  /** A job whose description is `None` makes the call raise, whatever the
      model would have answered. */
  lemma NullDescriptionRaises(jobs: seq<Dict>, k: nat, indexReply: string, batchSize: int,
                              llm: seq<Dict> -> string, decode: string -> Option<Json>)
    requires k < |jobs| && "description" in jobs[k] && jobs[k]["description"] == JNull
    ensures SelectTopJobIndices(jobs, indexReply, decode) == Err("TypeError")
    ensures FilterAndExplainTwoStep(jobs, indexReply, batchSize, llm, decode) == Err("TypeError")
  {
    assert !Sliceable(LlmJobFilter.GetOrEmpty(jobs[k], "description"));
  }

  /** Jobs without a description, or with a string one, never stop the
      prompt from being built. */
  lemma StringDescriptionsAreSliceable(jobs: seq<Dict>)
    requires forall i :: 0 <= i < |jobs| ==> "description" !in jobs[i] || jobs[i]["description"].JStr?
    ensures DescriptionsSliceable(jobs)
    ensures forall response, decode :: SelectTopJobIndices(jobs, response, decode).Ok?
  {
  }

  /** A merged explanation carries the description of the first selected
      job it names, and keeps every other value the model gave. */
  lemma MergeTakesFirstMatchDescription(selected: seq<Dict>, fields: Dict, k: nat)
    requires k < |selected| && SameJob(selected[k], fields) && selected[k] != map[]
    requires forall j :: 0 <= j < k ==> !SameJob(selected[j], fields)
    ensures var r := MergeBack(selected, JObj(fields));
            r.Ok? && "description" in r.value && r.value["description"] == LlmJobFilter.GetOrEmpty(selected[k], "description")
            && forall key :: key in fields && key != "description" ==> r.value[key] == fields[key]
  {
    FirstMatchIsFirst(selected, fields, k);
  }

  /** A selected job with `"location": null` matches an explanation that
      has no location at all, and lends it its description. */
  lemma AbsentMatchesNull(title: Json, company: Json, d: Json)
    ensures var sel := map["title" := title, "company" := company, "location" := JNull, "description" := d];
            var expl := map["title" := title, "company" := company, "explanation" := JStr("fit")];
            FirstMatch([sel], expl) == Some(sel)
            && MergeBack([sel], JObj(expl)).Ok? && MergeBack([sel], JObj(expl)).value["description"] == d
  {
    var sel := map["title" := title, "company" := company, "location" := JNull, "description" := d];
    var expl := map["title" := title, "company" := company, "explanation" := JStr("fit")];
    assert GetOrNull(expl, "location") == JNull by { assert "location" !in expl; }
    assert SameJob(sel, expl);
    assert FirstMatch([sel], expl) == Some(sel);
    assert LlmJobFilter.GetOrEmpty(sel, "description") == d by { assert "description" in sel; }
  }

  lemma {:induction false} FirstMatchIsFirst(selected: seq<Dict>, job: Dict, k: nat)
    requires k < |selected| && SameJob(selected[k], job)
    requires forall j :: 0 <= j < k ==> !SameJob(selected[j], job)
    ensures FirstMatch(selected, job) == Some(selected[k])
    decreases k
  {
    if k > 0 {
      FirstMatchIsFirst(selected[1..], job, k - 1);
    }
  }
}

=== FILE: merge.dfy ===
/** `merge_resume_chunks` and `merge_jd_chunks` of
    `openai_resume_jd_parsing.py`: the merge of the parses of several resume
    or job-description chunks into one.

  Both grow each list with `merged[field].extend(v for v in val if v not in
  merged[field])`. The generator is consumed while the list grows, so a
  value is skipped when it is already in the list, including when an
  earlier value of the same chunk put it there: each field keeps the first
  occurrence of every value (`AppendNew`). Equality is the structural
  equality of `Json`.
 */
module Merge {
  import opened Wrappers
  import opened Json
  import Text

  // ---------------------------------------------------------------------
  // Order-preserving duplicate removal

  predicate Distinct(xs: seq<Json>) {
    forall i, j :: 0 <= i < j < |xs| ==> xs[i] != xs[j]
  }

  function Elems(xs: seq<Json>): set<Json> {
    set x | x in xs
  }

  /** The elements of `xs` outside `s`, in order. */
  function Without(xs: seq<Json>, s: set<Json>): (r: seq<Json>)
    ensures forall x :: x in r <==> x in xs && x !in s
    ensures |r| <= |xs|
  {
    if xs == [] then []
    else (if xs[0] in s then [] else [xs[0]]) + Without(xs[1..], s)
  }

  /** The first occurrence of every element, in order: each element is
      kept and its later copies are filtered out of the rest. */
  function Nub(xs: seq<Json>): (r: seq<Json>)
    ensures Distinct(r)
    ensures forall x :: x in r <==> x in xs
    decreases |xs|
  {
    if xs == [] then []
    else
      var rest := Nub(Without(xs[1..], {xs[0]}));
      assert xs[0] !in rest;
      [xs[0]] + rest
  }

  /** `acc.extend(v for v in vals if v not in acc)`. */
  function AppendNew(acc: seq<Json>, vals: seq<Json>): (r: seq<Json>)
    ensures Distinct(acc) ==> Distinct(r)
    ensures forall x :: x in r <==> x in acc || x in vals
    ensures |acc| <= |r| && r[..|acc|] == acc
    decreases |vals|
  {
    if vals == [] then acc
    else if vals[0] in acc then AppendNew(acc, vals[1..])
    else
      var acc' := acc + [vals[0]];
      assert acc'[..|acc|] == acc;
      AppendNew(acc', vals[1..])
  }

  lemma {:induction false} WithoutWithout(xs: seq<Json>, s: set<Json>, t: set<Json>)
    ensures Without(Without(xs, s), t) == Without(xs, s + t)
    decreases |xs|
  {
    if xs != [] {
      WithoutWithout(xs[1..], s, t);
      var head := if xs[0] in s then [] else [xs[0]];
      assert Without(xs, s) == head + Without(xs[1..], s);
      WithoutAppend(head, Without(xs[1..], s), t);
    }
  }

  lemma {:induction false} WithoutAppend(a: seq<Json>, b: seq<Json>, s: set<Json>)
    ensures Without(a + b, s) == Without(a, s) + Without(b, s)
    decreases |a|
  {
    if a == [] {
      assert a + b == b;
    } else {
      assert (a + b)[0] == a[0] && (a + b)[1..] == a[1..] + b;
      WithoutAppend(a[1..], b, s);
    }
  }

  lemma WithoutNothing(xs: seq<Json>)
    ensures Without(xs, {}) == xs
  {
  }

  /** The extension adds to `acc` the first occurrences of the values not
      already in it. */
  lemma {:induction false} AppendNewIsNub(acc: seq<Json>, vals: seq<Json>)
    ensures AppendNew(acc, vals) == acc + Nub(Without(vals, Elems(acc)))
    decreases |vals|
  {
    if vals != [] {
      var v := vals[0];
      var rest := vals[1..];
      if v in acc {
        AppendNewIsNub(acc, rest);
        assert Without(vals, Elems(acc)) == Without(rest, Elems(acc));
      } else {
        var acc' := acc + [v];
        AppendNewIsNub(acc', rest);
        NubOfNewHead(acc, vals);
        Text.AppendAssoc(acc, [v], Nub(Without(rest, Elems(acc'))));
      }
    }
  }

  /** A value not yet held heads the first occurrences of what is new, and
      the rest are new relative to the list with it appended. */
  lemma NubOfNewHead(acc: seq<Json>, vals: seq<Json>)
    requires vals != [] && vals[0] !in acc
    ensures Nub(Without(vals, Elems(acc))) == [vals[0]] + Nub(Without(vals[1..], Elems(acc + [vals[0]])))
  {
    var v := vals[0];
    assert Elems(acc + [v]) == Elems(acc) + {v};
    assert Without(vals, Elems(acc)) == [v] + Without(vals[1..], Elems(acc));
    WithoutWithout(vals[1..], Elems(acc), {v});
  }

  /** From an empty list the extension is exactly `Nub`. */
  lemma AppendNewFromEmpty(vals: seq<Json>)
    ensures AppendNew([], vals) == Nub(vals)
  {
    AppendNewIsNub([], vals);
    assert Elems([]) == {};
    WithoutNothing(vals);
  }

  /** Extending by `a + b` is extending by `a`, then by `b`. */
  lemma {:induction false} AppendNewConcat(acc: seq<Json>, a: seq<Json>, b: seq<Json>)
    ensures AppendNew(acc, a + b) == AppendNew(AppendNew(acc, a), b)
    decreases |a|
  {
    if a == [] {
      assert a + b == b;
    } else {
      assert (a + b)[0] == a[0] && (a + b)[1..] == a[1..] + b;
      if a[0] in acc {
        AppendNewConcat(acc, a[1..], b);
      } else {
        AppendNewConcat(acc + [a[0]], a[1..], b);
      }
    }
  }

  /** Values that are already distinct and new are all appended. */
  lemma {:induction false} AppendNewDistinct(acc: seq<Json>, vals: seq<Json>)
    requires Distinct(acc + vals)
    ensures AppendNew(acc, vals) == acc + vals
    decreases |vals|
  {
    if vals != [] {
      assert (acc + vals)[|acc|] == vals[0];
      assert forall i :: 0 <= i < |acc| ==> (acc + vals)[i] == acc[i];
      assert vals[0] !in acc;
      assert acc + vals == (acc + [vals[0]]) + vals[1..];
      AppendNewDistinct(acc + [vals[0]], vals[1..]);
    }
  }

  /** `list(dict.fromkeys(xs))` keeps a distinct list as it is. */
  lemma NubOfDistinct(xs: seq<Json>)
    requires Distinct(xs)
    ensures Nub(xs) == xs
  {
    AppendNewFromEmpty(xs);
    assert [] + xs == xs;
    AppendNewDistinct([], xs);
  }

  // ---------------------------------------------------------------------
  // merge_resume_chunks

  const ResumeFields: seq<string> :=
    ["positions", "skills", "achievements", "education", "certifications", "languages", "publications"]

  /** The fields that go through `list(dict.fromkeys(...))` afterwards. */
  const SimpleFields: seq<string> := ["skills", "certifications", "languages", "publications"]

  /** The values a chunk contributes to `field`: its list when the value is
      a non-empty list, nothing otherwise. */
  function ListValue(chunk: Dict, field: string): (r: seq<Json>)
    ensures r != [] <==> TruthyAt(chunk, field) && chunk[field].JArr?
    ensures r != [] ==> r == chunk[field].items
  {
    if TruthyAt(chunk, field) && chunk[field].JArr? then chunk[field].items else []
  }

  /** The contributions of all chunks to `field`, in chunk order. */
  function Contributions(chunks: seq<Dict>, field: string): seq<Json> {
    if chunks == [] then [] else ListValue(chunks[0], field) + Contributions(chunks[1..], field)
  }

  /** The loop for one field; the loops of the other fields never touch
      it, so the source's field-inside-chunk nesting gives the same lists. */
  function MergeField(chunks: seq<Dict>, field: string, acc: seq<Json>): (r: seq<Json>)
    ensures Distinct(acc) ==> Distinct(r)
    decreases |chunks|
  {
    if chunks == [] then acc
    else MergeField(chunks[1..], field, AppendNew(acc, ListValue(chunks[0], field)))
  }

  lemma {:induction false} MergeFieldAppends(chunks: seq<Dict>, field: string, acc: seq<Json>)
    ensures MergeField(chunks, field, acc) == AppendNew(acc, Contributions(chunks, field))
    decreases |chunks|
  {
    if chunks != [] {
      MergeFieldAppends(chunks[1..], field, AppendNew(acc, ListValue(chunks[0], field)));
      AppendNewConcat(acc, ListValue(chunks[0], field), Contributions(chunks[1..], field));
    }
  }

  /** Each merged field holds the first occurrence of every contributed
      value, in chunk order. */
  lemma MergedField(chunks: seq<Dict>, field: string)
    ensures MergeField(chunks, field, []) == Nub(Contributions(chunks, field))
    ensures Distinct(MergeField(chunks, field, []))
  {
    MergeFieldAppends(chunks, field, []);
    AppendNewFromEmpty(Contributions(chunks, field));
  }

  /** Python lists and dicts cannot be dictionary keys. */
  predicate Hashable(j: Json) {
    !j.JArr? && !j.JObj?
  }

  predicate AllHashable(xs: seq<Json>) {
    forall i :: 0 <= i < |xs| ==> Hashable(xs[i])
  }

  /** `list(dict.fromkeys(xs))`: `TypeError` for an unhashable element,
      else the first occurrences in order. */
  function FromKeys(xs: seq<Json>): (r: Result<seq<Json>, string>)
    ensures r.Err? <==> !AllHashable(xs)
    ensures r.Ok? ==> r.value == Nub(xs)
  {
    AppendNewFromEmpty(xs);
    if AllHashable(xs) then Ok(AppendNew([], xs)) else Err("TypeError")
  }

  /** `merged[field] = list(dict.fromkeys(merged[field]))`. */
  function Refresh(m: Dict, field: string): (r: Result<Dict, string>)
    requires field in m && m[field].JArr?
    ensures r.Err? <==> !AllHashable(m[field].items)
    ensures r.Ok? ==> r.value == m[field := JArr(Nub(m[field].items))]
  {
    match FromKeys(m[field].items)
    case Err(e) => Err(e)
    case Ok(v) => Ok(m[field := JArr(v)])
  }

  /** Merged lists are distinct, so the `dict.fromkeys` pass changes
      nothing unless it fails. */
  lemma RefreshKeeps(m: Dict, field: string)
    requires field in m && m[field].JArr? && Distinct(m[field].items)
    ensures Refresh(m, field).Ok? ==> Refresh(m, field).value == m
  {
    NubOfDistinct(m[field].items);
    assert m[field := JArr(m[field].items)] == m;
  }

  /** The merged lists of the seven fields, after the loop. */
  function Lists(chunks: seq<Dict>): Dict {
    map f | f in ResumeFields :: JArr(MergeField(chunks, f, []))
  }

  /** What the merge promises: every field holds the first occurrence of
      each value its chunks contribute. */
  function Expected(chunks: seq<Dict>): Dict {
    map f | f in ResumeFields :: JArr(Nub(Contributions(chunks, f)))
  }

  /** Some `dict.fromkeys` pass meets a list or an object. */
  predicate Unhashable(chunks: seq<Dict>) {
    !AllHashable(Contributions(chunks, "skills")) || !AllHashable(Contributions(chunks, "certifications"))
    || !AllHashable(Contributions(chunks, "languages")) || !AllHashable(Contributions(chunks, "publications"))
  }

  lemma ListsAreExpected(chunks: seq<Dict>)
    ensures Lists(chunks) == Expected(chunks)
  {
    forall f | f in ResumeFields
      ensures MergeField(chunks, f, []) == Nub(Contributions(chunks, f))
    {
      MergedField(chunks, f);
    }
  }

  /** The facts about one simple field that the merge relies on. */
  lemma SimpleField(chunks: seq<Dict>, m: Dict, f: string)
    requires m == Lists(chunks) && f in ResumeFields
    ensures f in m && m[f].JArr? && Distinct(m[f].items)
    ensures AllHashable(m[f].items) <==> AllHashable(Contributions(chunks, f))
  {
    MergedField(chunks, f);
    SameElemsHashable(MergeField(chunks, f, []), Contributions(chunks, f));
  }

  /** `merge_resume_chunks(parsed_chunks)`. */
  function MergeResumeChunks(chunks: seq<Dict>): (r: Result<Dict, string>)
    ensures r.Err? <==> Unhashable(chunks)
    ensures r.Ok? ==> r.value == Expected(chunks)
    ensures r.Ok? ==> forall k :: k in r.value <==> k in ResumeFields
  {
    var m := Lists(chunks);
    ListsAreExpected(chunks);
    SimpleField(chunks, m, "skills");
    SimpleField(chunks, m, "certifications");
    SimpleField(chunks, m, "languages");
    SimpleField(chunks, m, "publications");
    RefreshKeeps(m, "skills");
    RefreshKeeps(m, "certifications");
    RefreshKeeps(m, "languages");
    RefreshKeeps(m, "publications");
    match Refresh(m, "skills")
    case Err(e) => Err(e)
    case Ok(m1) =>
      match Refresh(m1, "certifications")
      case Err(e) => Err(e)
      case Ok(m2) =>
        match Refresh(m2, "languages")
        case Err(e) => Err(e)
        case Ok(m3) => Refresh(m3, "publications")
  }

  lemma SameElemsHashable(a: seq<Json>, b: seq<Json>)
    requires forall x :: x in a <==> x in b
    ensures AllHashable(a) <==> AllHashable(b)
  {
    if AllHashable(a) {
      forall i | 0 <= i < |b|
        ensures Hashable(b[i])
      {
        assert b[i] in a;
      }
    }
    if AllHashable(b) {
      forall i | 0 <= i < |a|
        ensures Hashable(a[i])
      {
        assert a[i] in b;
      }
    }
  }

  /** Merging no chunks gives the seven empty lists. */
  lemma NoResumeChunks()
    ensures MergeResumeChunks([]) == Ok(map f | f in ResumeFields :: JArr([]))
  {
    assert !Unhashable([]);
    assert Expected([]) == map f | f in ResumeFields :: JArr([]);
  }

  // ---------------------------------------------------------------------
  // merge_jd_chunks

  datatype MergedJd = MergedJd(roleTitle: Json, requirements: seq<Json>, responsibilities: seq<Json>)

  const EmptyJd: MergedJd := MergedJd(JStr(""), [], [])

  /** A value `for v in val` can walk: lists, strings and objects. */
  predicate Iterable(j: Json) {
    j.JArr? || j.JStr? || j.JObj?
  }

  /** The one-character strings of `s`, what iterating a string yields. */
  function Chars(s: string): (r: seq<Json>)
    ensures |r| == |s| && forall i :: 0 <= i < |s| ==> r[i] == JStr([s[i]])
  {
    seq(|s|, i requires 0 <= i < |s| => JStr([s[i]]))
  }

  /** `for v in val`: a list yields its items, a string its characters, an
      object its keys in insertion order (given by `keyOrder`, since `Dict`
      does not record it); anything else raises `TypeError`. */
  function Iterate(val: Json, keyOrder: Dict -> seq<string>): (r: Result<seq<Json>, string>)
    ensures r.Ok? <==> Iterable(val)
    ensures val.JArr? ==> r == Ok(val.items)
  {
    match val
    case JArr(items) => Ok(items)
    case JStr(s) => Ok(Chars(s))
    case JObj(fields) => Ok(seq(|keyOrder(fields)|, i requires 0 <= i < |keyOrder(fields)| => JStr(keyOrder(fields)[i])))
    case _ => Err("TypeError")
  }

  /** `if val: merged[field].extend(...)` for one chunk and field. */
  function ExtendField(acc: seq<Json>, chunk: Dict, field: string, keyOrder: Dict -> seq<string>): (r: Result<seq<Json>, string>)
    ensures r.Err? <==> TruthyAt(chunk, field) && !Iterable(chunk[field])
    ensures r.Ok? && Distinct(acc) ==> Distinct(r.value)
    ensures r.Ok? ==> |acc| <= |r.value| && r.value[..|acc|] == acc
  {
    if TruthyAt(chunk, field) then
      match Iterate(chunk[field], keyOrder)
      case Err(e) => Err(e)
      case Ok(vs) => Ok(AppendNew(acc, vs))
    else Ok(acc)
  }

  /** A chunk whose requirements or responsibilities are truthy but cannot
      be iterated. */
  predicate BadChunk(chunk: Dict) {
    (TruthyAt(chunk, "requirements") && !Iterable(chunk["requirements"]))
    || (TruthyAt(chunk, "responsibilities") && !Iterable(chunk["responsibilities"]))
  }

  /** One iteration of the loop over the chunks. */
  function JdStep(st: MergedJd, chunk: Dict, keyOrder: Dict -> seq<string>): (r: Result<MergedJd, string>)
    ensures r.Err? <==> BadChunk(chunk)
    ensures r.Ok? ==> r.value.roleTitle
                      == if !Truthy(st.roleTitle) && TruthyAt(chunk, "role_title") then chunk["role_title"] else st.roleTitle
    ensures r.Ok? && Distinct(st.requirements) ==> Distinct(r.value.requirements)
    ensures r.Ok? && Distinct(st.responsibilities) ==> Distinct(r.value.responsibilities)
  {
    var title := if !Truthy(st.roleTitle) && TruthyAt(chunk, "role_title") then chunk["role_title"] else st.roleTitle;
    match ExtendField(st.requirements, chunk, "requirements", keyOrder)
    case Err(e) => Err(e)
    case Ok(reqs) =>
      match ExtendField(st.responsibilities, chunk, "responsibilities", keyOrder)
      case Err(e) => Err(e)
      case Ok(resps) => Ok(MergedJd(title, reqs, resps))
  }

  function MergeJdFrom(chunks: seq<Dict>, st: MergedJd, keyOrder: Dict -> seq<string>): (r: Result<MergedJd, string>)
    ensures r.Ok? && Distinct(st.requirements) && Distinct(st.responsibilities) ==>
              Distinct(r.value.requirements) && Distinct(r.value.responsibilities)
    decreases |chunks|
  {
    if chunks == [] then Ok(st)
    else
      match JdStep(st, chunks[0], keyOrder)
      case Err(e) => Err(e)
      case Ok(st') => MergeJdFrom(chunks[1..], st', keyOrder)
  }

  /** `merge_jd_chunks(parsed_chunks)`. */
  function MergeJdChunks(chunks: seq<Dict>, keyOrder: Dict -> seq<string>): (r: Result<MergedJd, string>)
    ensures chunks == [] ==> r == Ok(EmptyJd)
    ensures r.Ok? ==> Distinct(r.value.requirements) && Distinct(r.value.responsibilities)
  {
    MergeJdFrom(chunks, EmptyJd, keyOrder)
  }

  /** The first truthy `role_title` of the chunks, else `dflt`. */
  function FirstTitle(chunks: seq<Dict>, dflt: Json): Json {
    if chunks == [] then dflt
    else if TruthyAt(chunks[0], "role_title") then chunks[0]["role_title"]
    else FirstTitle(chunks[1..], dflt)
  }

  lemma {:induction false} TitleFrom(chunks: seq<Dict>, st: MergedJd, keyOrder: Dict -> seq<string>)
    ensures MergeJdFrom(chunks, st, keyOrder).Ok? ==>
              MergeJdFrom(chunks, st, keyOrder).value.roleTitle
              == if Truthy(st.roleTitle) then st.roleTitle else FirstTitle(chunks, st.roleTitle)
    decreases |chunks|
  {
    if chunks != [] {
      var r := JdStep(st, chunks[0], keyOrder);
      if r.Ok? {
        TitleFrom(chunks[1..], r.value, keyOrder);
      }
    }
  }

  /** The merged role title is the first non-empty one, else "". */
  lemma JdTitle(chunks: seq<Dict>, keyOrder: Dict -> seq<string>)
    ensures MergeJdChunks(chunks, keyOrder).Ok? ==>
              MergeJdChunks(chunks, keyOrder).value.roleTitle == FirstTitle(chunks, JStr(""))
  {
    TitleFrom(chunks, EmptyJd, keyOrder);
  }

  lemma {:induction false} FailsFrom(chunks: seq<Dict>, st: MergedJd, keyOrder: Dict -> seq<string>)
    ensures MergeJdFrom(chunks, st, keyOrder).Err? <==> exists i :: 0 <= i < |chunks| && BadChunk(chunks[i])
    decreases |chunks|
  {
    if chunks != [] {
      var r := JdStep(st, chunks[0], keyOrder);
      if r.Ok? {
        FailsFrom(chunks[1..], r.value, keyOrder);
        assert (exists i :: 0 <= i < |chunks| && BadChunk(chunks[i]))
               <==> exists i :: 0 <= i < |chunks[1..]| && BadChunk(chunks[1..][i]) by {
          if exists i :: 0 <= i < |chunks| && BadChunk(chunks[i]) {
            var i :| 0 <= i < |chunks| && BadChunk(chunks[i]);
            assert i > 0 && chunks[1..][i - 1] == chunks[i];
          }
          if exists i :: 0 <= i < |chunks[1..]| && BadChunk(chunks[1..][i]) {
            var i :| 0 <= i < |chunks[1..]| && BadChunk(chunks[1..][i]);
            assert chunks[i + 1] == chunks[1..][i];
          }
        }
      }
    }
  }

  /** The merge fails exactly when some chunk holds a truthy requirements
      or responsibilities value that is not iterable (a number or `true`). */
  lemma JdFails(chunks: seq<Dict>, keyOrder: Dict -> seq<string>)
    ensures MergeJdChunks(chunks, keyOrder).Err? <==> exists i :: 0 <= i < |chunks| && BadChunk(chunks[i])
  {
    FailsFrom(chunks, EmptyJd, keyOrder);
  }

  /** A chunk whose two list fields are lists, absent or falsy. */
  predicate ListsOnly(chunk: Dict) {
    (TruthyAt(chunk, "requirements") ==> chunk["requirements"].JArr?)
    && (TruthyAt(chunk, "responsibilities") ==> chunk["responsibilities"].JArr?)
  }

  lemma {:induction false} ListsFrom(chunks: seq<Dict>, st: MergedJd, keyOrder: Dict -> seq<string>)
    requires forall i :: 0 <= i < |chunks| ==> ListsOnly(chunks[i])
    ensures MergeJdFrom(chunks, st, keyOrder).Ok?
    ensures MergeJdFrom(chunks, st, keyOrder).value.requirements
            == AppendNew(st.requirements, Contributions(chunks, "requirements"))
    ensures MergeJdFrom(chunks, st, keyOrder).value.responsibilities
            == AppendNew(st.responsibilities, Contributions(chunks, "responsibilities"))
    decreases |chunks|
  {
    if chunks != [] {
      var c := chunks[0];
      var st' := MergedJd(if !Truthy(st.roleTitle) && TruthyAt(c, "role_title") then c["role_title"] else st.roleTitle,
                          AppendNew(st.requirements, ListValue(c, "requirements")),
                          AppendNew(st.responsibilities, ListValue(c, "responsibilities")));
      assert JdStep(st, c, keyOrder) == Ok(st');
      ListsFrom(chunks[1..], st', keyOrder);
      AppendNewConcat(st.requirements, ListValue(c, "requirements"), Contributions(chunks[1..], "requirements"));
      AppendNewConcat(st.responsibilities, ListValue(c, "responsibilities"), Contributions(chunks[1..], "responsibilities"));
    }
  }

  /** With list values only, the merge succeeds and each field holds the
      first occurrence of every contributed value, in chunk order. */
  lemma JdLists(chunks: seq<Dict>, keyOrder: Dict -> seq<string>)
    requires forall i :: 0 <= i < |chunks| ==> ListsOnly(chunks[i])
    ensures MergeJdChunks(chunks, keyOrder).Ok?
    ensures MergeJdChunks(chunks, keyOrder).value.requirements == Nub(Contributions(chunks, "requirements"))
    ensures MergeJdChunks(chunks, keyOrder).value.responsibilities == Nub(Contributions(chunks, "responsibilities"))
  {
    ListsFrom(chunks, EmptyJd, keyOrder);
    AppendNewFromEmpty(Contributions(chunks, "requirements"));
    AppendNewFromEmpty(Contributions(chunks, "responsibilities"));
  }

  /** No type check guards the job-description merge: a string value is
      merged character by character. */
  lemma StringRequirementIsSplit(keyOrder: Dict -> seq<string>)
    ensures MergeJdChunks([map["requirements" := JStr("Go")]], keyOrder)
            == Ok(MergedJd(JStr(""), [JStr("G"), JStr("o")], []))
  {
    var c: Dict := map["requirements" := JStr("Go")];
    assert Chars("Go") == [JStr("G"), JStr("o")];
    assert AppendNew([], [JStr("G"), JStr("o")]) == [JStr("G"), JStr("o")] by {
      AppendNewDistinct([], [JStr("G"), JStr("o")]);
    }
    assert JdStep(EmptyJd, c, keyOrder) == Ok(MergedJd(JStr(""), [JStr("G"), JStr("o")], []));
  }
}

=== FILE: prep_store.dfy ===
/** The interview-prep wizard store of
    `frontend/src/store/interview-prep-store.ts`: a zustand store whose
    `set` calls become pure transitions `State -> State`.

  zustand merges a partial object into the state; each transition below is
  that merge. The console logging of the setters is left out. `persist`
  writes `partialize(state)` to local storage; reading it back merges the
  stored fields into the current state (`Rehydrate`, zustand's default
  shallow merge).
 */
module PrepStore {
  import opened Steps

  datatype ViewMode = Quick | Deep

  datatype State = State(
    resume: string,
    jobDescription: string,
    companyName: string,
    industry: string,
    currentStep: int,
    progress: int,
    completedSteps: seq<int>,
    viewMode: ViewMode,
    isGeneratingGuide: bool,
    shouldGenerateGuide: bool)

  const Initial: State := State("", "", "", "", 0, 0, [], Quick, false, false)

  /** The step list has no duplicates and the percentage agrees with it. */
  predicate Consistent(s: State) {
    Distinct(s.completedSteps) && s.progress == Progress(|s.completedSteps|)
  }

  /** `markStepComplete(step)`: the step is added once, the percentage is
      recomputed, and nothing else changes. */
  function MarkStepComplete(s: State, step: int): (r: State)
    ensures forall x :: x in r.completedSteps <==> x in s.completedSteps || x == step
    ensures |s.completedSteps| <= |r.completedSteps| <= |s.completedSteps| + 1
    ensures r.progress == Progress(|r.completedSteps|)
    ensures Distinct(s.completedSteps) ==> Distinct(r.completedSteps)
    ensures r.(completedSteps := s.completedSteps, progress := s.progress) == s
  {
    var steps := MarkStep(s.completedSteps, step);
    s.(completedSteps := steps, progress := Progress(|steps|))
  }

  /** A repeated `markStepComplete(step)` changes nothing. */
  lemma MarkStepCompleteIdempotent(s: State, step: int)
    ensures MarkStepComplete(MarkStepComplete(s, step), step) == MarkStepComplete(s, step)
  {
    MarkStepIdempotent(s.completedSteps, step);
  }

  function SetResume(s: State, resume: string): State {
    s.(resume := resume)
  }

  function SetJobDescription(s: State, jobDescription: string): State {
    s.(jobDescription := jobDescription)
  }

  function SetCompanyName(s: State, companyName: string): State {
    s.(companyName := companyName)
  }

  function SetIndustry(s: State, industry: string): State {
    s.(industry := industry)
  }

  function SetCurrentStep(s: State, currentStep: int): State {
    s.(currentStep := currentStep)
  }

  function SetViewMode(s: State, viewMode: ViewMode): State {
    s.(viewMode := viewMode)
  }

  function SetIsGeneratingGuide(s: State, isGenerating: bool): State {
    s.(isGeneratingGuide := isGenerating)
  }

  function SetShouldGenerateGuide(s: State, shouldGenerate: bool): State {
    s.(shouldGenerateGuide := shouldGenerate)
  }

  /** `resetStore()`: `set(initialState)` replaces every data field. */
  function ResetStore(s: State): (r: State)
    ensures Consistent(r) && r.completedSteps == [] && r.progress == 0
    ensures r.resume == "" && r.jobDescription == "" && r.companyName == "" && r.industry == ""
    ensures r.currentStep == 0 && r.viewMode == Quick && !r.isGeneratingGuide && !r.shouldGenerateGuide
  {
    Initial
  }

  /** A store call, one constructor per action. */
  datatype Call =
    | Resume(text: string)
    | JobDescription(text: string)
    | CompanyName(text: string)
    | Industry(text: string)
    | CurrentStep(step: int)
    | StepComplete(step: int)
    | View(mode: ViewMode)
    | Reset
    | Generating(flag: bool)
    | ShouldGenerate(flag: bool)

  function Apply(s: State, c: Call): State {
    match c
    case Resume(t) => SetResume(s, t)
    case JobDescription(t) => SetJobDescription(s, t)
    case CompanyName(t) => SetCompanyName(s, t)
    case Industry(t) => SetIndustry(s, t)
    case CurrentStep(k) => SetCurrentStep(s, k)
    case StepComplete(k) => MarkStepComplete(s, k)
    case View(m) => SetViewMode(s, m)
    case Reset => ResetStore(s)
    case Generating(b) => SetIsGeneratingGuide(s, b)
    case ShouldGenerate(b) => SetShouldGenerateGuide(s, b)
  }

  /** The state after a sequence of calls. */
  function Run(s: State, calls: seq<Call>): State
    decreases |calls|
  {
    if calls == [] then s else Run(Apply(s, calls[0]), calls[1..])
  }

  /** Only `markStepComplete` and `resetStore` touch the steps or the
      percentage; every other setter keeps both. */
  lemma SettersKeepProgress(s: State, c: Call)
    requires !c.StepComplete? && !c.Reset?
    ensures Apply(s, c).completedSteps == s.completedSteps && Apply(s, c).progress == s.progress
  {
  }

  /** `setCurrentStep` and `setViewMode` change their own field and no
      other: putting the old value back gives the old state. */
  lemma SettersAreLocal(s: State, step: int, mode: ViewMode)
    ensures SetCurrentStep(s, step).currentStep == step
    ensures SetCurrentStep(s, step).(currentStep := s.currentStep) == s
    ensures SetViewMode(s, mode).viewMode == mode
    ensures SetViewMode(s, mode).(viewMode := s.viewMode) == s
  {
  }

  /** Every call keeps the state consistent. */
  lemma ApplyConsistent(s: State, c: Call)
    requires Consistent(s)
    ensures Consistent(Apply(s, c))
  {
  }

  /** Every state the store can reach from its initial state is
      consistent: no step is listed twice and the percentage matches. */
  lemma {:induction false} RunConsistent(s: State, calls: seq<Call>)
    requires Consistent(s)
    ensures Consistent(Run(s, calls))
    decreases |calls|
  {
    if calls != [] {
      ApplyConsistent(s, calls[0]);
      RunConsistent(Apply(s, calls[0]), calls[1..]);
    }
  }

  /** Steps the wizard marks lie in `0..10`. */
  predicate WizardSteps(s: State) {
    forall i :: 0 <= i < |s.completedSteps| ==> 0 <= s.completedSteps[i] < TotalSteps
  }

  predicate WizardCall(c: Call) {
    c.StepComplete? ==> 0 <= c.step < TotalSteps
  }

  /** As long as only the wizard's own steps are marked, the percentage
      never exceeds 100. */
  lemma {:induction false} WizardProgressAtMost100(s: State, calls: seq<Call>)
    requires Consistent(s) && WizardSteps(s)
    requires forall i :: 0 <= i < |calls| ==> WizardCall(calls[i])
    ensures Consistent(Run(s, calls)) && WizardSteps(Run(s, calls))
    ensures Run(s, calls).progress <= 100
    decreases |calls|
  {
    if calls == [] {
      ProgressOfWizardSteps(s.completedSteps);
    } else {
      var s' := Apply(s, calls[0]);
      ApplyConsistent(s, calls[0]);
      assert WizardSteps(s') by {
        if calls[0].StepComplete? {
          assert WizardCall(calls[0]);
          forall i | 0 <= i < |s'.completedSteps|
            ensures 0 <= s'.completedSteps[i] < TotalSteps
          {
            assert s'.completedSteps[i] in s'.completedSteps;
          }
        }
      }
      WizardProgressAtMost100(s', calls[1..]);
    }
  }

  /** After a reset, the history before it no longer matters. */
  lemma ResetForgets(s: State, t: State, calls: seq<Call>)
    ensures Run(s, [Reset] + calls) == Run(t, [Reset] + calls)
  {
    assert ([Reset] + calls)[1..] == calls;
  }

  // ---------------------------------------------------------------------
  // persist

  /** The fields `partialize` writes to local storage. */
  datatype Snapshot = Snapshot(resume: string, jobDescription: string, companyName: string,
                               industry: string, currentStep: int)

  function Partialize(s: State): Snapshot {
    Snapshot(s.resume, s.jobDescription, s.companyName, s.industry, s.currentStep)
  }

  /** Reading a snapshot back: its fields override the current state's. */
  function Rehydrate(current: State, p: Snapshot): State {
    current.(resume := p.resume, jobDescription := p.jobDescription, companyName := p.companyName,
             industry := p.industry, currentStep := p.currentStep)
  }

  /** The stored fields survive a reload; every other field comes from the
      state the page starts with. */
  lemma PersistRoundTrip(s: State, current: State)
    ensures Partialize(Rehydrate(current, Partialize(s))) == Partialize(s)
    ensures Rehydrate(current, Partialize(s)).completedSteps == current.completedSteps
    ensures Rehydrate(current, Partialize(s)).progress == current.progress
    ensures Rehydrate(current, Partialize(s)).viewMode == current.viewMode
  {
  }

  /** Completed steps are not persisted: marking a step leaves the stored
      snapshot as it was, and a reload starts from no completed steps. */
  lemma StepsNotPersisted(s: State, step: int)
    ensures Partialize(MarkStepComplete(s, step)) == Partialize(s)
    ensures Rehydrate(Initial, Partialize(MarkStepComplete(s, step))).completedSteps == []
  {
  }

  /** `setViewMode` is not persisted either, while `setCurrentStep` is. */
  lemma ViewModeNotPersisted(s: State, mode: ViewMode, step: int)
    ensures Partialize(SetViewMode(s, mode)) == Partialize(s)
    ensures Partialize(SetCurrentStep(s, step)).currentStep == step
  {
  }
}

=== FILE: prep_store_v2.dfy ===
/** The second interview-prep wizard store,
    `frontend/src/components/interview-prep/interview-prep-v2-UI/store/interview-prep-store.ts`.

  As in `PrepStore`, every zustand `set` is a pure transition. A browser
  `File` is a `FileRef` handle; the generated guide is kept as a decoded
  JSON value. The stored snapshot holds a `hasResume` flag instead of the
  file; zustand's default merge copies that flag into the state as an extra
  key no action reads, so `Rehydrate` drops it.
 */
module PrepStoreV2 {
  import opened Wrappers
  import opened Json
  import opened Steps

  /** A browser `File` object: only its identity matters here. */
  datatype FileRef = FileRef(id: nat)

  datatype ViewMode = Quick | Deep

  datatype State = State(
    resumeFile: Option<FileRef>,
    jobDescription: string,
    companyName: string,
    industry: string,
    currentStep: int,
    progress: int,
    completedSteps: seq<int>,
    viewMode: ViewMode,
    interviewGuide: Option<Json>)

  const Initial: State := State(None, "", "", "", 0, 0, [], Quick, None)

  /** The step list has no duplicates and the percentage agrees with it. */
  predicate Consistent(s: State) {
    Distinct(s.completedSteps) && s.progress == Progress(|s.completedSteps|)
  }

  /** `markStepComplete(step)`: the step is added once, the percentage is
      recomputed, and nothing else changes. */
  function MarkStepComplete(s: State, step: int): (r: State)
    ensures forall x :: x in r.completedSteps <==> x in s.completedSteps || x == step
    ensures |s.completedSteps| <= |r.completedSteps| <= |s.completedSteps| + 1
    ensures r.progress == Progress(|r.completedSteps|)
    ensures Distinct(s.completedSteps) ==> Consistent(r)
    ensures r.(completedSteps := s.completedSteps, progress := s.progress) == s
  {
    var steps := MarkStep(s.completedSteps, step);
    s.(completedSteps := steps, progress := Progress(|steps|))
  }

  /** A repeated `markStepComplete(step)` changes nothing. */
  lemma MarkStepCompleteIdempotent(s: State, step: int)
    ensures MarkStepComplete(MarkStepComplete(s, step), step) == MarkStepComplete(s, step)
  {
    MarkStepIdempotent(s.completedSteps, step);
  }

  /** A store call, one constructor per action. */
  datatype Call =
    | ResumeFile(file: Option<FileRef>)
    | JobDescription(text: string)
    | CompanyName(text: string)
    | Industry(text: string)
    | CurrentStep(step: int)
    | StepComplete(step: int)
    | View(mode: ViewMode)
    | Guide(guide: Option<Json>)
    | Reset

  /** The effect of one call; `resetStore()` is `set(initialState)`. */
  function Apply(s: State, c: Call): State {
    match c
    case ResumeFile(f) => s.(resumeFile := f)
    case JobDescription(t) => s.(jobDescription := t)
    case CompanyName(t) => s.(companyName := t)
    case Industry(t) => s.(industry := t)
    case CurrentStep(k) => s.(currentStep := k)
    case StepComplete(k) => MarkStepComplete(s, k)
    case View(m) => s.(viewMode := m)
    case Guide(g) => s.(interviewGuide := g)
    case Reset => Initial
  }

  function Run(s: State, calls: seq<Call>): State
    decreases |calls|
  {
    if calls == [] then s else Run(Apply(s, calls[0]), calls[1..])
  }

  /** Every call other than `markStepComplete` and `resetStore` leaves the
      steps and the percentage alone, and each call changes only the field
      it names. */
  lemma CallsAreLocal(s: State, c: Call)
    ensures !c.StepComplete? && !c.Reset? ==>
              Apply(s, c).completedSteps == s.completedSteps && Apply(s, c).progress == s.progress
    ensures !c.ResumeFile? && !c.Reset? ==> Apply(s, c).resumeFile == s.resumeFile
    ensures !c.Guide? && !c.Reset? ==> Apply(s, c).interviewGuide == s.interviewGuide
    ensures c.Reset? ==> Apply(s, c) == Initial
  {
  }

  /** Every reachable state is consistent. */
  lemma {:induction false} RunConsistent(s: State, calls: seq<Call>)
    requires Consistent(s)
    ensures Consistent(Run(s, calls))
    decreases |calls|
  {
    if calls != [] {
      assert Consistent(Apply(s, calls[0]));
      RunConsistent(Apply(s, calls[0]), calls[1..]);
    }
  }

  // ---------------------------------------------------------------------
  // persist

  /** The stored snapshot: a flag instead of the file, and no progress. */
  datatype Snapshot = Snapshot(hasResume: bool, jobDescription: string, companyName: string,
                               industry: string, completedSteps: seq<int>, viewMode: ViewMode)

  function Partialize(s: State): Snapshot {
    Snapshot(s.resumeFile.Some?, s.jobDescription, s.companyName, s.industry,
             s.completedSteps, s.viewMode)
  }

  /** Reading a snapshot back: its state fields override the current ones. */
  function Rehydrate(current: State, p: Snapshot): State {
    current.(jobDescription := p.jobDescription, companyName := p.companyName,
             industry := p.industry, completedSteps := p.completedSteps, viewMode := p.viewMode)
  }

  /** The snapshot records whether a file was chosen, and a reload restores
      every stored field but brings back neither the file nor the
      percentage. */
  lemma PersistRoundTrip(s: State, current: State)
    ensures Partialize(s).hasResume <==> s.resumeFile.Some?
    ensures Rehydrate(current, Partialize(s)).completedSteps == s.completedSteps
    ensures Rehydrate(current, Partialize(s)).jobDescription == s.jobDescription
    ensures Rehydrate(current, Partialize(s)).viewMode == s.viewMode
    ensures Rehydrate(current, Partialize(s)).resumeFile == current.resumeFile
    ensures Rehydrate(current, Partialize(s)).progress == current.progress
  {
  }

  /** The percentage is not stored while the steps are: reloading a state
      with any completed step gives a state whose percentage is 0 although
      its steps are restored. */
  lemma ReloadLosesProgress(s: State)
    requires Consistent(s) && s.completedSteps != []
    ensures !Consistent(Rehydrate(Initial, Partialize(s)))
    ensures Rehydrate(Initial, Partialize(s)).progress == 0
  {
    ProgressMonotone(1, |s.completedSteps|);
  }

  /** The first `markStepComplete` after a reload, of any step, puts the
      percentage right again. */
  lemma NextMarkRestoresProgress(s: State, current: State, step: int)
    requires Consistent(s)
    ensures Consistent(MarkStepComplete(Rehydrate(current, Partialize(s)), step))
  {
  }
}

=== FILE: prep_store_v3.dfy ===
/** The third interview-prep wizard store, `frontend/src/store/interview-prep-v3-store.ts`.

  As in `PrepStore`, every zustand `set` is a pure transition. A browser
  `File` is a `FileRef` handle; the guide is a decoded JSON value. The
  percentage here is the unrounded `(n / 12) * 100`, a floating-point
  number in the source and an exact `real` here.
 */
module PrepStoreV3 {
  import opened Wrappers
  import opened Json
  import opened Steps

  datatype FileRef = FileRef(id: nat)

  datatype State = State(
    resumeFile: Option<FileRef>,
    resumeFileIsSelected: bool,
    jobDescription: string,
    companyName: string,
    currentStep: int,
    progress: real,
    completedSteps: seq<int>,
    shouldGenerateGuide: bool,
    isGeneratingGuide: bool,
    interviewGuide: Option<Json>,
    jobDetailsFinalized: bool)

  const Initial: State := State(None, false, "", "", 0, 0.0, [], false, false, None, false)

  /** The number of steps this store's percentage counts against. */
  const PercentSteps: nat := 12

  /** `calculateProgress`: the share of twelve steps, as a percentage. */
  function Percent(n: nat): (p: real)
    ensures p * (PercentSteps as real) == 100.0 * (n as real)
  {
    (n as real / PercentSteps as real) * 100.0
  }

  /** The percentage grows with the step count and is 100 at twelve steps. */
  lemma PercentMonotone(m: nat, n: nat)
    requires m <= n
    ensures Percent(m) <= Percent(n)
    ensures Percent(PercentSteps) == 100.0
  {
  }

  /** The flag agrees with the file, the steps have no duplicates and the
      percentage agrees with them. */
  predicate Consistent(s: State) {
    s.resumeFileIsSelected == s.resumeFile.Some?
    && Distinct(s.completedSteps) && s.progress == Percent(|s.completedSteps|)
  }

  /** `setResumeFile(file)`: the file and its flag change together. */
  function SetResumeFile(s: State, file: Option<FileRef>): (r: State)
    ensures r.resumeFile == file && (r.resumeFileIsSelected <==> file.Some?)
    ensures r.(resumeFile := s.resumeFile, resumeFileIsSelected := s.resumeFileIsSelected) == s
  {
    s.(resumeFile := file, resumeFileIsSelected := file.Some?)
  }

  /** `markStepComplete(step)`: the step is added once, the percentage is
      recomputed, and nothing else changes. */
  function MarkStepComplete(s: State, step: int): (r: State)
    ensures forall x :: x in r.completedSteps <==> x in s.completedSteps || x == step
    ensures |s.completedSteps| <= |r.completedSteps| <= |s.completedSteps| + 1
    ensures r.progress * (PercentSteps as real) == 100.0 * (|r.completedSteps| as real)
    ensures Distinct(s.completedSteps) ==> Distinct(r.completedSteps)
    ensures r.(completedSteps := s.completedSteps, progress := s.progress) == s
  {
    var steps := MarkStep(s.completedSteps, step);
    s.(completedSteps := steps, progress := Percent(|steps|))
  }

  /** A store call, one constructor per action. */
  datatype Call =
    | ResumeFile(file: Option<FileRef>)
    | JobDescription(text: string)
    | CompanyName(text: string)
    | CurrentStep(step: int)
    | StepComplete(step: int)
    | ShouldGenerate(flag: bool)
    | Generating(flag: bool)
    | Guide(guide: Option<Json>)
    | JobDetailsFinalized(flag: bool)
    | Reset

  /** The effect of one call; `resetStore()` restores the initial state,
      file and flag included. */
  function Apply(s: State, c: Call): State {
    match c
    case ResumeFile(f) => SetResumeFile(s, f)
    case JobDescription(t) => s.(jobDescription := t)
    case CompanyName(t) => s.(companyName := t)
    case CurrentStep(k) => s.(currentStep := k)
    case StepComplete(k) => MarkStepComplete(s, k)
    case ShouldGenerate(b) => s.(shouldGenerateGuide := b)
    case Generating(b) => s.(isGeneratingGuide := b)
    case Guide(g) => s.(interviewGuide := g)
    case JobDetailsFinalized(b) => s.(jobDetailsFinalized := b)
    case Reset => Initial.(resumeFile := None, resumeFileIsSelected := false)
  }

  function Run(s: State, calls: seq<Call>): State
    decreases |calls|
  {
    if calls == [] then s else Run(Apply(s, calls[0]), calls[1..])
  }

  /** Only `setResumeFile` and `resetStore` touch the file or its flag, and
      a reset restores the initial state, clearing both. */
  lemma CallsAreLocal(s: State, c: Call)
    ensures !c.ResumeFile? && !c.Reset? ==>
              Apply(s, c).resumeFile == s.resumeFile && Apply(s, c).resumeFileIsSelected == s.resumeFileIsSelected
    ensures !c.StepComplete? && !c.Reset? ==>
              Apply(s, c).completedSteps == s.completedSteps && Apply(s, c).progress == s.progress
    ensures c.Reset? ==> Apply(s, c) == Initial && Apply(s, c).resumeFile == None && !Apply(s, c).resumeFileIsSelected
  {
  }

  /** Each plain setter changes its own field and no other: putting the
      old value back gives the old state. */
  lemma PlainSettersAreLocal(s: State, c: Call)
    ensures c.JobDescription? ==> Apply(s, c).jobDescription == c.text
                                  && Apply(s, c).(jobDescription := s.jobDescription) == s
    ensures c.CompanyName? ==> Apply(s, c).companyName == c.text
                               && Apply(s, c).(companyName := s.companyName) == s
    ensures c.CurrentStep? ==> Apply(s, c).currentStep == c.step
                               && Apply(s, c).(currentStep := s.currentStep) == s
    ensures c.ShouldGenerate? ==> Apply(s, c).shouldGenerateGuide == c.flag
                                  && Apply(s, c).(shouldGenerateGuide := s.shouldGenerateGuide) == s
    ensures c.Generating? ==> Apply(s, c).isGeneratingGuide == c.flag
                              && Apply(s, c).(isGeneratingGuide := s.isGeneratingGuide) == s
    ensures c.Guide? ==> Apply(s, c).interviewGuide == c.guide
                         && Apply(s, c).(interviewGuide := s.interviewGuide) == s
    ensures c.JobDetailsFinalized? ==> Apply(s, c).jobDetailsFinalized == c.flag
                                       && Apply(s, c).(jobDetailsFinalized := s.jobDetailsFinalized) == s
  {
  }

  /** `markStepComplete` repeated changes nothing. */
  lemma MarkStepCompleteIdempotent(s: State, step: int)
    ensures MarkStepComplete(MarkStepComplete(s, step), step) == MarkStepComplete(s, step)
  {
    MarkStepIdempotent(s.completedSteps, step);
  }

  /** Every reachable state is consistent; in particular the flag is set
      exactly when a file is held. */
  lemma {:induction false} RunConsistent(s: State, calls: seq<Call>)
    requires Consistent(s)
    ensures Consistent(Run(s, calls))
    decreases |calls|
  {
    if calls != [] {
      ApplyConsistent(s, calls[0]);
      RunConsistent(Apply(s, calls[0]), calls[1..]);
    }
  }

  /** Every call keeps the state consistent. */
  lemma ApplyConsistent(s: State, c: Call)
    requires Consistent(s)
    ensures Consistent(Apply(s, c))
  {
    if c.StepComplete? {
      var r := MarkStepComplete(s, c.step);
      assert r.progress == Percent(|r.completedSteps|);
    }
  }

  // ---------------------------------------------------------------------
  // persist

  /** Everything except the file and the current step is stored. */
  datatype Snapshot = Snapshot(
    resumeFileIsSelected: bool,
    jobDescription: string,
    companyName: string,
    progress: real,
    completedSteps: seq<int>,
    shouldGenerateGuide: bool,
    isGeneratingGuide: bool,
    interviewGuide: Option<Json>,
    jobDetailsFinalized: bool)

  function Partialize(s: State): Snapshot {
    Snapshot(s.resumeFileIsSelected, s.jobDescription, s.companyName, s.progress, s.completedSteps,
             s.shouldGenerateGuide, s.isGeneratingGuide, s.interviewGuide, s.jobDetailsFinalized)
  }

  /** Reading a snapshot back: its fields override the current ones. */
  function Rehydrate(current: State, p: Snapshot): State {
    current.(resumeFileIsSelected := p.resumeFileIsSelected, jobDescription := p.jobDescription,
             companyName := p.companyName, progress := p.progress, completedSteps := p.completedSteps,
             shouldGenerateGuide := p.shouldGenerateGuide, isGeneratingGuide := p.isGeneratingGuide,
             interviewGuide := p.interviewGuide, jobDetailsFinalized := p.jobDetailsFinalized)
  }

  /** A reload restores every stored field, keeps the current file and
      step, and a second save stores the same snapshot. */
  lemma PersistRoundTrip(s: State, current: State)
    ensures Partialize(Rehydrate(current, Partialize(s))) == Partialize(s)
    ensures Rehydrate(current, Partialize(s)).resumeFile == current.resumeFile
    ensures Rehydrate(current, Partialize(s)).currentStep == current.currentStep
  {
  }

  /** The steps and their percentage are stored together, so they stay in
      agreement across a reload. */
  lemma ReloadKeepsProgress(s: State)
    requires Consistent(s)
    ensures Distinct(Rehydrate(Initial, Partialize(s)).completedSteps)
    ensures Rehydrate(Initial, Partialize(s)).progress == Percent(|Rehydrate(Initial, Partialize(s)).completedSteps|)
  {
  }

  /** The flag is stored but the file is not: reloading a state that held a
      file gives a state that says a file is selected while holding none. */
  lemma ReloadKeepsFlagNotFile(s: State)
    requires Consistent(s) && s.resumeFile.Some?
    ensures Rehydrate(Initial, Partialize(s)).resumeFileIsSelected
    ensures Rehydrate(Initial, Partialize(s)).resumeFile == None
    ensures !Consistent(Rehydrate(Initial, Partialize(s)))
  {
  }
}

=== FILE: serpapi_async.dfy ===
/** `fetch_serpapi_jobs`: the asynchronous Google Jobs fetcher behind the
    job-search page.

  The HTTP client is an oracle `fetch` from a request to either the decoded
  page or an error (a failed `raise_for_status`, a transport error or an
  undecodable body). The loop in the source has no iteration bound of its
  own: a provider that keeps answering with empty pages and a token keeps it
  running, so the model gives it `fuel`, the number of page requests it may
  still make, and reports `FuelExhausted` when that runs out.
 */
module SerpapiAsync {
  import opened Wrappers
  import opened Text

  /** The paging token as the loop sees it: `None` (no token yet), `False`
      (the provider said there is no next page) or a string. */
  datatype Token = NoToken | Exhausted | Tok(s: string)

  /** Python's `if token:`. */
  predicate TokenTruthy(t: Token) {
    t.Tok? && t.s != ""
  }

  /** The fields of `JobSearchPreferences` the fetcher reads. */
  datatype Preferences = Preferences(
    jobTitleKeywords: string,
    location: string,
    remotePreference: string)

  /** The request parameters that vary between calls. The constant ones
      (`engine`, `num`, `hl`, `gl`, `api_key`) are left out. */
  datatype Request = Request(
    q: string,
    location: string,
    pageToken: Option<string>,
    noCache: bool)

  /** A decoded page: `jobs_results` and `jobs` (an absent key reads as an
      empty list) and `search_metadata.serpapi_pagination.next_page_token`. */
  datatype Page<J> = Page(jobsResults: seq<J>, jobs: seq<J>, nextPageToken: Option<string>)

  datatype FetchOutcome<J> =
    | Fetched(jobs: seq<J>, token: Token)
    | HttpError(error: string)
    | FuelExhausted

  /** The parameters of one page request. */
  function MakeRequest(p: Preferences, token: Token): (r: Request)
    ensures r.q == p.jobTitleKeywords
    ensures r.location == "Remote" <==> (p.remotePreference == "Remote only" || p.location == "Remote")
    ensures p.remotePreference != "Remote only" ==> r.location == p.location
    ensures r.pageToken.Some? <==> TokenTruthy(token)
    ensures r.pageToken.Some? ==> token == Tok(r.pageToken.value)
    ensures r.noCache <==> TokenTruthy(token)
  {
    Request(
      p.jobTitleKeywords,
      if p.remotePreference != "Remote only" then p.location else "Remote",
      if TokenTruthy(token) then Some(token.s) else None,
      TokenTruthy(token))
  }

  /** `data.get("jobs_results") or data.get("jobs") or []`. */
  function RawJobs<J>(page: Page<J>): (r: seq<J>)
    ensures page.jobsResults != [] ==> r == page.jobsResults
    ensures page.jobsResults == [] ==> r == page.jobs
  {
    if page.jobsResults != [] then page.jobsResults else page.jobs
  }

  /** `... .get("next_page_token") or False`. */
  function NextToken<J>(page: Page<J>): (t: Token)
    ensures t != NoToken
    ensures t == Exhausted <==> page.nextPageToken.None? || page.nextPageToken.value == ""
    ensures t.Tok? ==> TokenTruthy(t) && page.nextPageToken == Some(t.s)
  {
    match page.nextPageToken
    case Some(s) => if s != "" then Tok(s) else Exhausted
    case None => Exhausted
  }

  /** The inner `for` loop: append the page's jobs one at a time, stopping
      as soon as `want` jobs are held. */
  function Absorb<J>(jobs: seq<J>, raw: seq<J>, want: int): (r: seq<J>)
    requires |jobs| < want
    ensures r == jobs + raw[..Min(|raw|, want - |jobs|)]
    ensures |r| <= want
  {
    jobs + raw[..Min(|raw|, want - |jobs|)]
  }

  /** The `while` loop, one page per unit of fuel. */
  function Loop<J>(p: Preferences, want: int, jobs: seq<J>, token: Token,
                   fetch: Request -> Result<Page<J>, string>, fuel: nat): (r: FetchOutcome<J>)
    decreases fuel
  {
    if !(|jobs| < want && token != Exhausted) then Fetched(jobs, token)
    else if fuel == 0 then FuelExhausted
    else
      match fetch(MakeRequest(p, token))
      case Err(e) => HttpError(e)
      case Ok(page) => Loop(p, want, Absorb(jobs, RawJobs(page), want), NextToken(page), fetch, fuel - 1)
  }

  /** The pages the loop fetches, in order, up to the first failure. */
  function Trace<J>(p: Preferences, want: int, jobs: seq<J>, token: Token,
                    fetch: Request -> Result<Page<J>, string>, fuel: nat): seq<Page<J>>
    decreases fuel
  {
    if !(|jobs| < want && token != Exhausted) || fuel == 0 then []
    else
      match fetch(MakeRequest(p, token))
      case Err(_) => []
      case Ok(page) => [page] + Trace(p, want, Absorb(jobs, RawJobs(page), want), NextToken(page), fetch, fuel - 1)
  }

  /** The concatenated job lists of a sequence of pages. */
  function Flatten<J>(pages: seq<Page<J>>): seq<J> {
    if pages == [] then [] else RawJobs(pages[0]) + Flatten(pages[1..])
  }

  /** `fetch_serpapi_jobs(preferences, next_page_token, want)`, with the same
      loop structure as the source. */
  method FetchSerpapiJobs<J>(p: Preferences, nextPageToken: Option<string>, want: int,
                             fetch: Request -> Result<Page<J>, string>, fuel: nat)
    returns (out: FetchOutcome<J>)
    ensures out == Loop(p, want, [], StartToken(nextPageToken), fetch, fuel)
    ensures out.Fetched? ==> |out.jobs| <= Max(want, 0)
    ensures out.Fetched? ==> |out.jobs| >= want || out.token == Exhausted
  {
    var jobs: seq<J> := [];
    var token := StartToken(nextPageToken);
    var left := fuel;
    while |jobs| < want && token != Exhausted
      invariant Loop(p, want, jobs, token, fetch, left) == Loop(p, want, [], StartToken(nextPageToken), fetch, fuel)
      invariant |jobs| <= Max(want, 0)
      decreases left
    {
      if left == 0 {
        return FuelExhausted;
      }
      var resp := fetch(MakeRequest(p, token));
      if resp.Err? {
        return HttpError(resp.error);
      }
      jobs := AbsorbLoop(jobs, RawJobs(resp.value), want);
      token := NextToken(resp.value);
      left := left - 1;
    }
    out := Fetched(jobs, token);
  }

  /** The inner `for` loop as written: one append per job, with a `break`
      once `want` jobs are held. */
  method AbsorbLoop<J>(jobs: seq<J>, raw: seq<J>, want: int) returns (r: seq<J>)
    requires |jobs| < want
    ensures r == Absorb(jobs, raw, want)
  {
    r := jobs;
    var i := 0;
    while i < |raw|
      invariant 0 <= i <= |raw|
      invariant r == jobs + raw[..i]
      invariant |r| < want
      decreases |raw| - i
    {
      r := r + [raw[i]];
      i := i + 1;
      if |r| == want {
        break;
      }
    }
    assert i == Min(|raw|, want - |jobs|);
  }

  /** The token the loop starts from: the caller's `next_page_token`. */
  function StartToken(t: Option<string>): (r: Token)
    ensures r != Exhausted
    ensures t.None? <==> r == NoToken
  {
    match t
    case None => NoToken
    case Some(s) => Tok(s)
  }

  // ---------------------------------------------------------------------
  // Properties of the loop
  // ---------------------------------------------------------------------

  /** The returned jobs are the first `want` jobs of the fetched pages,
      concatenated in fetch order, and never more than `want` of them. */
  lemma {:induction false} LoopIsPrefixOfPages<J>(p: Preferences, want: int, jobs: seq<J>, token: Token,
                                                  fetch: Request -> Result<Page<J>, string>, fuel: nat,
                                                  seen: seq<J>)
    requires jobs == seen[..Min(Max(want, 0), |seen|)]
    ensures var r := Loop(p, want, jobs, token, fetch, fuel);
            var all := seen + Flatten(Trace(p, want, jobs, token, fetch, fuel));
            r.Fetched? ==> r.jobs == all[..Min(Max(want, 0), |all|)]
    decreases fuel
  {
    var pages := Trace(p, want, jobs, token, fetch, fuel);
    if !(|jobs| < want && token != Exhausted) || fuel == 0 {
      assert pages == [];
      assert seen + Flatten(pages) == seen;
    } else {
      match fetch(MakeRequest(p, token))
      case Err(_) =>
      case Ok(page) =>
        var raw := RawJobs(page);
        var jobs' := Absorb(jobs, raw, want);
        assert |jobs| < want;
        assert jobs == seen;
        var seen' := seen + raw;
        AbsorbIsPrefix(seen, raw, want);
        LoopIsPrefixOfPages(p, want, jobs', NextToken(page), fetch, fuel - 1, seen');
        assert pages == [page] + Trace(p, want, jobs', NextToken(page), fetch, fuel - 1);
        FlattenCons(seen, pages);
    }
  }

  /** Absorbing a page into all the jobs seen so far keeps the held jobs
      the first `want` of everything seen. */
  lemma AbsorbIsPrefix<J>(seen: seq<J>, raw: seq<J>, want: int)
    requires |seen| < want
    ensures Absorb(seen, raw, want) == (seen + raw)[..Min(Max(want, 0), |seen + raw|)]
  {
    var all := seen + raw;
    var n := Min(|raw|, want - |seen|);
    assert all[..|seen| + n] == seen + raw[..n];
  }

  lemma FlattenCons<J>(seen: seq<J>, pages: seq<Page<J>>)
    requires pages != []
    ensures seen + Flatten(pages) == (seen + RawJobs(pages[0])) + Flatten(pages[1..])
  {
    AppendAssoc(seen, RawJobs(pages[0]), Flatten(pages[1..]));
  }

  /** What `fetch_serpapi_jobs` returns is a prefix of the fetched pages'
      jobs, holding `want` of them or all of them. */
  lemma FetchedJobsArePagePrefix<J>(p: Preferences, nextPageToken: Option<string>, want: int,
                                    fetch: Request -> Result<Page<J>, string>, fuel: nat)
    ensures var r := Loop(p, want, [], StartToken(nextPageToken), fetch, fuel);
            var all := Flatten(Trace(p, want, [], StartToken(nextPageToken), fetch, fuel));
            r.Fetched? ==> r.jobs == all[..Min(Max(want, 0), |all|)]
  {
    var t := StartToken(nextPageToken);
    LoopIsPrefixOfPages(p, want, [], t, fetch, fuel, []);
    assert [] + Flatten(Trace(p, want, [], t, fetch, fuel)) == Flatten(Trace(p, want, [], t, fetch, fuel));
  }

  /** A page without jobs but with a token does not stop the loop: it asks
      for the next page with the new token. */
  lemma EmptyPageWithTokenContinues<J>(p: Preferences, want: int, jobs: seq<J>, token: Token,
                                       fetch: Request -> Result<Page<J>, string>, fuel: nat, next: string)
    requires |jobs| < want && token != Exhausted && next != ""
    requires fetch(MakeRequest(p, token)) == Ok(Page([], [], Some(next)))
    ensures Loop(p, want, jobs, token, fetch, fuel + 1) == Loop(p, want, jobs, Tok(next), fetch, fuel)
  {
    var page: Page<J> := Page([], [], Some(next));
    assert Absorb(jobs, RawJobs(page), want) == jobs;
  }

  /** A page whose token is missing or empty ends the loop with the jobs
      collected so far and the token `False`. */
  lemma PageWithoutTokenStops<J>(p: Preferences, want: int, jobs: seq<J>, token: Token,
                                 fetch: Request -> Result<Page<J>, string>, fuel: nat, page: Page<J>)
    requires |jobs| < want && token != Exhausted
    requires fetch(MakeRequest(p, token)) == Ok(page)
    requires page.nextPageToken.None? || page.nextPageToken == Some("")
    ensures Loop(p, want, jobs, token, fetch, fuel + 1) == Fetched(Absorb(jobs, RawJobs(page), want), Exhausted)
  {
  }

  /** An HTTP failure propagates: the outcome is the error, and the jobs
      collected from earlier pages are not returned. */
  lemma HttpErrorPropagates<J>(p: Preferences, want: int, jobs: seq<J>, token: Token,
                               fetch: Request -> Result<Page<J>, string>, fuel: nat, e: string)
    requires |jobs| < want && token != Exhausted
    requires fetch(MakeRequest(p, token)) == Err(e)
    ensures Loop(p, want, jobs, token, fetch, fuel + 1) == HttpError(e)
  {
  }

  /** The first request of a search without a token sends neither
      `next_page_token` nor `no_cache`. */
  lemma FirstRequestHasNoToken(p: Preferences)
    ensures MakeRequest(p, NoToken).pageToken == None && !MakeRequest(p, NoToken).noCache
  {
  }

  /** Asking for no jobs makes no request and hands the caller's token back. */
  lemma NothingWantedFetchesNothing<J>(p: Preferences, nextPageToken: Option<string>, want: int,
                                       fetch: Request -> Result<Page<J>, string>, fuel: nat)
    requires want <= 0
    ensures Loop(p, want, [], StartToken(nextPageToken), fetch, fuel) == Fetched([], StartToken(nextPageToken))
    ensures Trace(p, want, [], StartToken(nextPageToken), fetch, fuel) == []
  {
  }
}

=== FILE: serpapi_job_search.dfy ===
/** `extract_relevant_job_info` of `serpapi_job_search.py`: the projection of
    raw Google Jobs listings onto the five fields the job-search agent
    returns.

  A listing's `job_highlights` key decides the second link candidate: an
  absent key reads as `[{}]` (no link), while a present but empty list makes
  `[0]` raise `IndexError`, which nothing in the function catches.
 */
module SerpapiJobSearch {
  import opened Wrappers
  import opened Text
  import opened Listings

  const DescriptionLimit: nat := 500

  datatype RelevantJob = RelevantJob(title: string, company: string, location: string,
                                     description: string, url: string)

  /** `entries[0].get("link", "")` of a non-empty list. */
  function FirstEntryLink(entries: seq<LinkEntry>): string
    requires entries != []
  {
    OrEmpty(entries[0].link)
  }

  /** The application link, or the failure of the `job_highlights` lookup. */
  function JobUrl(job: Listing): (r: Result<string, string>)
    ensures r.Err? <==> (job.applyOptions.None? || job.applyOptions.value == []
                           || FirstEntryLink(job.applyOptions.value) == "")
                          && job.jobHighlights == Some([])
    ensures (r.Ok? && job.applyOptions.Some? && job.applyOptions.value != []
             && FirstEntryLink(job.applyOptions.value) != "") ==> r.value == FirstEntryLink(job.applyOptions.value)
    ensures r.Ok? && r.value != "" ==>
              r.value in {OrEmpty(job.detectedApplyLink), OrEmpty(job.searchLink)}
              || (job.applyOptions.Some? && job.applyOptions.value != [] && r.value == FirstEntryLink(job.applyOptions.value))
              || (job.jobHighlights.Some? && job.jobHighlights.value != [] && r.value == FirstEntryLink(job.jobHighlights.value))
  {
    var fromApply := if job.applyOptions.Some? && job.applyOptions.value != [] then FirstEntryLink(job.applyOptions.value) else "";
    if fromApply != "" then Ok(fromApply)
    else
      var highlights := job.jobHighlights.GetOr([LinkEntry(None)]);
      if highlights == [] then Err("IndexError")
      else
        var fromHighlights := FirstEntryLink(highlights);
        if fromHighlights != "" then Ok(fromHighlights)
        else if OrEmpty(job.detectedApplyLink) != "" then Ok(OrEmpty(job.detectedApplyLink))
        else Ok(OrEmpty(job.searchLink))
  }

  /** `desc[:500] + ("..." if len(desc) > 500 else "")`. */
  function CapDescription(desc: string): (r: string)
    ensures |desc| <= DescriptionLimit ==> r == desc
    ensures |desc| > DescriptionLimit ==> r == desc[..DescriptionLimit] + "..." && |r| == DescriptionLimit + 3
  {
    if |desc| > DescriptionLimit then desc[..DescriptionLimit] + "..." else desc
  }

  /** The output entry for a listing that has a link and a title. */
  function Project(job: Listing, url: string): (r: RelevantJob)
    ensures r.url == url && r.title == OrEmpty(job.title)
    ensures |r.description| <= DescriptionLimit + 3
  {
    RelevantJob(OrEmpty(job.title), OrEmpty(job.companyName), OrEmpty(job.location),
                CapDescription(OrEmpty(job.description)), url)
  }

  /** A listing is kept when it has a link and a non-empty title. */
  predicate Kept(job: Listing) {
    JobUrl(job).Ok? && JobUrl(job).value != "" && NonEmpty(job.title)
  }

  /** A member of a non-empty list is its head or a member of its tail. */
  lemma MemberCons(jobs: seq<Listing>)
    requires jobs != []
    ensures forall j :: j in jobs <==> j == jobs[0] || j in jobs[1..]
  {
    assert jobs == [jobs[0]] + jobs[1..];
  }

  /** `extract_relevant_job_info(jobs)` as written: the first listing whose
      link lookup reaches an empty `job_highlights` list aborts the call. */
  function ExtractRelevantJobInfo(jobs: seq<Listing>): (r: Result<seq<RelevantJob>, string>)
    ensures r.Ok? ==> forall o :: o in r.value ==> o.url != "" && o.title != "" && |o.description| <= DescriptionLimit + 3
    ensures r.Ok? ==> forall o :: o in r.value ==> exists j :: j in jobs && Kept(j) && o == Project(j, JobUrl(j).value)
    ensures r.Ok? ==> forall j :: j in jobs && Kept(j) ==> Project(j, JobUrl(j).value) in r.value
    ensures r.Ok? <==> forall j :: j in jobs ==> JobUrl(j).Ok?
  {
    if jobs == [] then Ok([])
    else
      match JobUrl(jobs[0])
      case Err(e) => Err(e)
      case Ok(url) =>
        var rest := ExtractRelevantJobInfo(jobs[1..]);
        MemberCons(jobs);
        match rest
        case Err(e) => Err(e)
        case Ok(tail) =>
          if url != "" && NonEmpty(jobs[0].title) then Ok([Project(jobs[0], url)] + tail) else Ok(tail)
  }

  /** When the extraction succeeds its entries are the kept listings'
      projections, one per kept listing, in input order. */
  lemma {:induction false} ExtractKeepsOrder(jobs: seq<Listing>)
    requires ExtractRelevantJobInfo(jobs).Ok?
    ensures var kept := Filter(jobs, Kept);
            var r := ExtractRelevantJobInfo(jobs).value;
            |r| == |kept| && forall k :: 0 <= k < |r| ==> r[k] == Project(kept[k], JobUrl(kept[k]).value)
    decreases |jobs|
  {
    if jobs != [] {
      var h := jobs[0];
      ExtractKeepsOrder(jobs[1..]);
      var tail := ExtractRelevantJobInfo(jobs[1..]).value;
      var keptTail := Filter(jobs[1..], Kept);
      if Kept(h) {
        ConsProjection(h, JobUrl(h).value, keptTail, tail, JobUrl);
      }
    }
  }

  /** Consing one kept listing onto matching lists keeps them matching. */
  lemma ConsProjection(h: Listing, url: string, kept: seq<Listing>, r: seq<RelevantJob>,
                       link: Listing -> Result<string, string>)
    requires link(h).Ok? && link(h).value == url
    requires forall k :: 0 <= k < |kept| ==> link(kept[k]).Ok?
    requires |r| == |kept| && forall k :: 0 <= k < |r| ==> r[k] == Project(kept[k], link(kept[k]).value)
    ensures var r' := [Project(h, url)] + r;
            var kept' := [h] + kept;
            |r'| == |kept'| && forall k :: 0 <= k < |r'| ==> r'[k] == Project(kept'[k], link(kept'[k]).value)
  {
    var r' := [Project(h, url)] + r;
    var kept' := [h] + kept;
    forall k | 0 <= k < |r'|
      ensures r'[k] == Project(kept'[k], link(kept'[k]).value)
    {
      if k > 0 {
        assert r'[k] == r[k - 1] && kept'[k] == kept[k - 1];
      }
    }
  }

  /** A listing with no link besides an empty `job_highlights` list makes
      the whole extraction fail, even though the listing would simply have
      been skipped had the key been absent. */
  lemma EmptyHighlightsAbortExtraction(other: Listing)
    requires JobUrl(other).Ok? && JobUrl(other).value != "" && NonEmpty(other.title)
    ensures var bad := Listing(Some("Engineer"), None, None, None, None, None, None, None, None, Some([]), None);
            var absent := bad.(jobHighlights := None);
            ExtractRelevantJobInfo([other, bad]).Err?
            && ExtractRelevantJobInfo([other, absent]) == Ok([Project(other, JobUrl(other).value)])
  {
    var bad := Listing(Some("Engineer"), None, None, None, None, None, None, None, None, Some([]), None);
    assert JobUrl(bad).Err?;
    var absent := bad.(jobHighlights := None);
    assert JobUrl(absent) == Ok("");
    assert [other, bad][1..] == [bad];
    assert [other, absent][1..] == [absent];
    assert [absent][1..] == [];
    assert ExtractRelevantJobInfo([absent]) == Ok([]);
    assert bad in [bad];
    assert ExtractRelevantJobInfo([bad]).Err?;
    var p := Project(other, JobUrl(other).value);
    assert [p] + [] == [p];
  }

  /** The link lookup with an empty `job_highlights` list treated like an
      absent one, the fallback the `[{}]` default provides. */
  function JobUrlFixed(job: Listing): (r: string)
    ensures JobUrl(job).Ok? ==> r == JobUrl(job).value
    ensures r != "" ==>
              r in {OrEmpty(job.detectedApplyLink), OrEmpty(job.searchLink)}
              || (job.applyOptions.Some? && job.applyOptions.value != [] && r == FirstEntryLink(job.applyOptions.value))
              || (job.jobHighlights.Some? && job.jobHighlights.value != [] && r == FirstEntryLink(job.jobHighlights.value))
  {
    match JobUrl(job.(jobHighlights := if job.jobHighlights == Some([]) then None else job.jobHighlights))
    case Ok(u) => u
    case Err(_) => assert false; ""
  }

  /** A listing the corrected extraction keeps. */
  predicate KeptFixed(job: Listing) {
    JobUrlFixed(job) != "" && NonEmpty(job.title)
  }

  /** The corrected lookup as a link that never fails. */
  function LinkFixed(job: Listing): Result<string, string> {
    Ok(JobUrlFixed(job))
  }

  /** The corrected extraction's entries are the kept listings' projections,
      one per kept listing, in input order. */
  lemma {:induction false} ExtractFixedKeepsOrder(jobs: seq<Listing>)
    ensures var kept := Filter(jobs, KeptFixed);
            var r := ExtractRelevantJobInfoFixed(jobs);
            |r| == |kept| && forall k :: 0 <= k < |r| ==> r[k] == Project(kept[k], JobUrlFixed(kept[k]))
    decreases |jobs|
  {
    if jobs != [] {
      var h := jobs[0];
      ExtractFixedKeepsOrder(jobs[1..]);
      if KeptFixed(h) {
        ConsProjection(h, JobUrlFixed(h), Filter(jobs[1..], KeptFixed), ExtractRelevantJobInfoFixed(jobs[1..]), LinkFixed);
      }
    }
  }

  /** The extraction with the corrected lookup: it never fails, and keeps
      exactly the listings that have a link and a title, in order. */
  function ExtractRelevantJobInfoFixed(jobs: seq<Listing>): (r: seq<RelevantJob>)
    ensures |r| <= |jobs|
    ensures forall o :: o in r ==> o.url != "" && o.title != "" && |o.description| <= DescriptionLimit + 3
    ensures forall o :: o in r ==> exists j :: j in jobs && o == Project(j, JobUrlFixed(j))
    ensures forall j :: j in jobs && JobUrlFixed(j) != "" && NonEmpty(j.title) ==> Project(j, JobUrlFixed(j)) in r
    ensures (forall j :: j in jobs ==> JobUrl(j).Ok?) ==> ExtractRelevantJobInfo(jobs) == Ok(r)
  {
    if jobs == [] then []
    else
      var rest := ExtractRelevantJobInfoFixed(jobs[1..]);
      var url := JobUrlFixed(jobs[0]);
      MemberCons(jobs);
      if url != "" && NonEmpty(jobs[0].title) then [Project(jobs[0], url)] + rest else rest
  }
}

=== FILE: steps.dfy ===
/** The completed-step list and the progress percentage shared by the
    interview-prep wizard stores (`frontend/src/store/interview-prep-store.ts`
    and its v2 and v3 variants).

  Steps are JavaScript numbers; the wizard only uses whole step indices, so
  they are `int` here. `Math.round` rounds half up, and the quotient
  `(n / 11) * 100` is never halfway between two integers (see
  `ProgressIsNearest`), so the floating-point rounding of the quotient
  cannot change the result.
 */
module Steps {
  /** The number of wizard steps the percentage is computed against. */
  const TotalSteps: nat := 11

  predicate Distinct(steps: seq<int>) {
    forall i, j :: 0 <= i < j < |steps| ==> steps[i] != steps[j]
  }

  /** `completedSteps.includes(step) ? completedSteps : [...completedSteps, step]`. */
  function MarkStep(steps: seq<int>, step: int): (r: seq<int>)
    ensures step in r
    ensures forall x :: x in r <==> x in steps || x == step
    ensures step in steps ==> r == steps
    ensures step !in steps ==> r == steps + [step]
    ensures Distinct(steps) ==> Distinct(r)
  {
    if step in steps then steps else steps + [step]
  }

  /** Marking the same step twice is marking it once. */
  lemma MarkStepIdempotent(steps: seq<int>, step: int)
    ensures MarkStep(MarkStep(steps, step), step) == MarkStep(steps, step)
  {
  }

  /** Marking two steps in either order gives the same set of steps. */
  lemma MarkStepCommutesAsSet(steps: seq<int>, a: int, b: int)
    ensures forall x :: x in MarkStep(MarkStep(steps, a), b) <==> x in MarkStep(MarkStep(steps, b), a)
  {
  }

  /** `Math.round((n / 11) * 100)`, as `floor(100n/11 + 1/2)`. */
  function Progress(n: nat): (p: nat)
    ensures -11 < 22 * p - 200 * n < 11
  {
    var a := 200 * n + 11;
    // `a` is odd, so the remainder is never 0 and the quotient never lands on a half
    assert a == 22 * (a / 22) + a % 22 && a % 22 != 0;
    a / 22
  }

  /** `Progress(n)` is the integer nearest to `100n/11`, and no other
      integer is as near: `|p - 100n/11| < 1/2`. */
  lemma ProgressIsNearest(n: nat, q: int)
    requires -11 < 22 * q - 200 * n < 11
    ensures q == Progress(n)
  {
  }

  /** Progress grows with the number of completed steps. */
  lemma ProgressMonotone(m: nat, n: nat)
    requires m <= n
    ensures Progress(m) <= Progress(n)
  {
  }

  /** All eleven steps give exactly 100. */
  lemma ProgressComplete()
    ensures Progress(0) == 0 && Progress(TotalSteps) == 100
  {
  }

  /** Nothing clamps the percentage: a twelfth distinct step gives 109. */
  lemma ProgressNotClamped()
    ensures Progress(12) == 109
  {
  }

  /** Steps `0..10` can only fill the list up to eleven entries, so with
      those steps progress stays within 0..100. */
  lemma {:induction false} DistinctStepsBounded(steps: seq<int>, lo: int, hi: int)
    requires Distinct(steps) && lo <= hi
    requires forall i :: 0 <= i < |steps| ==> lo <= steps[i] < hi
    ensures |steps| <= hi - lo
    decreases |steps|, 1
  {
    if steps != [] {
      var last := steps[|steps| - 1];
      var rest := steps[..|steps| - 1];
      assert forall i :: 0 <= i < |rest| ==> rest[i] == steps[i];
      ShiftDown(rest, last, lo, hi);
    }
  }

  /** Closing the gap left by `x`: the other values fit in one fewer slot. */
  lemma ShiftDown(rest: seq<int>, x: int, lo: int, hi: int)
    requires Distinct(rest) && x !in rest && lo <= x < hi
    requires forall i :: 0 <= i < |rest| ==> lo <= rest[i] < hi
    ensures |rest| + 1 <= hi - lo
    decreases |rest| + 1, 0
  {
    var moved := seq(|rest|, i requires 0 <= i < |rest| => if rest[i] > x then rest[i] - 1 else rest[i]);
    assert Distinct(moved) by {
      forall i, j | 0 <= i < j < |moved|
        ensures moved[i] != moved[j]
      {
        assert rest[i] != rest[j] && rest[i] != x && rest[j] != x;
      }
    }
    DistinctStepsBounded(moved, lo, hi - 1);
  }

  /** With distinct steps from `0..10` the percentage is at most 100. */
  lemma ProgressOfWizardSteps(steps: seq<int>)
    requires Distinct(steps)
    requires forall i :: 0 <= i < |steps| ==> 0 <= steps[i] < TotalSteps
    ensures Progress(|steps|) <= 100
  {
    DistinctStepsBounded(steps, 0, TotalSteps);
    ProgressMonotone(|steps|, TotalSteps);
  }
}

=== FILE: text.dfy ===
/** The Python string and list operations the modelled code relies on,
    over `string` (= `seq<char>`) and `seq<T>`.

  Each operation is stated by what it returns, not only by how it computes it,
  so that the modules built on it can reason about `strip()`, `split()`,
  `splitlines()`, `find()`/`rfind()`, `' '.join(...)` and slicing without
  unfolding their definitions.
 */
module Text {
  import opened Wrappers

  // ---------------------------------------------------------------------
  // Character classes
  // ---------------------------------------------------------------------

  /** Python's `str.isspace()` (and the `\s` class of `re` on `str`). */
  predicate IsSpace(c: char) {
    || c == ' '
    || ('\t' <= c <= '\r')
    || ('\U{1c}' <= c <= '\U{1f}')
    || c == '\U{85}' || c == '\U{a0}' || c == '\U{1680}'
    || ('\U{2000}' <= c <= '\U{200a}')
    || c == '\U{2028}' || c == '\U{2029}' || c == '\U{202f}'
    || c == '\U{205f}' || c == '\U{3000}'
  }

  /** The line boundaries recognised by Python's `str.splitlines()`. */
  predicate IsLineBreak(c: char) {
    || c == '\n' || c == '\r' || c == '\U{0b}' || c == '\U{0c}'
    || ('\U{1c}' <= c <= '\U{1e}')
    || c == '\U{85}' || c == '\U{2028}' || c == '\U{2029}'
  }

  /** The `\d` class, restricted to ASCII digits. */
  predicate IsDigit(c: char) {
    '0' <= c <= '9'
  }

  function DigitValue(c: char): (d: int)
    requires IsDigit(c)
    ensures 0 <= d <= 9
  {
    c as int - '0' as int
  }

  function LowerChar(c: char): (l: char)
    ensures 'A' <= c <= 'Z' ==> 'a' <= l <= 'z'
    ensures !('A' <= c <= 'Z') ==> l == c
  {
    if 'A' <= c <= 'Z' then (c as int + 32) as char else c
  }

  /** `str.lower()` on ASCII letters; other characters are left unchanged. */
  function Lower(s: string): (r: string)
    ensures |r| == |s|
    ensures forall i :: 0 <= i < |s| ==> r[i] == LowerChar(s[i])
  {
    seq(|s|, i requires 0 <= i < |s| => LowerChar(s[i]))
  }

  // ---------------------------------------------------------------------
  // Prefixes, suffixes and substrings
  // ---------------------------------------------------------------------

  predicate StartsWith(s: string, p: string) {
    |p| <= |s| && s[..|p|] == p
  }

  predicate EndsWith(s: string, p: string) {
    |p| <= |s| && s[|s| - |p|..] == p
  }

  predicate OccursAt(s: string, sub: string, i: int) {
    0 <= i && i + |sub| <= |s| && s[i..i + |sub|] == sub
  }

  /** Python's `sub in s`. */
  predicate Contains(s: string, sub: string) {
    exists i :: 0 <= i <= |s| - |sub| && OccursAt(s, sub, i)
  }

  lemma ContainsEmpty(s: string)
    ensures Contains(s, "")
  {
    assert OccursAt(s, "", 0);
  }

  /** A string cannot contain a substring with a character it lacks. */
  lemma MissingCharNotContained(s: string, sub: string, c: char)
    requires c in sub && c !in s
    ensures !Contains(s, sub)
  {
  }

  /** Containment is transitive. */
  lemma ContainsTrans(t: string, s: string, sub: string)
    requires Contains(t, s) && Contains(s, sub)
    ensures Contains(t, sub)
  {
    var i :| 0 <= i <= |t| - |s| && OccursAt(t, s, i);
    var j :| 0 <= j <= |s| - |sub| && OccursAt(s, sub, j);
    var w := t[i + j..i + j + |sub|];
    forall k | 0 <= k < |sub|
      ensures w[k] == sub[k]
    {
      assert w[k] == t[i..i + |s|][j + k];
      assert s[j..j + |sub|][k] == s[j + k];
    }
    assert w == sub;
    assert OccursAt(t, sub, i + j);
  }

  /** Lowercasing keeps every occurrence. */
  lemma LowerKeepsContains(t: string, s: string)
    requires Contains(t, s)
    ensures Contains(Lower(t), Lower(s))
  {
    var i :| 0 <= i <= |t| - |s| && OccursAt(t, s, i);
    assert Lower(t)[i..i + |s|] == Lower(s);
    assert OccursAt(Lower(t), Lower(s), i);
  }

  function FindFrom(s: string, sub: string, i: nat): (r: int)
    requires i <= |s| + 1
    ensures r == -1 || (i <= r && OccursAt(s, sub, r))
    ensures forall j :: i <= j && (r == -1 || j < r) ==> !OccursAt(s, sub, j)
    decreases |s| + 1 - i
  {
    if i + |sub| > |s| then -1
    else if s[i..i + |sub|] == sub then i
    else FindFrom(s, sub, i + 1)
  }

  /** Python's `s.find(sub)`: the first index of `sub`, or -1. */
  function Find(s: string, sub: string): (r: int)
    ensures r == -1 <==> !Contains(s, sub)
    ensures r != -1 ==> OccursAt(s, sub, r)
    ensures forall j :: 0 <= j && (r == -1 || j < r) ==> !OccursAt(s, sub, j)
  {
    FindFrom(s, sub, 0)
  }

  function RFindBelow(s: string, sub: string, i: int): (r: int)
    requires i <= |s|
    ensures r == -1 || (0 <= r <= i && OccursAt(s, sub, r))
    ensures forall j :: r < j <= i ==> !OccursAt(s, sub, j)
    decreases i + 1
  {
    if i < 0 then -1
    else if OccursAt(s, sub, i) then i
    else RFindBelow(s, sub, i - 1)
  }

  /** Python's `s.rfind(sub)`: the last index of `sub`, or -1. */
  function RFind(s: string, sub: string): (r: int)
    ensures r == -1 <==> !Contains(s, sub)
    ensures r != -1 ==> OccursAt(s, sub, r)
    ensures forall j :: r < j ==> !OccursAt(s, sub, j)
  {
    RFindBelow(s, sub, |s|)
  }

  // ---------------------------------------------------------------------
  // Python slicing with a possibly negative bound
  // ---------------------------------------------------------------------

  /** The cut point Python uses for `xs[:n]` and `xs[n:]`. */
  function SliceIndex(len: nat, n: int): (k: nat)
    ensures k <= len
    ensures 0 <= n ==> k == Min(n, len)
    ensures n < 0 ==> k == Max(0, len + n)
  {
    if n >= 0 then (if n <= len then n else len)
    else if len + n >= 0 then len + n else 0
  }

  /** `xs[:n]`. */
  function Prefix<T>(xs: seq<T>, n: int): (r: seq<T>)
    ensures |r| <= |xs| && r == xs[..|r|]
    ensures 0 <= n ==> |r| == Min(n, |xs|)
  {
    xs[..SliceIndex(|xs|, n)]
  }

  /** `xs[n:]`. */
  function Suffix<T>(xs: seq<T>, n: int): (r: seq<T>)
    ensures Prefix(xs, n) + r == xs
  {
    xs[SliceIndex(|xs|, n)..]
  }

  // ---------------------------------------------------------------------
  // Scanning, stripping and splitting
  // ---------------------------------------------------------------------

  /** The first index at or after `i` whose character satisfies `stop`, or `|s|`. */
  function Scan(s: string, i: nat, stop: char -> bool): (j: nat)
    requires i <= |s|
    ensures i <= j <= |s|
    ensures forall k :: i <= k < j ==> !stop(s[k])
    ensures j < |s| ==> stop(s[j])
    decreases |s| - i
  {
    if i < |s| && !stop(s[i]) then Scan(s, i + 1, stop) else i
  }

  function TrimStart(s: string, drop: char -> bool): (r: string)
    ensures |r| <= |s| && r == s[|s| - |r|..]
    ensures forall i :: 0 <= i < |s| - |r| ==> drop(s[i])
    ensures r != [] ==> !drop(r[0])
    decreases |s|
  {
    if s != [] && drop(s[0]) then TrimStart(s[1..], drop) else s
  }

  function TrimEnd(s: string, drop: char -> bool): (r: string)
    ensures |r| <= |s| && r == s[..|r|]
    ensures forall i :: |r| <= i < |s| ==> drop(s[i])
    ensures r != [] ==> !drop(r[|r| - 1])
    decreases |s|
  {
    if s != [] && drop(s[|s| - 1]) then TrimEnd(s[..|s| - 1], drop) else s
  }

  /** `s.strip(chars)`, with the character set given as a predicate. */
  function Trim(s: string, drop: char -> bool): (r: string)
    ensures |r| <= |s|
    ensures r != [] ==> !drop(r[0]) && !drop(r[|r| - 1])
    ensures r == [] <==> forall i :: 0 <= i < |s| ==> drop(s[i])
    ensures forall c :: c in r ==> c in s
  {
    var t := TrimStart(s, drop);
    var u := TrimEnd(t, drop);
    TrimFacts(s, t, u, drop);
    u
  }

  lemma TrimFacts(s: string, t: string, u: string, drop: char -> bool)
    requires t == TrimStart(s, drop) && u == TrimEnd(t, drop)
    ensures u == [] <==> forall i :: 0 <= i < |s| ==> drop(s[i])
    ensures forall c :: c in u ==> c in s
  {
    assert forall c :: c in u ==> c in t;
    assert forall c :: c in t ==> c in s;
    if u == [] {
      // `t` starts with a kept character unless it is empty, and `u` keeps it
      assert t == [];
    } else {
      assert !drop(u[0]) && u[0] == s[|s| - |t|];
    }
  }

  /** `s.strip()`. */
  function Strip(s: string): (r: string)
    ensures |r| <= |s|
    ensures r != [] ==> !IsSpace(r[0]) && !IsSpace(r[|r| - 1])
    ensures r == [] <==> forall i :: 0 <= i < |s| ==> IsSpace(s[i])
  {
    Trim(s, IsSpace)
  }

  /** A string with no whitespace at either end is its own `strip()`. */
  lemma StripUnpadded(s: string)
    requires s != [] && !IsSpace(s[0]) && !IsSpace(s[|s| - 1])
    ensures Strip(s) == s
  {
    assert TrimStart(s, IsSpace) == s;
    assert TrimEnd(s, IsSpace) == s;
  }

  /** Whitespace around such a string is what `strip()` removes. */
  lemma StripPadded(pad: string, s: string)
    requires forall i :: 0 <= i < |pad| ==> IsSpace(pad[i])
    requires s != [] && !IsSpace(s[0]) && !IsSpace(s[|s| - 1])
    ensures Strip(pad + s + pad) == s
  {
    TrimStartSpaces(pad, s + pad);
    assert pad + s + pad == pad + (s + pad);
    TrimEndSpaces(s, pad);
  }

  lemma {:induction false} TrimStartSpaces(pad: string, v: string)
    requires forall i :: 0 <= i < |pad| ==> IsSpace(pad[i])
    requires v != [] && !IsSpace(v[0])
    ensures TrimStart(pad + v, IsSpace) == v
    decreases |pad|
  {
    if pad == [] {
      assert pad + v == v;
    } else {
      assert (pad + v)[0] == pad[0];
      assert (pad + v)[1..] == pad[1..] + v;
      TrimStartSpaces(pad[1..], v);
    }
  }

  lemma {:induction false} TrimEndSpaces(u: string, pad: string)
    requires forall i :: 0 <= i < |pad| ==> IsSpace(pad[i])
    requires u != [] && !IsSpace(u[|u| - 1])
    ensures TrimEnd(u + pad, IsSpace) == u
    decreases |pad|
  {
    if pad == [] {
      assert u + pad == u;
    } else {
      var w := u + pad;
      assert w[|w| - 1] == pad[|pad| - 1];
      assert w[..|w| - 1] == u + pad[..|pad| - 1];
      TrimEndSpaces(u, pad[..|pad| - 1]);
    }
  }

  predicate IsWord(w: string) {
    w != [] && forall i :: 0 <= i < |w| ==> !IsSpace(w[i])
  }

  /** `s.split()`: the maximal runs of non-whitespace characters, in order. */
  function Words(s: string): (ws: seq<string>)
    ensures forall k :: 0 <= k < |ws| ==> IsWord(ws[k])
    decreases |s|
  {
    var t := TrimStart(s, IsSpace);
    if t == [] then []
    else
      var n := Scan(t, 0, IsSpace);
      FirstWord(t, n);
      var rest := Words(t[n..]);
      ConsWord(t[..n], rest);
      [t[..n]] + rest
  }

  lemma FirstWord(t: string, n: nat)
    requires t != [] && !IsSpace(t[0]) && n == Scan(t, 0, IsSpace)
    ensures 0 < n <= |t| && IsWord(t[..n])
  {
    assert forall i :: 0 <= i < n ==> t[..n][i] == t[i];
  }

  lemma ConsWord(w: string, rest: seq<string>)
    requires IsWord(w) && forall k :: 0 <= k < |rest| ==> IsWord(rest[k])
    ensures forall k :: 0 <= k < |[w] + rest| ==> IsWord(([w] + rest)[k])
  {
  }

  /** `sep.join(parts)`. */
  function Join(sep: string, parts: seq<string>): string {
    if |parts| == 0 then ""
    else if |parts| == 1 then parts[0]
    else parts[0] + sep + Join(sep, parts[1..])
  }

  /** The joined string begins with the first part. */
  lemma JoinStartsWithFirst(sep: string, parts: seq<string>)
    requires parts != []
    ensures StartsWith(Join(sep, parts), parts[0])
  {
    if |parts| > 1 {
      var j := Join(sep, parts);
      assert j == parts[0] + (sep + Join(sep, parts[1..]));
      assert j[..|parts[0]|] == parts[0];
    }
  }

  /** Every part occurs in the joined string. */
  lemma {:induction false} JoinContainsParts(sep: string, parts: seq<string>, k: nat)
    requires k < |parts|
    ensures Contains(Join(sep, parts), parts[k])
    decreases |parts|
  {
    var j := Join(sep, parts);
    if |parts| == 1 {
      assert OccursAt(j, parts[0], 0);
    } else {
      var rest := Join(sep, parts[1..]);
      assert j == parts[0] + sep + rest;
      if k == 0 {
        assert j[..|parts[0]|] == parts[0];
        assert OccursAt(j, parts[0], 0);
      } else {
        JoinContainsParts(sep, parts[1..], k - 1);
        assert parts[1..][k - 1] == parts[k];
        var i :| 0 <= i <= |rest| - |parts[k]| && OccursAt(rest, parts[k], i);
        var off := |parts[0]| + |sep|;
        assert j[off..] == rest;
        assert j[off + i..off + i + |parts[k]|] == rest[i..i + |parts[k]|];
        assert OccursAt(j, parts[k], off + i);
      }
    }
  }

  /** `s.split(sep)` for a one-character separator. */
  function SplitOn(s: string, sep: char): (parts: seq<string>)
    ensures |parts| >= 1
    ensures Join([sep], parts) == s
    ensures forall k :: 0 <= k < |parts| ==> sep !in parts[k]
    decreases |s|
  {
    var k := Scan(s, 0, c => c == sep);
    if k == |s| then [s]
    else
      var rest := SplitOn(s[k + 1..], sep);
      assert s == s[..k] + [sep] + s[k + 1..];
      [s[..k]] + rest
  }

  /** `s.splitlines()`: no line holds a line boundary, and a trailing
      boundary does not open an empty last line. */
  function SplitLines(s: string): (lines: seq<string>)
    ensures s == [] <==> lines == []
    ensures forall k, c :: 0 <= k < |lines| && c in lines[k] ==> !IsLineBreak(c)
    decreases |s|
  {
    if s == [] then []
    else
      var k := Scan(s, 0, IsLineBreak);
      if k == |s| then [s]
      else
        var skip := if s[k] == '\r' && k + 1 < |s| && s[k + 1] == '\n' then 2 else 1;
        [s[..k]] + SplitLines(s[k + skip..])
  }

  // ---------------------------------------------------------------------
  // Lemmas about words
  // ---------------------------------------------------------------------

  lemma WordsSkipsLeadingSpace(s: string)
    requires s != [] && IsSpace(s[0])
    ensures Words(s) == Words(s[1..])
  {
    assert TrimStart(s, IsSpace) == TrimStart(s[1..], IsSpace);
  }

  lemma WordsOfWordThen(w: string, rest: string)
    requires IsWord(w)
    ensures Words(w + rest) == [w] + Words(rest) || (rest != [] && !IsSpace(rest[0]))
  {
    var s := w + rest;
    assert TrimStart(s, IsSpace) == s;
    var n := Scan(s, 0, IsSpace);
    if rest == [] || IsSpace(rest[0]) {
      assert forall i :: 0 <= i < |w| ==> s[i] == w[i];
      assert rest != [] ==> s[|w|] == rest[0];
      assert n == |w|;
      assert s[..n] == w;
      assert s[n..] == rest;
    }
  }

  /** Splitting the join of a word list on whitespace gives the list back. */
  lemma {:induction false} WordsOfJoin(ws: seq<string>)
    requires forall k :: 0 <= k < |ws| ==> IsWord(ws[k])
    ensures Words(Join(" ", ws)) == ws
    decreases |ws|, 1
  {
    if |ws| >= 2 {
      WordsOfLongJoin(ws);
    } else {
      WordsOfShortJoin(ws);
    }
  }

  lemma WordsOfShortJoin(ws: seq<string>)
    requires |ws| < 2 && forall k :: 0 <= k < |ws| ==> IsWord(ws[k])
    ensures Words(Join(" ", ws)) == ws
  {
    if |ws| == 1 {
      WordsOfWord(ws[0]);
    }
  }

  lemma {:induction false} WordsOfLongJoin(ws: seq<string>)
    requires |ws| >= 2 && forall k :: 0 <= k < |ws| ==> IsWord(ws[k])
    ensures Words(Join(" ", ws)) == ws
    decreases |ws|, 0
  {
    var tl := ws[1..];
    assert forall k :: 0 <= k < |tl| ==> IsWord(tl[k]) by {
      forall k | 0 <= k < |tl|
        ensures IsWord(tl[k])
      {
        assert tl[k] == ws[k + 1];
      }
    }
    JoinWordsStep(ws);
    WordsOfJoin(tl);
    HeadTail(ws);
  }

  /** The first word of a join of two or more parts comes off whole. */
  lemma JoinWordsStep(ws: seq<string>)
    requires |ws| >= 2 && IsWord(ws[0])
    ensures Words(Join(" ", ws)) == [ws[0]] + Words(Join(" ", ws[1..]))
  {
    var tail := Join(" ", ws[1..]);
    AppendAssoc(ws[0], " ", tail);
    WordThenSpace(ws[0], tail);
  }

  lemma WordsOfWord(w: string)
    requires IsWord(w)
    ensures Words(w) == [w]
  {
    var e: string := [];
    WordsOfWordThen(w, e);
    assert w + e == w;
    assert Words(e) == [] by {
      assert TrimStart(e, IsSpace) == e;
    }
  }

  /** A word, a space and more text: the word, then the words of the rest. */
  lemma WordThenSpace(w: string, tail: string)
    requires IsWord(w)
    ensures Words(w + (" " + tail)) == [w] + Words(tail)
  {
    var rest := " " + tail;
    WordsOfWordThen(w, rest);
    WordsSkipsLeadingSpace(rest);
    assert rest[1..] == tail;
  }

  /** A string Python reads as true. */
  predicate Filled(s: string) {
    s != ""
  }

  /** `[x for x in xs if p(x)]`. */
  function Filter<T(!new)>(xs: seq<T>, p: T -> bool): (r: seq<T>)
    ensures |r| <= |xs|
    ensures forall k :: 0 <= k < |r| ==> p(r[k])
    ensures forall x :: x in r <==> x in xs && p(x)
  {
    if xs == [] then []
    else
      var rest := Filter(xs[1..], p);
      assert forall x :: x in xs <==> x == xs[0] || x in xs[1..];
      (if p(xs[0]) then [xs[0]] else []) + rest
  }

  /** Filtering distributes over concatenation. */
  lemma {:induction false} FilterAppend<T(!new)>(xs: seq<T>, ys: seq<T>, p: T -> bool)
    ensures Filter(xs + ys, p) == Filter(xs, p) + Filter(ys, p)
    decreases |xs|
  {
    if xs == [] {
      assert xs + ys == ys;
    } else {
      assert (xs + ys)[0] == xs[0];
      assert (xs + ys)[1..] == xs[1..] + ys;
      FilterAppend(xs[1..], ys, p);
    }
  }

  lemma HeadTail<T>(xs: seq<T>)
    requires xs != []
    ensures xs == [xs[0]] + xs[1..]
  {
  }

  lemma AppendAssoc<T>(a: seq<T>, b: seq<T>, c: seq<T>)
    ensures a + b + c == a + (b + c)
  {
  }

  lemma {:induction false} TrimStartAppend(u: string, v: string, drop: char -> bool)
    requires TrimStart(u, drop) != []
    ensures TrimStart(u + v, drop) == TrimStart(u, drop) + v
    decreases |u|
  {
    var uv := u + v;
    assert uv[0] == u[0];
    if drop(u[0]) {
      assert uv[1..] == u[1..] + v;
      assert TrimStart(u, drop) == TrimStart(u[1..], drop);
      TrimStartAppend(u[1..], v, drop);
    }
  }

  lemma {:induction false} ScanAppend(t: string, v: string, i: nat, stop: char -> bool)
    requires i <= |t|
    requires Scan(t, i, stop) < |t| || v == [] || stop(v[0])
    ensures Scan(t + v, i, stop) == Scan(t, i, stop)
    decreases |t| - i
  {
    if i < |t| && !stop(t[i]) {
      assert (t + v)[i] == t[i];
      ScanAppend(t, v, i + 1, stop);
    } else if i == |t| && v != [] {
      assert (t + v)[i] == v[0];
    }
  }

  lemma WordsUnfold(s: string, t: string, n: nat)
    requires t == TrimStart(s, IsSpace) && t != [] && n == Scan(t, 0, IsSpace)
    ensures 0 < n <= |t| && Words(s) == [t[..n]] + Words(t[n..])
  {
    FirstWord(t, n);
  }

  lemma AllSpaceWords(s: string)
    requires forall i :: 0 <= i < |s| ==> IsSpace(s[i])
    ensures Words(s) == []
  {
  }

  lemma SliceAppend<T>(a: seq<T>, b: seq<T>, n: nat)
    requires n <= |a|
    ensures (a + b)[..n] == a[..n] && (a + b)[n..] == a[n..] + b
  {
  }

  /** Trailing whitespace does not change `split()`. */
  lemma {:induction false} WordsAppendSpaces(u: string, sp: string)
    requires forall i :: 0 <= i < |sp| ==> IsSpace(sp[i])
    ensures Words(u + sp) == Words(u)
    decreases |u|
  {
    var t := TrimStart(u, IsSpace);
    if t == [] {
      assert forall i :: 0 <= i < |u + sp| ==> IsSpace((u + sp)[i]);
      AllSpaceWords(u + sp);
      AllSpaceWords(u);
    } else {
      TrimStartAppend(u, sp, IsSpace);
      var n := Scan(t, 0, IsSpace);
      ScanAppend(t, sp, 0, IsSpace);
      WordsUnfold(u, t, n);
      WordsUnfold(u + sp, t + sp, n);
      SliceAppend(t, sp, n);
      WordsAppendSpaces(t[n..], sp);
    }
  }

  lemma TrimStartIdempotent(s: string, drop: char -> bool)
    ensures TrimStart(TrimStart(s, drop), drop) == TrimStart(s, drop)
  {
  }

  lemma WordsOfTrimStart(s: string)
    ensures Words(TrimStart(s, IsSpace)) == Words(s)
  {
    TrimStartIdempotent(s, IsSpace);
  }

  lemma TrimEndSplit(t: string)
    ensures var u := TrimEnd(t, IsSpace);
            t == u + t[|u|..] && forall i :: 0 <= i < |t[|u|..]| ==> IsSpace(t[|u|..][i])
  {
  }

  /** `s.split()` is empty exactly when `s` is blank. */
  lemma WordsEmpty(s: string)
    ensures Words(s) == [] <==> Strip(s) == []
  {
  }

  /** `s.strip().split() == s.split()`. */
  lemma WordsOfStrip(s: string)
    ensures Words(Strip(s)) == Words(s)
  {
    var t := TrimStart(s, IsSpace);
    var u := TrimEnd(t, IsSpace);
    assert Strip(s) == u;
    WordsOfTrimStart(s);
    TrimEndSplit(t);
    WordsAppendSpaces(u, t[|u|..]);
  }

  lemma JoinOfWordsNonEmpty(ws: seq<string>)
    requires |ws| > 0 && forall k :: 0 <= k < |ws| ==> IsWord(ws[k])
    ensures Join(" ", ws) != []
  {
    if |ws| > 1 {
      assert |Join(" ", ws)| >= |ws[0]|;
    }
  }
}

=== FILE: utils.dfy ===
/** The resume helpers of `utils.py`: evidence snippets (with contact lines
    filtered out) and bullet extraction.
 */
module ResumeUtils {
  import opened Wrappers
  import opened Text

  // ---------------------------------------------------------------------
  // Decimal numerals for the snippet ids
  // ---------------------------------------------------------------------

  function DigitChar(d: nat): (c: char)
    requires d < 10
    ensures IsDigit(c) && DigitValue(c) == d
  {
    ('0' as int + d) as char
  }

  /** `str(n)` for a natural number. */
  function Numeral(n: nat): (s: string)
    ensures s != [] && forall i :: 0 <= i < |s| ==> IsDigit(s[i])
    decreases n
  {
    if n < 10 then [DigitChar(n)] else Numeral(n / 10) + [DigitChar(n % 10)]
  }

  /** The value of a string of decimal digits. */
  function NumeralValue(s: string): nat
    requires forall i :: 0 <= i < |s| ==> IsDigit(s[i])
    decreases |s|
  {
    if s == [] then 0 else 10 * NumeralValue(s[..|s| - 1]) + DigitValue(s[|s| - 1])
  }

  lemma {:induction false} NumeralRoundTrip(n: nat)
    ensures NumeralValue(Numeral(n)) == n
    decreases n
  {
    var s := Numeral(n);
    if n >= 10 {
      NumeralRoundTrip(n / 10);
      assert s[..|s| - 1] == Numeral(n / 10);
    }
  }

  /** Different numbers have different numerals. */
  lemma NumeralInjective(a: nat, b: nat)
    requires Numeral(a) == Numeral(b)
    ensures a == b
  {
    NumeralRoundTrip(a);
    NumeralRoundTrip(b);
  }

  // ---------------------------------------------------------------------
  // Contact-line patterns
  // ---------------------------------------------------------------------

  /** An '@' at `i` with a non-space on each side. */
  predicate EmailAt(t: string, i: int) {
    0 < i < |t| - 1 && t[i] == '@' && !IsSpace(t[i - 1]) && !IsSpace(t[i + 1])
  }

  /** `re.search(r"\S+@\S+", t)`. */
  predicate HasEmail(t: string)
    ensures HasEmail(t) ==> |t| >= 3 && '@' in t[1..|t| - 1]
  {
    exists i :: 0 < i < |t| - 1 && EmailAt(t, i)
  }

  /** `n` digits starting at `j`. */
  predicate DigitsAt(t: string, j: int, n: nat) {
    0 <= j && j + n <= |t| && forall k :: j <= k < j + n ==> IsDigit(t[k])
  }

  /** The class `[-.\s]`. */
  predicate IsPhoneSep(c: char) {
    c == '-' || c == '.' || IsSpace(c)
  }

  /** `[-.\s]?\d{4}` at `j`. */
  predicate LineNumberAt(t: string, j: int) {
    DigitsAt(t, j, 4) || (0 <= j < |t| && IsPhoneSep(t[j]) && DigitsAt(t, j + 1, 4))
  }

  /** `\d{3}[-.\s]?\d{4}` at `j`. */
  predicate ExchangeAt(t: string, j: int) {
    DigitsAt(t, j, 3) && LineNumberAt(t, j + 3)
  }

  /** `[-.\s]?\d{3}[-.\s]?\d{4}` at `j`. */
  predicate AfterAreaAt(t: string, j: int) {
    ExchangeAt(t, j) || (0 <= j < |t| && IsPhoneSep(t[j]) && ExchangeAt(t, j + 1))
  }

  /** `\d{3}\)?[-.\s]?\d{3}[-.\s]?\d{4}` at `i`; the optional leading '('
      only lets a match start one character earlier, so `search` finds a
      match exactly when one of these does. */
  predicate PhoneAt(t: string, i: int) {
    DigitsAt(t, i, 3)
    && (AfterAreaAt(t, i + 3) || (i + 3 < |t| && t[i + 3] == ')' && AfterAreaAt(t, i + 4)))
  }

  /** `re.search(r"\(?\d{3}\)?[-.\s]?\d{3}[-.\s]?\d{4}", t)`. */
  predicate HasPhone(t: string)
    ensures HasPhone(t) ==> |t| >= 10
  {
    exists i :: 0 <= i < |t| && PhoneAt(t, i)
  }

  /** `re.search(r"https?://", t)`. */
  predicate HasUrl(t: string)
    ensures HasUrl(t) ==> |t| >= 7
  {
    Contains(t, "http://") || Contains(t, "https://")
  }

  // ---------------------------------------------------------------------
  // extract_resume_snippets
  // ---------------------------------------------------------------------

  const SnippetLength: nat := 120

  datatype Snippet = Snippet(id: string, snippet: string)

  /** A stripped line is used unless it is too short or looks like contact
      information. */
  predicate Qualifies(t: string, minLength: int) {
    !(|t| < minLength || HasEmail(t) || HasPhone(t) || HasUrl(t))
  }

  /** The values `f` gives the lines it keeps, in line order. */
  function Keep(lines: seq<string>, f: string -> Option<string>): (r: seq<string>)
    ensures |r| <= |lines|
    ensures forall k :: 0 <= k < |r| ==> exists l :: l in lines && f(l) == Some(r[k])
    decreases |lines|
  {
    if lines == [] then []
    else
      var init := Keep(lines[..|lines| - 1], f);
      assert forall l :: l in lines[..|lines| - 1] ==> l in lines;
      init + match f(lines[|lines| - 1]) { case Some(t) => [t] case None => [] }
  }

  lemma KeepExtend(lines: seq<string>, i: nat, f: string -> Option<string>)
    requires i < |lines|
    ensures Keep(lines[..i + 1], f)
            == Keep(lines[..i], f) + match f(lines[i]) { case Some(t) => [t] case None => [] }
  {
    assert lines[..i + 1][..i] == lines[..i];
  }

  /** What a prefix of the lines keeps is a prefix of what all of them keep. */
  lemma {:induction false} KeepOfPrefix(lines: seq<string>, i: nat, f: string -> Option<string>)
    requires i <= |lines|
    ensures var c := Keep(lines, f);
            var ci := Keep(lines[..i], f);
            |ci| <= |c| && c[..|ci|] == ci
    decreases |lines| - i
  {
    if i < |lines| {
      KeepOfPrefix(lines, i + 1, f);
      KeepExtend(lines, i, f);
    } else {
      assert lines[..i] == lines;
    }
  }

  /** The snippet text of one line, if the line qualifies. */
  function SnippetOf(line: string, minLength: int): (r: Option<string>)
    ensures r.Some? <==> Qualifies(Strip(line), minLength)
    ensures r.Some? ==> r.value == Prefix(Strip(line), SnippetLength)
    ensures r.Some? ==> |r.value| <= SnippetLength && |r.value| >= Min(Max(minLength, 0), SnippetLength)
  {
    var t := Strip(line);
    if Qualifies(t, minLength) then Some(Prefix(t, SnippetLength)) else None
  }

  /** The snippet texts of every qualifying line, in line order. */
  function Candidates(lines: seq<string>, minLength: int): (r: seq<string>)
    ensures |r| <= |lines|
    ensures forall k :: 0 <= k < |r| ==> |r[k]| <= SnippetLength && |r[k]| >= Min(Max(minLength, 0), SnippetLength)
  {
    Keep(lines, l => SnippetOf(l, minLength))
  }

  function SnippetId(n: nat): string {
    "R" + Numeral(n)
  }

  /** The texts numbered "R1", "R2", ... in order. */
  function Numbered(texts: seq<string>): (r: seq<Snippet>)
    ensures |r| == |texts|
    ensures forall k :: 0 <= k < |r| ==> r[k] == Snippet(SnippetId(k + 1), texts[k])
  {
    seq(|texts|, k requires 0 <= k < |texts| => Snippet(SnippetId(k + 1), texts[k]))
  }

  /** How many snippets the loop lets through as written: it appends before
      it tests the counter, so a limit below one still lets one through. */
  function AsWrittenCap(maxSnippets: int): nat {
    Max(maxSnippets, 1)
  }

  lemma CandidatesExtend(lines: seq<string>, i: nat, minLength: int)
    requires i < |lines|
    ensures Candidates(lines[..i + 1], minLength)
            == Candidates(lines[..i], minLength)
               + (if Qualifies(Strip(lines[i]), minLength) then [Prefix(Strip(lines[i]), SnippetLength)] else [])
  {
    KeepExtend(lines, i, l => SnippetOf(l, minLength));
  }

  lemma CandidatesOfPrefix(lines: seq<string>, i: nat, minLength: int)
    requires i <= |lines|
    ensures var c := Candidates(lines, minLength);
            var ci := Candidates(lines[..i], minLength);
            |ci| <= |c| && c[..|ci|] == ci
  {
    KeepOfPrefix(lines, i, l => SnippetOf(l, minLength));
  }

  lemma NumberedExtend(texts: seq<string>, t: string)
    ensures Numbered(texts + [t]) == Numbered(texts) + [Snippet(SnippetId(|texts| + 1), t)]
  {
  }

  /** A line that does not qualify adds no candidate. */
  lemma SkipLine(lines: seq<string>, i: nat, minLength: int)
    requires i < |lines| && !Qualifies(Strip(lines[i]), minLength)
    ensures Candidates(lines[..i + 1], minLength) == Candidates(lines[..i], minLength)
  {
    CandidatesExtend(lines, i, minLength);
  }

  /** A qualifying line adds the next numbered snippet. */
  lemma TakeLine(lines: seq<string>, i: nat, minLength: int)
    requires i < |lines| && Qualifies(Strip(lines[i]), minLength)
    ensures var c := Candidates(lines[..i], minLength);
            Numbered(Candidates(lines[..i + 1], minLength))
            == Numbered(c) + [Snippet(SnippetId(|c| + 1), Prefix(Strip(lines[i]), SnippetLength))]
  {
    CandidatesExtend(lines, i, minLength);
    NumberedExtend(Candidates(lines[..i], minLength), Prefix(Strip(lines[i]), SnippetLength));
  }

  /** One pass of the loop's test: the stripped line, cut to 120
      characters, is kept unless it is short or holds contact details. */
  method ConsiderLine(lines: seq<string>, i: nat, minLength: int) returns (keep: bool, snippetText: string)
    requires i < |lines|
    ensures keep ==> Candidates(lines[..i + 1], minLength) == Candidates(lines[..i], minLength) + [snippetText]
    ensures !keep ==> Candidates(lines[..i + 1], minLength) == Candidates(lines[..i], minLength)
  {
    var text := Strip(lines[i]);
    keep := Qualifies(text, minLength);
    snippetText := Prefix(text, SnippetLength);
    CandidatesExtend(lines, i, minLength);
  }

  /** Once `cap` candidates are gathered, they are the first `cap` of all. */
  lemma CapReached(lines: seq<string>, i: nat, minLength: int, cap: nat)
    requires i <= |lines| && |Candidates(lines[..i], minLength)| == cap
    ensures Prefix(Candidates(lines, minLength), cap) == Candidates(lines[..i], minLength)
  {
    CandidatesOfPrefix(lines, i, minLength);
  }

  /** The loop's step on a kept line: the snippets so far, plus the next
      one, are the numbered candidates of one more line. */
  lemma KeepStep(lines: seq<string>, i: nat, minLength: int, snippets: seq<Snippet>, snippetText: string)
    requires i < |lines|
    requires snippets == Numbered(Candidates(lines[..i], minLength))
    requires Candidates(lines[..i + 1], minLength) == Candidates(lines[..i], minLength) + [snippetText]
    ensures snippets + [Snippet(SnippetId(|snippets| + 1), snippetText)]
            == Numbered(Candidates(lines[..i + 1], minLength))
  {
    NumberedExtend(Candidates(lines[..i], minLength), snippetText);
  }

  /** When the loop ends, either on the cap or after the last line, the
      snippets are the first `cap` numbered candidates. */
  lemma LoopExit(lines: seq<string>, i: nat, minLength: int, cap: nat, snippets: seq<Snippet>, done: bool)
    requires i <= |lines|
    requires snippets == Numbered(Candidates(lines[..i], minLength))
    requires done ==> |snippets| == cap
    requires !done ==> i == |lines| && |snippets| < cap
    ensures snippets == Numbered(Prefix(Candidates(lines, minLength), cap))
  {
    if done {
      CapReached(lines, i, minLength, cap);
    } else {
      assert lines[..i] == lines;
    }
  }

  /** `extract_resume_snippets(resume_text, max_snippets, min_length)` as
      written: the qualifying lines' first 120 characters, numbered from
      "R1", stopping once the counter passes `max_snippets`. */
  method ExtractResumeSnippets(resumeText: string, maxSnippets: int, minLength: int)
    returns (snippets: seq<Snippet>)
    ensures snippets == Numbered(Prefix(Candidates(SplitLines(resumeText), minLength), AsWrittenCap(maxSnippets)))
  {
    var lines := SplitLines(resumeText);
    snippets := [];
    var counter := 1;
    var i := 0;
    var done := false;  // the `break` once the counter passes the limit
    while i < |lines| && !done
      invariant 0 <= i <= |lines|
      invariant snippets == Numbered(Candidates(lines[..i], minLength))
      invariant counter == |snippets| + 1
      invariant !done ==> |snippets| < AsWrittenCap(maxSnippets)
      invariant done ==> |snippets| == AsWrittenCap(maxSnippets)
      decreases |lines| - i
    {
      var keep, snippetText := ConsiderLine(lines, i, minLength);
      if keep {
        KeepStep(lines, i, minLength, snippets, snippetText);
        snippets := snippets + [Snippet(SnippetId(counter), snippetText)];
        counter := counter + 1;
        done := counter > maxSnippets;
      }
      i := i + 1;
    }
    LoopExit(lines, i, minLength, AsWrittenCap(maxSnippets), snippets, done);
  }

  /** A limit of zero or less still yields one snippet as soon as some line
      qualifies. */
  lemma NonPositiveLimitYieldsOne(lines: seq<string>, maxSnippets: int, minLength: int)
    requires maxSnippets <= 0 && Candidates(lines, minLength) != []
    ensures |Numbered(Prefix(Candidates(lines, minLength), AsWrittenCap(maxSnippets)))| == 1
  {
  }

  /** An address is recognised. */
  lemma EmailExample()
    ensures HasEmail("jane@example.com")
  {
    assert EmailAt("jane@example.com", 4);
  }

  /** A link is recognised wherever it stands. */
  lemma UrlExample()
    ensures HasUrl("see https://x.io")
  {
    assert OccursAt("see https://x.io", "https://", 4) by {
      assert "see https://x.io"[4..12] == "https://";
    }
  }

  /** A North American number is recognised in its common spellings. */
  lemma PhoneExamples()
    ensures HasPhone("(555) 123-4567") && HasPhone("555.123.4567") && HasPhone("5551234567")
  {
    ParenthesisedPhone();
    DottedPhone();
    BarePhone();
  }

  lemma ParenthesisedPhone()
    ensures PhoneAt("(555) 123-4567", 1)
  {
    var t := "(555) 123-4567";
    assert DigitsAt(t, 1, 3) && t[4] == ')';
    assert ExchangeAt(t, 6) by {
      assert DigitsAt(t, 6, 3);
      assert IsPhoneSep(t[9]) && DigitsAt(t, 10, 4);
    }
    assert IsPhoneSep(t[5]);
  }

  lemma DottedPhone()
    ensures PhoneAt("555.123.4567", 0)
  {
    var t := "555.123.4567";
    assert DigitsAt(t, 0, 3);
    assert ExchangeAt(t, 4) by {
      assert DigitsAt(t, 4, 3);
      assert IsPhoneSep(t[7]) && DigitsAt(t, 8, 4);
    }
    assert IsPhoneSep(t[3]);
  }

  lemma BarePhone()
    ensures PhoneAt("5551234567", 0)
  {
    var t := "5551234567";
    assert DigitsAt(t, 0, 3);
    assert ExchangeAt(t, 3) by {
      assert DigitsAt(t, 3, 3) && DigitsAt(t, 6, 4);
    }
  }

  /** A run of 'x' is neither contact information nor padded. */
  lemma RunOfXQualifies(t: string)
    requires t != [] && forall i :: 0 <= i < |t| ==> t[i] == 'x'
    ensures Strip(t) == t && !HasEmail(t) && !HasPhone(t) && !HasUrl(t)
  {
    RunOfXNoPhone(t);
    assert !HasEmail(t) by {
      forall i | 0 < i < |t| - 1
        ensures !EmailAt(t, i)
      {
        assert t[i] == 'x';
      }
    }
    assert !HasUrl(t) by {
      MissingCharNotContained(t, "http://", 'h');
      MissingCharNotContained(t, "https://", 'h');
    }
    RunOfXStripped(t);
  }

  lemma RunOfXNoPhone(t: string)
    requires forall i :: 0 <= i < |t| ==> t[i] == 'x'
    ensures !HasPhone(t)
  {
    forall i | 0 <= i < |t|
      ensures !PhoneAt(t, i)
    {
      assert !IsDigit(t[i]);
    }
  }

  lemma RunOfXStripped(t: string)
    requires t != [] && forall i :: 0 <= i < |t| ==> t[i] == 'x'
    ensures Strip(t) == t
  {
    assert TrimStart(t, IsSpace) == t;
    assert TrimEnd(t, IsSpace) == t;
  }

  /** For instance, one line of sixty 'x' with `max_snippets=0` and
      `min_length=50`. */
  lemma ZeroLimitStillYieldsOne()
    ensures var line: string := seq(60, (i: int) => 'x');
            |Numbered(Prefix(Candidates([line], 50), AsWrittenCap(0)))| == 1
  {
    var line: string := seq(60, (i: int) => 'x');
    RunOfXQualifies(line);
    TakeLine([line], 0, 50);
    assert [line][..1] == [line];
    NonPositiveLimitYieldsOne([line], 0, 50);
  }

  /** The loop with the counter compared before a snippet is added: never
      more than `max_snippets`, and otherwise the same snippets. */
  function ExtractResumeSnippetsFixed(resumeText: string, maxSnippets: int, minLength: int)
    : (r: seq<Snippet>)
    ensures |r| <= Max(maxSnippets, 0)
    ensures var c := Candidates(SplitLines(resumeText), minLength);
            |r| == Min(|c|, Max(maxSnippets, 0)) && forall k :: 0 <= k < |r| ==> r[k].snippet == c[k]
    ensures maxSnippets >= 1 ==> forall k :: 0 <= k < |r| ==> r[k].id == SnippetId(k + 1)
    ensures forall k :: 0 <= k < |r| ==> |r[k].snippet| <= SnippetLength
  {
    var c := Candidates(SplitLines(resumeText), minLength);
    Numbered(c[..Min(|c|, Max(maxSnippets, 0))])
  }

  /** Snippet ids are distinct. */
  lemma SnippetIdsDistinct(texts: seq<string>, j: nat, k: nat)
    requires j < k < |texts|
    ensures Numbered(texts)[j].id != Numbered(texts)[k].id
  {
    if SnippetId(j + 1) == SnippetId(k + 1) {
      assert Numeral(j + 1) == SnippetId(j + 1)[1..];
      assert Numeral(k + 1) == SnippetId(k + 1)[1..];
      NumeralInjective(j + 1, k + 1);
    }
  }

  // ---------------------------------------------------------------------
  // extract_resume_bullets
  // ---------------------------------------------------------------------

  /** The characters of `strip("•*- ")`. */
  predicate IsBulletChar(c: char) {
    c == '•' || c == '*' || c == '-' || c == ' '
  }

  /** `line.strip("•*- ").strip()`. */
  function CleanBullet(line: string): (r: string)
    ensures r != [] ==> !IsSpace(r[0]) && !IsSpace(r[|r| - 1])
    ensures |r| <= |line|
  {
    Strip(Trim(line, IsBulletChar))
  }

  predicate KeptBullet(b: string) {
    25 < |b| < 250
  }

  /** The cleaned line, if it has bullet length. */
  function BulletOf(line: string): (r: Option<string>)
    ensures r.Some? ==> KeptBullet(r.value) && !IsSpace(r.value[0]) && r.value == CleanBullet(line)
    ensures r.None? <==> !KeptBullet(CleanBullet(line))
  {
    var b := CleanBullet(line);
    if KeptBullet(b) then Some(b) else None
  }

  /** The cleaned lines of bullet length, in order. */
  function Bullets(lines: seq<string>): (r: seq<string>)
    ensures forall j :: 0 <= j < |r| ==> KeptBullet(r[j]) && !IsSpace(r[j][0])
    ensures |r| <= |lines|
  {
    Keep(lines, BulletOf)
  }

  /** `extract_resume_bullets(resume_text, k)`. */
  function ExtractResumeBullets(resumeText: string, k: int): (r: seq<string>)
    ensures forall j :: 0 <= j < |r| ==> KeptBullet(r[j]) && !IsSpace(r[j][0])
    ensures 0 <= k ==> |r| == Min(k, |Bullets(SplitLines(resumeText))|)
    ensures k < 0 ==> |r| == Max(0, |Bullets(SplitLines(resumeText))| + k)
    ensures forall j :: 0 <= j < |r| ==> r[j] == Bullets(SplitLines(resumeText))[j]
  {
    PrefixElements(Bullets(SplitLines(resumeText)), k);
    Prefix(Bullets(SplitLines(resumeText)), k)
  }

  /** One cleaned line per input line. */
  function CleanedLines(lines: seq<string>): (r: seq<string>)
    ensures |r| == |lines| && forall i :: 0 <= i < |lines| ==> r[i] == CleanBullet(lines[i])
  {
    seq(|lines|, i requires 0 <= i < |lines| => CleanBullet(lines[i]))
  }

  /** Nothing is lost and nothing is reordered: the bullets are exactly
      the cleaned lines of bullet length, in the order of the lines. */
  lemma {:induction false} BulletsAreKeptCleanLines(lines: seq<string>)
    ensures Bullets(lines) == Filter(CleanedLines(lines), KeptBullet)
    decreases |lines|
  {
    if lines != [] {
      var init := lines[..|lines| - 1];
      var line := lines[|lines| - 1];
      BulletsAreKeptCleanLines(init);
      BulletsOfLastLine(lines);
      CleanedLinesOfLastLine(lines);
      FilterAppend(CleanedLines(init), [CleanBullet(line)], KeptBullet);
    }
  }

  /** `Bullets` takes the last line after the others. */
  lemma BulletsOfLastLine(lines: seq<string>)
    requires lines != []
    ensures var b := CleanBullet(lines[|lines| - 1]);
            Bullets(lines) == Bullets(lines[..|lines| - 1]) + (if KeptBullet(b) then [b] else [])
  {
  }

  /** The cleaned lines end with the cleaned last line, and the filter of
      that one line keeps it exactly when it has bullet length. */
  lemma CleanedLinesOfLastLine(lines: seq<string>)
    requires lines != []
    ensures var b := CleanBullet(lines[|lines| - 1]);
            CleanedLines(lines) == CleanedLines(lines[..|lines| - 1]) + [b]
            && Filter([b], KeptBullet) == (if KeptBullet(b) then [b] else [])
  {
    var b := CleanBullet(lines[|lines| - 1]);
    assert [b][1..] == [];
  }

  lemma PrefixElements(xs: seq<string>, n: int)
    ensures forall j :: 0 <= j < |Prefix(xs, n)| ==> Prefix(xs, n)[j] == xs[j]
  {
    var r := Prefix(xs, n);
    assert r == xs[..|r|];
  }

  lemma CleanLineIsClean(line: string)
    requires line != []
    requires !IsBulletChar(line[0]) && !IsBulletChar(line[|line| - 1])
    requires !IsSpace(line[0]) && !IsSpace(line[|line| - 1])
    ensures CleanBullet(line) == line
  {
    assert TrimStart(line, IsBulletChar) == line;
    assert TrimEnd(line, IsBulletChar) == line;
    assert TrimStart(line, IsSpace) == line;
    assert TrimEnd(line, IsSpace) == line;
  }

  /** A line that is already clean and of bullet length is kept as is. */
  lemma CleanLineIsKept(line: string)
    requires KeptBullet(line)
    requires !IsBulletChar(line[0]) && !IsBulletChar(line[|line| - 1])
    requires !IsSpace(line[0]) && !IsSpace(line[|line| - 1])
    ensures Bullets([line]) == [line]
  {
    assert BulletOf(line) == Some(line) by {
      CleanLineIsClean(line);
    }
    var one := [line];
    assert Keep(one[..0], BulletOf) == [] by {
      assert one[..0] == [];
    }
    assert Keep(one[..1], BulletOf) == [line] by {
      KeepExtend(one, 0, BulletOf);
    }
    assert one[..1] == one;
  }
}

=== FILE: validation.dfy ===
/** `validate_resume` and `validate_jd` of `validation.py`: the required-field
    checks on parsed resumes and job descriptions.
 */
module Validation {
  import opened Json

  datatype Report = Report(isValid: bool, missing: seq<string>)

  /** The names `names[i]` whose flag is set, in order: the reference for a
      sequence of `if flag: missing.append(name)` statements. */
  function Flagged(names: seq<string>, flags: seq<bool>): (r: seq<string>)
    requires |names| == |flags|
    ensures forall x :: x in r ==> x in names
    ensures |r| <= |names|
    decreases |names|
  {
    if names == [] then []
    else (if flags[0] then [names[0]] else []) + Flagged(names[1..], flags[1..])
  }

  /** With distinct names, a name is reported exactly when its flag is set. */
  lemma {:induction false} FlaggedMembership(names: seq<string>, flags: seq<bool>, i: nat)
    requires |names| == |flags| && i < |names|
    requires forall a, b :: 0 <= a < b < |names| ==> names[a] != names[b]
    ensures names[i] in Flagged(names, flags) <==> flags[i]
    decreases |names|
  {
    if i > 0 {
      FlaggedMembership(names[1..], flags[1..], i - 1);
      assert names[1..][i - 1] == names[i];
    }
  }

  const ResumeChecks: seq<string> := ["positions", "skills", "achievements (empty)"]
  const JdChecks: seq<string> := ["role_title", "requirements", "responsibilities"]

  /** The result for a list of missing fields: valid iff none is missing. */
  function Verdict(missing: seq<string>): (r: Report)
    ensures r.missing == missing && (r.isValid <==> missing == [])
  {
    Report(|missing| == 0, missing)
  }

  /** `validate_resume(resume)`: positions and skills must be truthy; an
      achievements entry that is present must be non-empty. */
  function ValidateResume(resume: Dict): (r: Report)
    ensures r.isValid <==> r.missing == []
    ensures r.missing == Flagged(ResumeChecks, [!TruthyAt(resume, "positions"), !TruthyAt(resume, "skills"),
                                                "achievements" in resume && !Truthy(resume["achievements"])])
  {
    var m0: seq<string> := [];
    var m1 := if !TruthyAt(resume, "positions") then m0 + ["positions"] else m0;
    var m2 := if !TruthyAt(resume, "skills") then m1 + ["skills"] else m1;
    var m3 := if "achievements" in resume && !Truthy(resume["achievements"]) then m2 + ["achievements (empty)"] else m2;
    Verdict(m3)
  }

  /** `validate_jd(jd)`: role title, requirements and responsibilities must
      all be truthy. */
  function ValidateJd(jd: Dict): (r: Report)
    ensures r.isValid <==> r.missing == []
    ensures r.missing == Flagged(JdChecks, [!TruthyAt(jd, "role_title"), !TruthyAt(jd, "requirements"),
                                            !TruthyAt(jd, "responsibilities")])
  {
    var m0: seq<string> := [];
    var m1 := if !TruthyAt(jd, "role_title") then m0 + ["role_title"] else m0;
    var m2 := if !TruthyAt(jd, "requirements") then m1 + ["requirements"] else m1;
    var m3 := if !TruthyAt(jd, "responsibilities") then m2 + ["responsibilities"] else m2;
    Verdict(m3)
  }

  /** Each resume check is reported exactly when its condition holds; in
      particular an absent achievements key is never reported. */
  lemma ResumeChecksExact(resume: Dict)
    ensures "positions" in ValidateResume(resume).missing <==> !TruthyAt(resume, "positions")
    ensures "skills" in ValidateResume(resume).missing <==> !TruthyAt(resume, "skills")
    ensures "achievements (empty)" in ValidateResume(resume).missing
            <==> "achievements" in resume && !Truthy(resume["achievements"])
  {
    var flags := [!TruthyAt(resume, "positions"), !TruthyAt(resume, "skills"),
                  "achievements" in resume && !Truthy(resume["achievements"])];
    FlaggedMembership(ResumeChecks, flags, 0);
    FlaggedMembership(ResumeChecks, flags, 1);
    FlaggedMembership(ResumeChecks, flags, 2);
  }

  /** Each job-description field is reported exactly when it is falsy. */
  lemma JdChecksExact(jd: Dict)
    ensures "role_title" in ValidateJd(jd).missing <==> !TruthyAt(jd, "role_title")
    ensures "requirements" in ValidateJd(jd).missing <==> !TruthyAt(jd, "requirements")
    ensures "responsibilities" in ValidateJd(jd).missing <==> !TruthyAt(jd, "responsibilities")
  {
    var flags := [!TruthyAt(jd, "role_title"), !TruthyAt(jd, "requirements"), !TruthyAt(jd, "responsibilities")];
    FlaggedMembership(JdChecks, flags, 0);
    FlaggedMembership(JdChecks, flags, 1);
    FlaggedMembership(JdChecks, flags, 2);
  }
}

=== FILE: wrappers.dfy ===
/** Failure-carrying values shared by every module of the model.

  Python code in the modelled repository signals absence with `None` and
  failure by raising; the model uses `Option` for the first and `Result` for
  the second, so that an error path is a value a contract can talk about.
 */
module Wrappers {

  datatype Option<+T> = None | Some(value: T) {

    /** The wrapped value, or `default` when there is none (Python's `x or default`
        for values whose only falsy form is absence). */
    function GetOr(default: T): T {
      match this
      case Some(v) => v
      case None => default
    }
  }

  datatype Result<+T, +E> = Ok(value: T) | Err(error: E) {

    function ToOption(): Option<T> {
      match this
      case Ok(v) => Some(v)
      case Err(_) => None
    }
  }

  /** Successful results that sit beside their inputs still do after one
      more input and its result are prepended. */
  lemma OkPointwiseCons<A, B, E>(xs: seq<A>, f: A -> Result<B, E>, first: B, rest: seq<B>)
    requires xs != [] && f(xs[0]) == Ok(first) && |rest| == |xs| - 1
    requires forall i :: 0 <= i < |xs[1..]| ==> f(xs[1..][i]) == Ok(rest[i])
    ensures forall i :: 0 <= i < |xs| ==> f(xs[i]) == Ok(([first] + rest)[i])
  {
    forall i | 0 <= i < |xs|
      ensures f(xs[i]) == Ok(([first] + rest)[i])
    {
      if i > 0 {
        assert xs[i] == xs[1..][i - 1] && ([first] + rest)[i] == rest[i - 1];
      }
    }
  }

  function Min(a: int, b: int): int {
    if a <= b then a else b
  }

  function Max(a: int, b: int): int {
    if a <= b then b else a
  }
}
